=== FILE: README.md ===
# Data agent hub: a Dafny model of its deterministic core

The data agent hub is a small Streamlit front end with three back ends that turn an uploaded CSV into chart suggestions. Around the HTTP and LLM plumbing sit a few pieces of pure logic. This project models them and proves what they promise.

- **Column classifiers.** `detect_columns` (in `utils/viz_utils.py`) and the stub's `infer_types` (in `backend/freestyle_stub.py`) sort the columns of a DataFrame into numeric, categorical and temporal lists.
- **Chart builders and the two composers.** These are the line, bar and histogram builders and `default_dashboard`, plus the stub's `vega_line` / `vega_bar` and its `agent` endpoint.
- **The schema summariser** `infer_schema`. It produces one line per column with a missing percentage and up to three samples, followed by the first ten rows as CSV.
- **The agent-boundary text logic.**
  - Prompt templating, in Python and in TypeScript.
  - `extract_json` span selection.
  - Response normalisation and the deterministic fallback.
  - The level/key branching.
  - The keyword rules of the two mock agents.

**Modelling choices**

- A DataFrame is an immutable `Table` of named `Column`s. A column has a dtype and `Value` cells: `Num(real)`, `Text`, `Time(int)` or `Missing`.
- Chart specifications are a `ChartSpec` datatype (mark, inline records, x/y channels, tooltip, height), not Altair or Vega objects.
- Every operation is a pure function, or a method whose loop follows the source loop. Because nothing is mutated, the classifiers work on a copy, and the caller's table is unchanged by construction.
- Foreign libraries are parameters:
  - `pd.to_datetime` is a per-cell `DateParser`.
  - `pd.to_numeric` is a `NumberParser`.
  - `json.loads` is a `JsonParser`.
  - `csv.DictReader` is a `DictReader`.
  - The chat completion is a `Model`.
  - `str(value)` is a `Show`.
  - The whitespace set of `strip` / `trim` is a predicate `ws`.
- Means are exact `real`s.

Modules, one file each:

| module | file | what it holds |
|---|---|---|
| `Wrappers` | wrappers.dfy | `Option` and `Result` |
| `Strings` | strings.dfy | Python string built-ins the core uses: search, `replace`, `split` / `join`, `strip`, `lower`, `title`, `str(int)` |
| `Table` | table.dfy | cells, columns, tables, records, date parsing and numeric coercion of a column, `unique()` |
| `Charts` | charts.dfy | the chart-spec datatype |
| `VizUtils` | viz_utils.dfy | `detect_columns`, the three chart builders, `default_dashboard` |
| `PyRepr` | pyrepr.dfy | `repr` of strings and string lists, for the stub's summary |
| `FreestyleStub` | freestyle_stub.dfy | `infer_types`, `vega_bar`, `vega_line`, the stub's `agent` |
| `Csv` | csv.dfy | the CSV writer with minimal quoting, and a reader for it |
| `SchemaUtils` | schema_utils.dfy | `infer_schema` |
| `Json` | json.dfy | JSON values, dictionary lookup, the JSON form of a spec |
| `LocalRunner` | local_runner.dfy | `build_prompt`, `extract_json`, the fallback, `llm_response`, `agent` |
| `PromptTs` | prompt_ts.dfy | the TypeScript `buildPrompt` |
| `MockAgents` | mock_agents.dfy | both mock agents |

## Model

| member | source | states |
|---|---|---|
| Table.NamesTaggedSpec | utils/viz_utils.py:7-9 | a name is in a list built by appending each column with a given tag iff some column of that name has that tag |
| Table.NamesTaggedInOrder | utils/viz_utils.py:6-20 | with distinct names, such a list keeps column order |
| Table.Lookup | utils/viz_utils.py:24 | `df[name]` finds a column iff the name is a column name, and the column found has that name |
| Table.LookupOwnName | utils/viz_utils.py:24 | with distinct names, looking a column up by its own name finds exactly that column |
| Table.RecordsKeepColumns | backend/freestyle_stub.py:87-88 | `to_dict(orient="records")` has one record per row, and field `i` across the records gives back column `i` |
| Table.ParseDatesSpec | utils/viz_utils.py:13 | `to_datetime(errors="raise")` on a column succeeds iff every cell parses, and then yields each cell's parse, with NaT as missing |
| Table.NumberCells | backend/freestyle_stub.py:45 | coercion keeps the length; each cell becomes its parsed number or NaN |
| Table.CoercionCounts | backend/freestyle_stub.py:45-46 | after coercion, the numbers and the NaNs together are all the cells |
| Table.DistinctPresent | utils/schema_utils.py:8 | `dropna().unique()` holds exactly the present cells, each once, in order of first appearance |
| VizUtils.NumericPass | utils/viz_utils.py:5 | the numeric list is the columns of numeric dtype, in column order |
| VizUtils.NativeTimePass | utils/viz_utils.py:6-9 | the first temporal list is the natively datetime columns, in column order |
| VizUtils.TryParse | utils/viz_utils.py:11-19 | one parse step converts and lists a column exactly when it is object, every cell parses and fewer than 20% come out NaT |
| VizUtils.ParsePass | utils/viz_utils.py:10-19 | the parse pass appends the parsed columns after the native ones, in column order, and converts exactly those columns |
| VizUtils.CategoricalPass | utils/viz_utils.py:20 | the categorical list is the columns that are neither numeric nor temporal, in column order |
| VizUtils.DetectColumns | utils/viz_utils.py:4-21 | the four passes give the declarative role lists and the converted frame |
| VizUtils.VizRoleOfColumn | utils/viz_utils.py:5-20 | numeric iff numeric dtype, so numeric strings never count; temporal iff datetime dtype, or object with every cell parsing and under 20% NaT; categorical iff neither |
| VizUtils.VizRolesAreNames | utils/viz_utils.py:5-20 | only column names are listed |
| VizUtils.VizRolesPartition | utils/viz_utils.py:5-20 | every column is in exactly one of the three lists |
| VizUtils.VizRolesOrdered | utils/viz_utils.py:6-20 | numeric and categorical keep column order; temporal is the native columns then the parsed ones, each in column order |
| VizUtils.WorkingValid | utils/viz_utils.py:16 | replacing parsed columns in place keeps every column name and leaves a well-formed frame |
| VizUtils.KeyBelowTotal | utils/viz_utils.py:24 | the key order `groupby` sorts by (numbers by value, timestamps by time, strings by code point, non-strings before strings) puts any two different comparable keys one way or the other |
| VizUtils.SortedKeys | utils/viz_utils.py:24 | the group keys of `groupby(key_col)` are the distinct present keys of the column, strictly ascending in that order |
| VizUtils.LinePoints | utils/viz_utils.py:24 | one point per distinct present key, ascending, each carrying the mean of its group (NaN if the group has no number) |
| VizUtils.ChartLineOverTime | utils/viz_utils.py:23-28 | succeeds iff both columns exist, no number and timestamp are mixed among the keys and the values are numbers; KeyError for a missing column and TypeError otherwise; a line mark, x typed by `KeyFieldType` from the key column's dtype and cells (which the grouped keys share, by `LineKeyType`), y titled "Mean …", height 300, the group means as data |
| VizUtils.KeyFieldType | utils/viz_utils.py:24-26 | the type Altair infers for an untyped field: temporal iff the dtype is datetime or the cells are timestamps only; quantitative iff the dtype is numeric but not bool, or the cells are numbers only; nominal otherwise (bool, text, mixed kinds, categoricals, no cells) |
| VizUtils.LineKeyType | utils/viz_utils.py:24-26 | typing the grouped, sorted keys gives the same type as typing the key column's cells |
| VizUtils.SortedKeysKinds | utils/viz_utils.py:24 | the grouped keys hold a number, a text or a timestamp exactly when the key column does |
| VizUtils.TimesComparable | utils/viz_utils.py:24 | a column of timestamps can always be grouped |
| VizUtils.BarGroups | utils/viz_utils.py:31-34 | one row per distinct present category, with the mean when `agg == "mean"` and the sum otherwise |
| VizUtils.InsertDesc | utils/viz_utils.py:35 | inserting a row into a descending run keeps it descending and adds exactly that row (as a multiset) |
| VizUtils.SortDesc | utils/viz_utils.py:35 | the sort is a permutation of its input (same multiset of rows), distinct rows stay distinct, and the result is descending with NaN last |
| VizUtils.BarRowsSpec | utils/viz_utils.py:30-35 | bar rows number `head(top_n)` of the groups, are descending, come from input categories with their aggregates, hold no category twice, and no category left out ranks above one kept |
| VizUtils.LeftOutRanksLower | utils/viz_utils.py:35 | a category cut by `head` ranks no higher than any kept row |
| VizUtils.ChartBarTopCategories | utils/viz_utils.py:30-39 | succeeds iff both columns exist, no number and timestamp are mixed among the categories and the values are numbers; KeyError for a missing column and TypeError otherwise; a bar mark, x titled `agg.title()` + column, y typed by `KeyFieldType` from the category dtype and the categories kept after `sort_values(...).head(top_n)`, sorted `-x`, height 300, the sorted cut rows as data |
| VizUtils.ChartHistogram | utils/viz_utils.py:41-45 | the whole frame as data with no aggregation, x binned with `maxbins = bins`, y the count, height 300 |
| VizUtils.PlannedKindsSpec | utils/viz_utils.py:50-55 | at most one chart of each family, line before bar before histogram; line iff temporal and numeric, bar iff categorical and numeric, histogram iff numeric |
| VizUtils.DetectedDrawable | utils/viz_utils.py:48-55 | the classifier's first temporal column holds timestamps, its first numeric column numbers, and its first categorical column exists, all in the converted copy |
| VizUtils.PartsInOrder | utils/viz_utils.py:50-55 | laying the line, bar and histogram parts end to end keeps their kinds and puts each part where the order says |
| VizUtils.DrawCharts | utils/viz_utils.py:49-55 | the call raises a TypeError exactly when the categorical column mixes numbers and timestamps; otherwise the charts follow the planned order, each made by its builder from the first columns of its roles |
| VizUtils.DefaultDashboard | utils/viz_utils.py:47-56 | `default_dashboard` returns the roles of the table and either the TypeError of a categorical column mixing numbers and timestamps (exactly then) or its charts in the planned order, line (mean), bar (mean, top 10) and histogram (30 bins), on the converted copy |
| FreestyleStub.StubStep | backend/freestyle_stub.py:36-52 | one loop step: a column is converted and given the role its declarative kind says |
| FreestyleStub.InferTypes | backend/freestyle_stub.py:32-53 | `infer_types` returns the declarative role lists and the converted copy |
| FreestyleStub.StubRoleOfColumn | backend/freestyle_stub.py:35-52 | temporal iff datetime, or object with every cell parsing (no NaT share required); else numeric iff at least 60% of all cells coerce (5k ≥ 3n); else categorical |
| FreestyleStub.RatioThreshold | backend/freestyle_stub.py:46-47 | the inclusive ratio test `k/n >= 0.6` is exactly `5k >= 3n` |
| FreestyleStub.StubRolesPartition | backend/freestyle_stub.py:35-52 | every column is in exactly one list, and each list keeps column order |
| FreestyleStub.NumericCellsKept | backend/freestyle_stub.py:45-48 | coercing a numeric column leaves its cells as they were |
| FreestyleStub.VegaBar | backend/freestyle_stub.py:55-69 | a bar mark, nominal x and quantitative y titled with their fields, a tooltip mirroring the axes, height 300, the given records as data |
| FreestyleStub.VegaLine | backend/freestyle_stub.py:71-85 | a line mark, temporal x and quantitative y, a tooltip mirroring the axes, height 300, the given records as data |
| FreestyleStub.StubCharts | backend/freestyle_stub.py:101-116 | at most two specs, line then bar, each iff its role lists are non-empty; one suggestion per spec in the same order, else the two fixed defaults |
| FreestyleStub.StubAgent | backend/freestyle_stub.py:90-125 | the stub's reply: the charts over every record of the converted copy, the matching suggestions, and a summary of the shape of the frame as received and its three role lists |
| FreestyleStub.StubSummary | backend/freestyle_stub.py:118-123 | the summary reads back, by `ParseSummary`, as exactly its column count, row count and the temporal, numeric and categorical lists; it opens with "Detected ", a digit run that reads back as the column count, and a space |
| FreestyleStub.SummaryReadsBack | backend/freestyle_stub.py:118-123 | after "Detected " and the column count, the text " columns and ", the row count, " rows. Temporal: ", the three `or 'none'` lists under their labels and the closing sentence read back as the counts and the lists |
| FreestyleStub.TailReadsBack | backend/freestyle_stub.py:120-122 | everything after the column count reads back as the row count and the three lists |
| FreestyleStub.ListsReadBack | backend/freestyle_stub.py:121 | the three lists, under "Temporal: ", ", Numeric: " and ", Categorical: ", read back in that order and are followed by the closing sentence |
| FreestyleStub.StubChartsWellFormed | backend/freestyle_stub.py:103-113 | each stub chart plots a numeric y against a temporal (line) or categorical (bar) x, both columns of the copy, and embeds every row |
| PyRepr.ReprRoundTrip | backend/freestyle_stub.py:121 | `repr` of any string, with its choice of quote and every escape it writes (`\\`, the quote, `\t`, `\n`, `\r`, `\xNN`, `\uNNNN`, `\UNNNNNNNN`), reads back to the string |
| PyRepr.ReprShowsOnlyPrintable | backend/freestyle_stub.py:121 | between its quotes `repr` shows only printable ASCII and non-ASCII characters the Unicode database calls printable; everything else is escaped |
| PyRepr.OrNone | backend/freestyle_stub.py:121 | `f"{names or 'none'}"` prints `none` iff the list is empty |
| PyRepr.LiteralRoundTrip | backend/freestyle_stub.py:121 | a str repr followed by any text reads back as the string, leaving that text |
| PyRepr.ListReprRoundTrip | backend/freestyle_stub.py:121 | `repr` of a list of str, `[]` included, followed by any text reads back as the list, leaving that text |
| PyRepr.OrNoneRoundTrip | backend/freestyle_stub.py:121 | what `f"{names or 'none'}"` prints, followed by any text, reads back as the list, leaving that text |
| Strings.IndexOf | agent-service/src/prompt.ts:9-10 | the position found starts an occurrence, no earlier position does, and there is none iff the text lacks the pattern |
| Strings.FirstIndex | backend/freestyle_local_runner.py:63 | the first `{` of the text, if any |
| Strings.LastIndex | backend/freestyle_local_runner.py:63 | the last `}` of the text, if any |
| Strings.ReplaceAllIsSplitJoin | backend/freestyle_local_runner.py:46-47 | `s.replace(p, r)` equals `r.join(s.split(p))` |
| Strings.SplitJoin | backend/freestyle_local_runner.py:46-47 | joining a split with its separator gives the text back |
| Strings.SplitPiecesFree | backend/freestyle_local_runner.py:46-47 | no piece of a split holds the separator |
| Strings.JoinSplitSingle | utils/schema_utils.py:11 | pieces without a one-character separator survive a join and a split |
| Strings.Strip | backend/freestyle_local_runner.py:42-43 | `strip()` removes exactly the leading and trailing whitespace run and keeps the middle |
| Strings.Lower | backend/mock_agent.py:18 | `lower()` keeps the length and lower-cases each character |
| Strings.LowerIdempotent | backend/mock_agent.py:18 | lower-casing twice is lower-casing once |
| Strings.TitleFromSpec | utils/viz_utils.py:37 | `title()` lower-cases a letter after a letter, upper-cases any other letter, and keeps the rest |
| Strings.NatToString | backend/freestyle_stub.py:120 | `str(n)` is a digit string without a leading zero that denotes `n` |
| Strings.ReadNatRoundTrip | backend/freestyle_stub.py:120 | `str(n)` followed by text that does not start with a digit reads back as `n`, leaving that text |
| Csv.FieldRoundTrip | utils/schema_utils.py:12 | a written field, quoted or not, reads back as itself whatever follows |
| Csv.RowRoundTrip | utils/schema_utils.py:12 | a written record, the single empty field included, reads back as itself |
| Csv.RowsRoundTrip | utils/schema_utils.py:12 | the written text reads back as the records |
| SchemaUtils.MissingTenthsClose | utils/schema_utils.py:6 | the printed percentage is within 0.05 of `100·m/n` and lies in 0..100 |
| SchemaUtils.PercentTextReadsBack | utils/schema_utils.py:6-10 | the one-decimal text reads back to the rounded tenths; an empty column prints `nan` |
| SchemaUtils.PercentNoneMissing | utils/schema_utils.py:6-10 | no missing cell prints `0.0` |
| SchemaUtils.PercentAllMissing | utils/schema_utils.py:6-10 | all cells missing prints `100.0` |
| SchemaUtils.SampleValuesSpec | utils/schema_utils.py:8 | the samples are present values of the column in first-seen order, and a present value left out means there are three samples, all seen before it: the first three distinct present values |
| SchemaUtils.SampleTextSingle | utils/schema_utils.py:8-9 | the joined samples hold a line break exactly when one of the (at most three) printed samples does |
| SchemaUtils.LineIsSingle | utils/schema_utils.py:5-10 | a schema line holds a line break exactly when the column name, the dtype or a printed sample does; the percentage never does |
| SchemaUtils.LineStartsWithName | utils/schema_utils.py:10 | each line starts with the column name and ` (` |
| SchemaUtils.SchemaSplitsIntoLines | utils/schema_utils.py:4-11 | for at least one column, the schema splits at line breaks into exactly one line per column, in column order, if and only if no column name, dtype or printed sample holds a line break |
| SchemaUtils.SchemaText | utils/schema_utils.py:3-11 | the schema text is empty exactly when the frame has no columns |
| SchemaUtils.SampleRowCount | utils/schema_utils.py:12 | `head(10)` keeps `min(10, rows)` rows |
| SchemaUtils.SampleGrid | utils/schema_utils.py:12 | the sample is the header of names, then the first rows with every cell printed and missing cells empty |
| SchemaUtils.SampleCsv | utils/schema_utils.py:12 | reading the sample text back gives exactly that grid |
| SchemaUtils.InferSchema | utils/schema_utils.py:1-13 | `infer_schema` returns a schema text empty exactly when there are no columns, and sample rows that read back as the header and the first rows |
| Json.GetSpec | backend/freestyle_local_runner.py:122-124 | `d.get(key)` finds a value iff some member has the key, and a repeated key gives its last value |
| Json.SpecJson | backend/freestyle_local_runner.py:79-92 | the spec is written as an object with its mark, the height, and a "data" object whose "values" list holds each record's JSON, in order |
| LocalRunner.FillTemplateReplacesAll | backend/freestyle_local_runner.py:46-47 | each placeholder is replaced at every occurrence: the template is cut at each one and rejoined with the value, and no cut piece holds it |
| LocalRunner.SchemaBeforeSample | backend/freestyle_local_runner.py:46-47 | a sample placeholder brought in by the schema text is itself replaced |
| LocalRunner.PlaceholderCanSurvive | backend/freestyle_local_runner.py:46-47 | payloads without placeholders can still leave one: replacing inside a split placeholder rejoins its halves |
| LocalRunner.BuildPrompt | backend/freestyle_local_runner.py:40-55 | the prompt cuts back into the stripped instructions, a blank line, the directive ending in a line break, a line break, and the filled stripped template |
| LocalRunner.PromptDefaults | backend/freestyle_local_runner.py:42-43 | absent keys count as empty |
| LocalRunner.BraceSpanSpec | backend/freestyle_local_runner.py:63 | the regex span runs from the first `{` to the last `}`, and exists iff some `{` precedes some `}` |
| LocalRunner.SpanUnique | backend/freestyle_local_runner.py:63 | that span is the only one with those properties |
| LocalRunner.ExtractJson | backend/freestyle_local_runner.py:57-69 | an error is always "Could not parse JSON from model response", and a value found is the parse of the whole text or of the span from the first `{` to the last `}` |
| LocalRunner.ExtractJsonSpec | backend/freestyle_local_runner.py:57-69 | the whole-text parse if it succeeds, else the parse of the brace span; an error iff there is no span or it does not parse |
| LocalRunner.ListOr | backend/freestyle_local_runner.py:125-126 | a list value is kept, anything else becomes `[]` |
| LocalRunner.Normalise | backend/freestyle_local_runner.py:121-128 | the minimal contract succeeds exactly on a JSON object, and otherwise fails with the AttributeError of `data.get` |
| LocalRunner.NormaliseDefaults | backend/freestyle_local_runner.py:122-126 | a missing summary becomes "", a missing or non-list list part becomes `[]`, present parts are kept |
| LocalRunner.NormaliseRoundTrip | backend/freestyle_local_runner.py:121-128 | normalising a complete response gives it back |
| LocalRunner.NormaliseIdempotent | backend/freestyle_local_runner.py:121-128 | normalising twice is normalising once |
| LocalRunner.FallbackSpec | backend/freestyle_local_runner.py:79-92 | a bar of `Location` (nominal) against `DataValue` (quantitative), tooltip mirroring the axes, height 300, the rows as data |
| LocalRunner.FallbackResponse | backend/freestyle_local_runner.py:72-97 | the fixed summary and suggestion; no spec iff the reader finds no rows, else that one bar spec |
| LocalRunner.FallbackEmbedsRows | backend/freestyle_local_runner.py:76-96 | the fallback spec is a bar of height 300 whose "data" "values" list holds each row read, as its JSON, in the order read |
| LocalRunner.LlmResponse | backend/freestyle_local_runner.py:100-128 | without a key, the fallback; with one, success exactly when a JSON value can be extracted from the model's reply and it is an object |
| LocalRunner.RunnerAgent | backend/freestyle_local_runner.py:135-144 | without a key or at level "0", the fallback; otherwise success exactly when the extracted reply is a JSON object |
| LocalRunner.RunnerAgentSpec | backend/freestyle_local_runner.py:100-144 | otherwise the reply is the model's answer to the built prompt under the configured system message (the default when there is no description): the extraction error when no JSON value is found, else the normalised value, which is an AttributeError for a non-object; levels unset and "1" both mean `llm_response` |
| PromptTs.ExpandPlain | agent-service/src/prompt.ts:9-10 | a replacement without `$` is inserted verbatim |
| PromptTs.ReplaceFirstSpec | agent-service/src/prompt.ts:9-10 | `replace` with a string pattern changes only the first occurrence and keeps the text around it |
| PromptTs.SecondOccurrenceSurvives | agent-service/src/prompt.ts:9-10 | a later occurrence survives, shifted by the difference in length |
| PromptTs.MatchPatternRestores | agent-service/src/prompt.ts:9-10 | the `$&` pattern puts the match back |
| PromptTs.TwiceKeepsSecond | agent-service/src/prompt.ts:8-10 | of two sample placeholders, the second survives |
| PromptTs.TrimBeforeSubstitution | agent-service/src/prompt.ts:8-10 | the template is trimmed before substitution, so the schema's edge whitespace is kept |
| PromptTs.SchemaBeforeSample | agent-service/src/prompt.ts:9-10 | a sample placeholder brought in by the schema is the one replaced |
| PromptTs.BuildPrompt | agent-service/src/prompt.ts:4-16 | the prompt cuts back into the trimmed instructions, a blank line, the directive, a blank line, and the filled template |
| PromptTs.PromptDefaults | agent-service/src/prompt.ts:7-8 | absent `instructions` and `prompt` count as empty |
| MockAgents.MockVisualsSpec | backend/mock_agent.py:18-26 | line iff "date" or "time", map iff "location", "latitude" or "longitude", line first, else the two defaults; one or two suggestions (the same rules as mock_agent.py:17-25) |
| MockAgents.MockVisualsIgnoreCase | backend/mock_agent.py:18 | the suggestions ignore letter case |
| MockAgents.BackendMockAgent | backend/mock_agent.py:15-34 | the backend mock's fixed summary; a line suggestion exactly when the lower-cased schema says "date" or "time", a map exactly when it names a location or coordinate; one or two suggestions |
| MockAgents.RootMockAgent | mock_agent.py:15-32 | the same rules with the top-level mock's shorter summary |
| MockAgents.BackendMockAgentSpec | backend/mock_agent.py:15-34 | a fixed summary, with suggestions from the lower-cased schema only |
| MockAgents.RootMockAgentSpec | mock_agent.py:15-32 | the same, with the shorter fixed summary |

## Left out

- HTTP wiring: the FastAPI and Hono apps, CORS, routes, `/health`, and pydantic validation of requests and responses. A normalised reply is kept as JSON values, not checked against the response model.
- The OpenAI call is the parameter `Model`; the API key and `FREESTYLE_LEVEL` are the parameter `Env`.
- YAML and file reads: the configuration's `instructions`, `prompt` and `description` are passed in as `Option<string>`.
- Foreign libraries are parameters, not models: `json.loads`, `pd.to_datetime`, `pd.to_numeric`, `read_csv` dtype inference, `csv.DictReader`, and `str` of a cell. The `ws` whitespace sets of `strip` and `trim` are parameters too.
- The stub's `read_csv` / `DictReader` fallback in `agent` (backend/freestyle_stub.py:92-97). `FreestyleStub.StubAgent` starts from the parsed frame.
- `app.py` (the Streamlit UI) and `push-to-freestyle-dev.mjs` (deployment).
- Altair and Vega-Lite rendering, and Vega's binning algorithm: the histogram records only its `maxbins` directive.
- Floating point: means and sums are exact reals, and `is_numeric_dtype` is a dtype tag.
- SchemaUtils.MissingTenths: rounds the exact share half-up to one decimal. Python formats the binary double `m/n*100` with half-even rounding, so the two can differ in the last digit on ties. `SchemaUtils.MissingTenthsClose` bounds the error by 0.05 either way.
- Strings.Lower and Strings.Title: cover ASCII letters only; Python's Unicode case mapping is left out.
- SchemaUtils.SampleCsv: promises the read-back only for at least one column. pandas writes a frame without columns in its own way, which is not modelled.
- Json.SpecJson: `ChartSpec` has no `$schema` field, but the JSON form writes the Vega-Lite schema URL as the source does.
- VizUtils.SortDesc: `sort_values` is not stable, so the model fixes one order of ties and no property depends on it.
- "No placeholder is left after `build_prompt`" does not hold. `LocalRunner.PlaceholderCanSurvive` shows a template that rebuilds `{{schema_description}}` from payloads that contain no placeholder. `LocalRunner.FillTemplateReplacesAll` states what does hold.
- PromptTs.ReplaceFirstSpec: requires a replacement without `$`. `$` patterns are modelled by `PromptTs.Expand` (`$$`, `$&`, `` $` ``, `$'`), and `PromptTs.MatchPatternRestores` covers one of them.
- VizUtils.ChartBarTopCategories: with `agg` other than "mean", pandas' `sum` concatenates text values and the bar chart then sorts the strings; the model raises a TypeError on any value that is not a number, for every `agg`. Only `default_dashboard` calls the builder, always with "mean", where pandas raises the same TypeError.
- VizUtils.ChartLineOverTime and VizUtils.ChartBarTopCategories: the mean of a timestamp value column (which pandas computes) is a TypeError in the model; the dashboard only averages numeric columns.
- VizUtils.KeyFieldType: a number cell is a real, so inside an object column the model cannot tell Python ints, floats and bools apart. It types numbers mixed with text as nominal, where pandas labels ints mixed with text "mixed-integer" and Altair makes them quantitative (a `read_csv` column with mixed types can hold such cells); and it types object-column bools as quantitative, where Altair gives nominal. A "category" dtype is nominal: Altair's ordinal typing of ordered categoricals, and `groupby` listing unobserved categories, are left out.
- PyRepr.StrRepr: whether a non-ASCII character is printable comes from the Unicode database, so it is the parameter `printable`; every escape `repr` writes is modelled.
- The dtype spelling after `pd.to_numeric` in the stub: pandas gives int64 or float64 depending on the cells. The model tags a column that becomes numeric "float64", and only the fact that it is numeric is read downstream.
- Dates are modelled as whole timestamps (`Time(int)`); time zones and `infer_datetime_format` are inside the `DateParser` parameter.

=== FILE: charts.dfy ===
/** A declarative chart specification in the Vega-Lite style: a mark, the
    x/y (and tooltip) encodings, the rows embedded by value, and a height.
    Both the Altair charts of the dashboard and the dictionaries of the
    stub agent are described with it. */
module Charts {
  import opened Wrappers
  import opened Table

  datatype Mark = Line | Bar

  datatype FieldType = Nominal | Quantitative | Temporal

  /** One encoding channel; absent parts are `None`. `maxbins` is the
      `bin=alt.Bin(maxbins=...)` directive and `sortOrder` the `sort=`
      argument. */
  datatype Channel = Channel(
    field: Option<string>,
    ftype: Option<FieldType>,
    title: Option<string>,
    aggregate: Option<string>,
    maxbins: Option<int>,
    sortOrder: Option<string>)

  datatype ChartSpec = ChartSpec(
    mark: Mark,
    data: seq<Record>,
    x: Channel,
    y: Channel,
    tooltip: seq<Channel>,
    height: nat)

  /** Every chart of the system is 300 pixels high. */
  const ChartHeight: nat := 300

  /** A channel naming a field, its type and a title. */
  function FieldChannel(field: string, ftype: FieldType, title: string): Channel {
    Channel(Some(field), Some(ftype), Some(title), None, None, None)
  }

  /** A tooltip entry: field and type only. */
  function TipChannel(c: Channel): Channel {
    Channel(c.field, c.ftype, None, None, None, None)
  }

  /** The tooltip repeats the x and y fields with their types, in that order. */
  predicate TooltipMirrorsAxes(s: ChartSpec) {
    s.tooltip == [TipChannel(s.x), TipChannel(s.y)]
  }

  /** The three chart families the dashboard draws. */
  datatype ChartKind = LineChart | BarChart | Histogram

  /** A binned bar chart is a histogram. */
  function KindOf(s: ChartSpec): ChartKind {
    if s.mark == Line then LineChart
    else if s.x.maxbins.Some? then Histogram
    else BarChart
  }

  function KindRank(k: ChartKind): nat {
    match k
    case LineChart => 0
    case BarChart => 1
    case Histogram => 2
  }
}

=== FILE: csv.dfy ===
/** The CSV text `DataFrame.to_csv` writes, in the minimal-quoting dialect
    of section 2 of RFC 4180 as Python's `csv` module implements it (comma
    separator, double-quote quoting, doubled inner quotes, "\n" after every
    record), and a reader for that text. */
module Csv {
  import opened Wrappers
  import opened Strings

  /** A field is quoted when it holds the separator, the quote or a line
      break. */
  predicate NeedsQuotes(f: string) {
    exists i :: 0 <= i < |f| && (f[i] == ',' || f[i] == '"' || f[i] == '\n' || f[i] == '\r')
  }

  /** Every inner quote doubled. */
  function DoubleQuotes(f: string): string
    decreases |f|
  {
    if |f| == 0 then "" else (if f[0] == '"' then "\"\"" else [f[0]]) + DoubleQuotes(f[1..])
  }

  function EncodeField(f: string): string {
    if NeedsQuotes(f) then "\"" + DoubleQuotes(f) + "\"" else f
  }

  function EncodedFields(fields: seq<string>): seq<string> {
    seq(|fields|, i requires 0 <= i < |fields| => EncodeField(fields[i]))
  }

  /** One record without its terminator. A record whose only field is empty
      is written as `""`, so that it does not read back as a blank line. */
  function EncodeRow(fields: seq<string>): string {
    if fields == [""] then "\"\"" else Join(EncodedFields(fields), ",")
  }

  /** The whole text: every record followed by "\n". */
  function EncodeRows(rows: seq<seq<string>>): string
    decreases |rows|
  {
    if |rows| == 0 then "" else EncodeRow(rows[0]) + "\n" + EncodeRows(rows[1..])
  }

  // ---------------------------------------------------------------------
  // reading

  /** The rest of a quoted field, after its opening quote: the field and the
      text after the closing quote. */
  function ParseQuoted(s: string): (r: Option<(string, string)>)
    ensures r.Some? ==> |r.value.1| < |s|
    decreases |s|
  {
    if |s| == 0 then None
    else if s[0] == '"' then
      if |s| >= 2 && s[1] == '"' then
        match ParseQuoted(s[2..])
        case Some((f, rest)) => Some(("\"" + f, rest))
        case None => None
      else Some(("", s[1..]))
    else
      match ParseQuoted(s[1..])
      case Some((f, rest)) => Some(([s[0]] + f, rest))
      case None => None
  }

  /** An unquoted field runs to the next separator or line break. */
  function ParseBare(s: string): (r: (string, string))
    ensures |r.1| <= |s|
    decreases |s|
  {
    if |s| == 0 || s[0] == ',' || s[0] == '\n' then ("", s)
    else
      var (f, rest) := ParseBare(s[1..]);
      ([s[0]] + f, rest)
  }

  function ParseField(s: string): (r: Option<(string, string)>)
    ensures r.Some? ==> |r.value.1| <= |s|
  {
    if |s| > 0 && s[0] == '"' then ParseQuoted(s[1..]) else Some(ParseBare(s))
  }

  /** One record and the text after its "\n". */
  function ParseRow(s: string): (r: Option<(seq<string>, string)>)
    ensures r.Some? ==> |r.value.1| < |s|
    decreases |s|
  {
    match ParseField(s)
    case None => None
    case Some((f, rest)) =>
      if |rest| > 0 && rest[0] == '\n' then Some(([f], rest[1..]))
      else if |rest| > 0 && rest[0] == ',' then
        match ParseRow(rest[1..])
        case Some((fs, after)) => Some(([f] + fs, after))
        case None => None
      else None
  }

  /** Records up to the end of the text; an unterminated quote or record is
      an error. */
  function ParseRows(s: string): Option<seq<seq<string>>>
    decreases |s|
  {
    if |s| == 0 then Some([])
    else
      match ParseRow(s)
      case None => None
      case Some((row, rest)) =>
        match ParseRows(rest)
        case Some(rows) => Some([row] + rows)
        case None => None
  }

  // ---------------------------------------------------------------------
  // reading back what was written

  /** Text that can follow a field: nothing, a separator or a line break. */
  predicate FieldEnd(t: string) {
    |t| == 0 || t[0] == ',' || t[0] == '\n'
  }

  lemma {:induction false} QuotedRoundTrip(f: string, t: string)
    requires |t| == 0 || t[0] != '"'
    ensures ParseQuoted(DoubleQuotes(f) + "\"" + t) == Some((f, t))
    decreases |f|
  {
    var s := DoubleQuotes(f) + "\"" + t;
    if |f| == 0 {
      assert s == "\"" + t;
      assert s[1..] == t;
    } else {
      QuotedRoundTrip(f[1..], t);
      var tail := DoubleQuotes(f[1..]) + "\"" + t;
      if f[0] == '"' {
        assert s == "\"\"" + tail;
        assert s[2..] == tail;
        assert "\"" + f[1..] == f;
      } else {
        assert s == [f[0]] + tail;
        assert s[1..] == tail;
        assert [f[0]] + f[1..] == f;
      }
    }
  }

  lemma {:induction false} BareRoundTrip(f: string, t: string)
    requires !NeedsQuotes(f) && FieldEnd(t)
    ensures ParseBare(f + t) == (f, t)
    decreases |f|
  {
    if |f| > 0 {
      assert f[0] != ',' && f[0] != '\n';
      assert !NeedsQuotes(f[1..]) by {
        forall i | 0 <= i < |f[1..]| ensures f[1..][i] == f[i + 1] { }
      }
      BareRoundTrip(f[1..], t);
      assert (f + t)[1..] == f[1..] + t;
      assert [f[0]] + f[1..] == f;
    } else {
      assert f + t == t;
    }
  }

  /** A written field reads back as itself, whatever follows it. */
  lemma FieldRoundTrip(f: string, t: string)
    requires FieldEnd(t)
    ensures ParseField(EncodeField(f) + t) == Some((f, t))
  {
    if NeedsQuotes(f) {
      var s := "\"" + DoubleQuotes(f) + "\"" + t;
      assert s[1..] == DoubleQuotes(f) + "\"" + t;
      QuotedRoundTrip(f, t);
    } else {
      BareRoundTrip(f, t);
      if |f| > 0 {
        assert f[0] != '"';
      }
    }
  }

  lemma {:induction false} FieldsRoundTrip(fields: seq<string>, t: string)
    requires |fields| >= 1
    ensures ParseRow(Join(EncodedFields(fields), ",") + "\n" + t) == Some((fields, t))
    decreases |fields|
  {
    var enc := EncodedFields(fields);
    if |fields| == 1 {
      assert Join(enc, ",") == EncodeField(fields[0]);
      LastFieldRoundTrip(fields[0], t);
      assert [fields[0]] == fields;
    } else {
      assert enc[1..] == EncodedFields(fields[1..]);
      var tail := Join(EncodedFields(fields[1..]), ",") + "\n" + t;
      assert Join(enc, ",") + "\n" + t == EncodeField(fields[0]) + "," + tail;
      FieldsRoundTrip(fields[1..], t);
      NextFieldRoundTrip(fields[0], tail, fields[1..], t);
      assert [fields[0]] + fields[1..] == fields;
    }
  }

  /** A written field followed by the line break ends the record. */
  lemma LastFieldRoundTrip(f: string, t: string)
    ensures ParseRow(EncodeField(f) + "\n" + t) == Some(([f], t))
  {
    assert EncodeField(f) + "\n" + t == EncodeField(f) + ("\n" + t);
    FieldRoundTrip(f, "\n" + t);
    assert ("\n" + t)[1..] == t;
  }

  /** A written field followed by a comma is read, then the rest of the
      record. */
  lemma NextFieldRoundTrip(f: string, tail: string, fs: seq<string>, t: string)
    requires ParseRow(tail) == Some((fs, t))
    ensures ParseRow(EncodeField(f) + "," + tail) == Some(([f] + fs, t))
  {
    assert EncodeField(f) + "," + tail == EncodeField(f) + ("," + tail);
    FieldRoundTrip(f, "," + tail);
    assert ("," + tail)[1..] == tail;
  }

  /** A written record reads back as itself. */
  lemma RowRoundTrip(fields: seq<string>, t: string)
    requires |fields| >= 1
    ensures ParseRow(EncodeRow(fields) + "\n" + t) == Some((fields, t))
  {
    if fields == [""] {
      var s := "\"\"" + "\n" + t;
      assert s[1..] == "\"" + ("\n" + t);
      assert ParseQuoted(s[1..]) == Some(("", "\n" + t));
      assert ("\n" + t)[1..] == t;
    } else {
      FieldsRoundTrip(fields, t);
    }
  }

  /** Reading the written text gives the records back, as long as no record
      is empty (an empty record is written as a bare line break). */
  lemma {:induction false} RowsRoundTrip(rows: seq<seq<string>>)
    requires forall i :: 0 <= i < |rows| ==> |rows[i]| >= 1
    ensures ParseRows(EncodeRows(rows)) == Some(rows)
    decreases |rows|
  {
    if |rows| > 0 {
      RowRoundTrip(rows[0], EncodeRows(rows[1..]));
      RowsRoundTrip(rows[1..]);
      assert [rows[0]] + rows[1..] == rows;
    }
  }
}

=== FILE: freestyle_stub.dfy ===
/** `backend/freestyle_stub.py`: the local stand-in for the hosted agent. It
    classifies the columns with its own rules (`infer_types`), draws at most
    a line and a bar chart as Vega-Lite specifications, and reports what it
    found. */
module FreestyleStub {
  import opened Wrappers
  import opened Strings
  import opened Table
  import opened Charts
  import opened PyRepr

  /** `non_na_ratio >= 0.6` in `infer_types`. */
  const MinNumericRatio: real := 0.6

  datatype StubKind = TimeRole | NumberRole | CategoryRole

  /** `pd.to_numeric(series, errors="coerce")` cell by cell: numbers stay,
      missing cells stay missing, anything else goes through the parser. */
  function ToNumeric(v: Value, pn: NumberParser): Option<real> {
    match v
    case Num(x) => Some(x)
    case Missing => None
    case _ => pn(v)
  }

  function Coercer(pn: NumberParser): NumberParser {
    v => ToNumeric(v, pn)
  }

  /** An object column every cell of which `to_datetime(errors="raise")`
      accepts. No share of NaT is required here. */
  predicate StubParses(c: Column, pd: DateParser) {
    c.dtype.Object? && ParseDates(c.values, pd).Some?
  }

  /** At least 60% of the cells survive numeric coercion. An empty column has
      a NaN ratio, and NaN compares false. */
  predicate MostlyNumeric(vals: seq<Value>, pn: NumberParser) {
    |vals| > 0 && (CountNumbers(vals, Coercer(pn)) as real) / (|vals| as real) >= MinNumericRatio
  }

  function StubKindOf(c: Column, pd: DateParser, pn: NumberParser): StubKind {
    if c.dtype.Datetime? || StubParses(c, pd) then TimeRole
    else if MostlyNumeric(c.values, pn) then NumberRole
    else CategoryRole
  }

  function StubKinds(cols: seq<Column>, pd: DateParser, pn: NumberParser): (r: seq<StubKind>)
    ensures |r| == |cols|
    ensures forall i :: 0 <= i < |cols| ==> r[i] == StubKindOf(cols[i], pd, pn)
  {
    seq(|cols|, i requires 0 <= i < |cols| => StubKindOf(cols[i], pd, pn))
  }

  /** The column as `infer_types` leaves it in its copy: parsed dates, or the
      coerced numbers in a numeric column. pandas spells that dtype int64 or
      float64 depending on the text of the cells; nothing downstream reads
      the spelling, so a column that was not numeric is tagged "float64". */
  function StubConverted(c: Column, pd: DateParser, pn: NumberParser): (r: Column)
    ensures r.name == c.name && |r.values| == |c.values|
  {
    if StubParses(c, pd) then Column(c.name, Datetime, ParseDates(c.values, pd).value)
    else if !c.dtype.Datetime? && MostlyNumeric(c.values, pn) then
      Column(c.name, if c.dtype.Numeric? then c.dtype else Numeric("float64"), NumberCells(c.values, Coercer(pn)))
    else c
  }

  function StubWorking(t: Table, pd: DateParser, pn: NumberParser): (w: Table)
    ensures w.rows == t.rows && |w.columns| == |t.columns|
    ensures Rectangular(t) ==> Rectangular(w)
    ensures forall i :: 0 <= i < |t.columns| ==> w.columns[i] == StubConverted(t.columns[i], pd, pn)
  {
    Table(seq(|t.columns|, i requires 0 <= i < |t.columns| => StubConverted(t.columns[i], pd, pn)), t.rows)
  }

  /** The lists `infer_types` returns, each in column order. */
  function StubRoles(cols: seq<Column>, pd: DateParser, pn: NumberParser): Roles {
    var kinds := StubKinds(cols, pd, pn);
    Roles(NamesTagged(cols, kinds, NumberRole),
          NamesTagged(cols, kinds, CategoryRole),
          NamesTagged(cols, kinds, TimeRole))
  }

  /** The body of the loop of `infer_types` for one column: try the date
      parse on an object column, stop if the column is now datetime,
      otherwise coerce to numbers and keep them when at least 60% survive,
      else list the column as categorical unless it is already temporal. */
  method StubStep(c: Column, pd: DateParser, pn: NumberParser, times: seq<string>) returns (c': Column, kind: StubKind)
    requires StubKindOf(c, pd, pn) == CategoryRole ==> c.name !in times
    ensures c' == StubConverted(c, pd, pn)
    ensures kind == StubKindOf(c, pd, pn)
  {
    c' := c;
    if c.dtype.Object? {
      match ParseDates(c.values, pd)
      case Some(parsed) =>
        c' := Column(c.name, Datetime, parsed);
      case None =>
    }
    if c'.dtype.Datetime? {
      return c', TimeRole;
    }
    var ser := NumberCells(c.values, Coercer(pn));
    CoercionCounts(c.values, Coercer(pn));
    // `ser.notna().mean()` of an empty series is NaN and fails the comparison
    if |ser| > 0 && ((|ser| - CountMissing(ser)) as real) / (|ser| as real) >= MinNumericRatio {
      c' := Column(c.name, if c.dtype.Numeric? then c.dtype else Numeric("float64"), ser);
      kind := NumberRole;
    } else {
      if c.name !in times {
        kind := CategoryRole;
      } else {
        assert false;
      }
    }
  }

  /** A categorical column is not already listed as temporal. */
  lemma CategoryNotListed(cols: seq<Column>, pd: DateParser, pn: NumberParser, i: int)
    requires UniqueNames(cols) && 0 <= i < |cols|
    ensures var kinds := StubKinds(cols, pd, pn);
      kinds[i] == CategoryRole ==> cols[i].name !in NamesTagged(cols[..i], kinds[..i], TimeRole)
  {
    var kinds := StubKinds(cols, pd, pn);
    NamesTaggedSpec(cols[..i], kinds[..i], TimeRole, cols[i].name);
  }

  /** `infer_types(df)`: one pass over the columns, as in the source. */
  method InferTypes(df: Table, pd: DateParser, pn: NumberParser) returns (w: Table, roles: Roles)
    requires UniqueNames(df.columns)
    ensures roles == StubRoles(df.columns, pd, pn)
    ensures w == StubWorking(df, pd, pn)
  {
    var cols := df.columns;
    ghost var kinds := StubKinds(cols, pd, pn);
    ghost var conv := StubWorking(df, pd, pn).columns;
    var wcols: seq<Column> := [];
    var times: seq<string> := [];
    var nums: seq<string> := [];
    var cats: seq<string> := [];
    var i := 0;
    while i < |cols|
      invariant i <= |cols| && wcols == conv[..i]
      invariant times == NamesTagged(cols[..i], kinds[..i], TimeRole)
      invariant nums == NamesTagged(cols[..i], kinds[..i], NumberRole)
      invariant cats == NamesTagged(cols[..i], kinds[..i], CategoryRole)
    {
      CategoryNotListed(cols, pd, pn, i);
      var c', kind := StubStep(cols[i], pd, pn, times);
      assert c' == conv[i] && conv[..i + 1] == conv[..i] + [conv[i]];
      wcols := wcols + [c'];
      match kind {
        case TimeRole => times := times + [cols[i].name];
        case NumberRole => nums := nums + [cols[i].name];
        case CategoryRole => cats := cats + [cols[i].name];
      }
      NamesTaggedSnoc(cols, kinds, TimeRole, i);
      NamesTaggedSnoc(cols, kinds, NumberRole, i);
      NamesTaggedSnoc(cols, kinds, CategoryRole, i);
      i := i + 1;
    }
    assert cols[..|cols|] == cols && kinds[..|cols|] == kinds && conv[..|cols|] == conv;
    w := Table(wcols, df.rows);
    roles := Roles(nums, cats, times);
  }

  /** The stub's role of each column: temporal when natively datetime or
      when an object column parses completely (no share of NaT required);
      numeric otherwise when at least 60% of the cells coerce to numbers,
      whatever the dtype (so a numeric column more than 40% empty is
      categorical); categorical otherwise. */
  lemma StubRoleOfColumn(cols: seq<Column>, pd: DateParser, pn: NumberParser, i: int)
    requires UniqueNames(cols) && 0 <= i < |cols|
    ensures var r := StubRoles(cols, pd, pn); var c := cols[i];
      && (c.name in r.temporal <==>
            c.dtype.Datetime? || (c.dtype.Object? && forall k :: 0 <= k < |c.values| ==> pd(c.values[k]).Some?))
      && (c.name in r.numeric <==>
            c.name !in r.temporal && |c.values| > 0
            && 5 * CountNumbers(c.values, Coercer(pn)) >= 3 * |c.values|)
      && (c.name in r.categorical <==> c.name !in r.temporal && c.name !in r.numeric)
  {
    var kinds := StubKinds(cols, pd, pn);
    ParseDatesSpec(cols[i].values, pd);
    NamesTaggedMember(cols, kinds, TimeRole, i);
    NamesTaggedMember(cols, kinds, NumberRole, i);
    NamesTaggedMember(cols, kinds, CategoryRole, i);
    var c := cols[i];
    var n := |c.values|;
    if n > 0 {
      var k := CountNumbers(c.values, Coercer(pn));
      RatioThreshold(k, n);
    }
  }

  /** `k / n >= 0.6` exactly when `5k >= 3n`. */
  lemma RatioThreshold(k: nat, n: nat)
    requires n > 0
    ensures (k as real) / (n as real) >= MinNumericRatio <==> 5 * k >= 3 * n
  {
    var kr, nr := k as real, n as real;
    DivAtLeast(kr, nr, MinNumericRatio);
    assert MinNumericRatio * nr == 0.6 * nr;
    assert (5 * k) as real == 5.0 * kr && (3 * n) as real == 3.0 * nr;
  }

  /** Dividing by a positive number: the quotient is at least `c` exactly
      when the dividend is at least `c` times the divisor. */
  lemma DivAtLeast(a: real, b: real, c: real)
    requires b > 0.0
    ensures a / b >= c <==> a >= c * b
  {
    var q := a / b;
    assert q * b == a;
    if q >= c {
      ScaleAtLeast(q, c, b);
    } else {
      ScaleBelow(q, c, b);
    }
  }

  lemma ScaleAtLeast(a: real, b: real, c: real)
    requires a >= b && c > 0.0
    ensures a * c >= b * c
  {
  }

  lemma ScaleBelow(a: real, b: real, c: real)
    requires a < b && c > 0.0
    ensures a * c < b * c
  {
  }

  /** Every column name is in exactly one of the three lists. */
  lemma StubRolesPartition(cols: seq<Column>, pd: DateParser, pn: NumberParser)
    requires UniqueNames(cols)
    ensures IsPartition(StubRoles(cols, pd, pn), cols)
    ensures var r := StubRoles(cols, pd, pn);
      InColumnOrder(r.numeric, cols) && InColumnOrder(r.categorical, cols) && InColumnOrder(r.temporal, cols)
  {
    var kinds := StubKinds(cols, pd, pn);
    var r := StubRoles(cols, pd, pn);
    forall n
      ensures n in Names(cols) <==> n in r.numeric || n in r.categorical || n in r.temporal
      ensures n in r.numeric ==> n !in r.categorical && n !in r.temporal
      ensures n in r.categorical ==> n !in r.temporal
    {
      NamesTaggedSpec(cols, kinds, TimeRole, n);
      NamesTaggedSpec(cols, kinds, NumberRole, n);
      NamesTaggedSpec(cols, kinds, CategoryRole, n);
      if n in Names(cols) {
        var i :| 0 <= i < |cols| && Names(cols)[i] == n;
        assert cols[i].name == n;
      }
    }
    NamesTaggedInOrder(cols, kinds, TimeRole);
    NamesTaggedInOrder(cols, kinds, NumberRole);
    NamesTaggedInOrder(cols, kinds, CategoryRole);
  }

  /** A column that was numeric to begin with keeps its cells when the stub
      calls it numeric: coercion of numbers is the identity. */
  lemma NumericCellsKept(c: Column, pd: DateParser, pn: NumberParser)
    requires ColumnAdmits(c) && c.dtype.Numeric?
    ensures StubConverted(c, pd, pn).values == c.values
  {
    if MostlyNumeric(c.values, pn) {
      var r := NumberCells(c.values, Coercer(pn));
      forall k | 0 <= k < |c.values| ensures r[k] == c.values[k] {
        assert Admits(c.dtype, c.values[k]);
      }
    }
  }

  // ---------------------------------------------------------------------
  // Vega-Lite specifications

  /** `vega_bar(values, cat_col, num_col)`. */
  function VegaBar(values: seq<Record>, catCol: string, numCol: string): (s: ChartSpec)
    ensures s.mark == Bar && KindOf(s) == BarChart && TooltipMirrorsAxes(s)
    ensures s.x.field == Some(catCol) && s.x.ftype == Some(Nominal) && s.x.title == Some(catCol)
    ensures s.y.field == Some(numCol) && s.y.ftype == Some(Quantitative) && s.y.title == Some(numCol)
    ensures s.data == values && s.height == ChartHeight
  {
    var x := FieldChannel(catCol, Nominal, catCol);
    var y := FieldChannel(numCol, Quantitative, numCol);
    ChartSpec(Bar, values, x, y, [TipChannel(x), TipChannel(y)], ChartHeight)
  }

  /** `vega_line(values, time_col, num_col)`. */
  function VegaLine(values: seq<Record>, timeCol: string, numCol: string): (s: ChartSpec)
    ensures s.mark == Line && KindOf(s) == LineChart && TooltipMirrorsAxes(s)
    ensures s.x.field == Some(timeCol) && s.x.ftype == Some(Temporal) && s.x.title == Some(timeCol)
    ensures s.y.field == Some(numCol) && s.y.ftype == Some(Quantitative) && s.y.title == Some(numCol)
    ensures s.data == values && s.height == ChartHeight
  {
    var x := FieldChannel(timeCol, Temporal, timeCol);
    var y := FieldChannel(numCol, Quantitative, numCol);
    ChartSpec(Line, values, x, y, [TipChannel(x), TipChannel(y)], ChartHeight)
  }

  // ---------------------------------------------------------------------
  // the /agent endpoint

  const LineVisual: string := "Line chart of numeric metric over time"
  const BarVisual: string := "Bar chart of category vs numeric metric"

  /** What the stub suggests when it drew nothing. */
  const StubDefaultVisuals: seq<string> :=
    ["Histogram of a numeric column (not implemented in stub)", "Bar chart of counts by category"]

  /** The suggestion that goes with a chart. */
  function VisualFor(s: ChartSpec): string {
    if s.mark == Line then LineVisual else BarVisual
  }

  /** What the summary reports. */
  datatype SummaryFields = SummaryFields(cols: nat, rows: nat, temporal: seq<string>,
                                         numeric: seq<string>, categorical: seq<string>)

  const SummaryEnd: string := ". Generated chart specs based on the detected column types."

  /** The summary f-string: shape first, then the three lists (Python list
      reprs under `printable`, or `none`). A reader gets back every number
      and list it reports, and finds the column count as the run of digits
      after "Detected ", ended by a space. */
  function StubSummary(cols: nat, rows: nat, r: Roles, printable: Printable): (summary: string)
    ensures ParseSummary(summary) == Some(SummaryFields(cols, rows, r.temporal, r.numeric, r.categorical))
    ensures var n := |NatToString(cols)|;
            && 9 + n < |summary|
            && summary[..9] == "Detected "
            && AllDigits(summary[9..9 + n])
            && DigitsValue(summary[9..9 + n]) == cols
            && summary[9 + n] == ' '
  {
    DetectedPrefix(NatToString(cols), SummaryTail(rows, r, printable));
    SummaryReadsBack(cols, rows, r, printable);
    "Detected " + (NatToString(cols) + SummaryTail(rows, r, printable))
  }

  /** The summary reads back as its two counts and three lists. */
  lemma SummaryReadsBack(cols: nat, rows: nat, r: Roles, printable: Printable)
    ensures ParseSummary("Detected " + (NatToString(cols) + SummaryTail(rows, r, printable)))
            == Some(SummaryFields(cols, rows, r.temporal, r.numeric, r.categorical))
  {
    TailReadsBack(rows, r, printable);
    DetectedReadsBack(cols, SummaryTail(rows, r, printable),
                      SummaryFields(cols, rows, r.temporal, r.numeric, r.categorical));
  }

  lemma DetectedPrefix(d: string, tail: string)
    requires |tail| > 0 && tail[0] == ' '
    ensures var s := "Detected " + (d + tail);
            && 9 + |d| < |s| && s[..9] == "Detected " && s[9..9 + |d|] == d && s[9 + |d|] == ' '
  {
    assert "Detected " + (d + tail) == "Detected " + d + tail;
    ConcatParts("Detected ", d, tail);
  }

  /** The column count reads back from after "Detected ", and the rest
      from the tail. */
  lemma DetectedReadsBack(cols: nat, tail: string, f: SummaryFields)
    requires |tail| > 0 && tail[0] == ' '
    requires ParseTail(cols, tail) == Some(f)
    ensures ParseSummary("Detected " + (NatToString(cols) + tail)) == Some(f)
  {
    ExpectLit("Detected ", NatToString(cols) + tail);
    ReadNatRoundTrip(cols, tail);
  }

  /** Everything the summary says after the column count. */
  function SummaryTail(rows: nat, r: Roles, printable: Printable): (t: string)
    ensures |t| > 0 && t[0] == ' '
  {
    " columns and " + (NatToString(rows) + (" rows. Temporal: " + ListsText(r, printable)))
  }

  /** The three role lists as the summary prints them, and its last sentence. */
  function ListsText(r: Roles, printable: Printable): string {
    OrNone(r.temporal, printable) + (", Numeric: " + (OrNone(r.numeric, printable)
      + (", Categorical: " + (OrNone(r.categorical, printable) + SummaryEnd))))
  }

  /** Reads a summary back: the two counts and the three lists. */
  function ParseSummary(s: string): Option<SummaryFields> {
    match Expect("Detected ", s)
    case None => None
    case Some(s1) =>
      match ReadNat(s1)
      case None => None
      case Some((cols, s2)) => ParseTail(cols, s2)
  }

  function ParseTail(cols: nat, s: string): Option<SummaryFields> {
    match Expect(" columns and ", s)
    case None => None
    case Some(s1) =>
      match ReadNat(s1)
      case None => None
      case Some((rows, s2)) =>
        match Expect(" rows. Temporal: ", s2)
        case None => None
        case Some(s3) =>
          match ParseLists(s3)
          case None => None
          case Some((t, n, k)) => Some(SummaryFields(cols, rows, t, n, k))
  }

  function ParseLists(s: string): Option<(seq<string>, seq<string>, seq<string>)> {
    match ParseOrNone(s)
    case None => None
    case Some((t, s1)) =>
      match Expect(", Numeric: ", s1)
      case None => None
      case Some(s2) =>
        match ParseOrNone(s2)
        case None => None
        case Some((n, s3)) =>
          match Expect(", Categorical: ", s3)
          case None => None
          case Some(s4) =>
            match ParseOrNone(s4)
            case None => None
            case Some((k, s5)) => if s5 == SummaryEnd then Some((t, n, k)) else None
  }

  /** The three lists read back from the summary. */
  lemma ListsReadBack(r: Roles, printable: Printable)
    ensures ParseLists(ListsText(r, printable)) == Some((r.temporal, r.numeric, r.categorical))
  {
    var t3 := OrNone(r.categorical, printable) + SummaryEnd;
    var t2 := ", Categorical: " + t3;
    var t1 := OrNone(r.numeric, printable) + t2;
    var t0 := ", Numeric: " + t1;
    OrNoneRoundTrip(r.temporal, printable, t0);
    ExpectLit(", Numeric: ", t1);
    OrNoneRoundTrip(r.numeric, printable, t2);
    ExpectLit(", Categorical: ", t3);
    OrNoneRoundTrip(r.categorical, printable, SummaryEnd);
  }

  /** The row count and the lists read back from the tail of the summary. */
  lemma TailReadsBack(rows: nat, r: Roles, printable: Printable)
    ensures forall cols: nat {:trigger ParseTail(cols, SummaryTail(rows, r, printable))} ::
              ParseTail(cols, SummaryTail(rows, r, printable))
                == Some(SummaryFields(cols, rows, r.temporal, r.numeric, r.categorical))
  {
    var lists := ListsText(r, printable);
    var t1 := " rows. Temporal: " + lists;
    ExpectLit(" columns and ", NatToString(rows) + t1);
    ReadNatRoundTrip(rows, t1);
    ExpectLit(" rows. Temporal: ", lists);
    ListsReadBack(r, printable);
  }

  datatype StubResponse = StubResponse(summary: string, suggestedVisuals: seq<string>, chartSpecs: seq<ChartSpec>)

  /** The charts and suggestions of the stub for the given roles, each
      chart over `values`. */
  method StubCharts(values: seq<Record>, roles: Roles) returns (visuals: seq<string>, specs: seq<ChartSpec>)
    ensures |specs| == (if roles.temporal != [] && roles.numeric != [] then 1 else 0)
                       + (if roles.categorical != [] && roles.numeric != [] then 1 else 0)
    ensures roles.temporal != [] && roles.numeric != [] ==>
      specs[0] == VegaLine(values, roles.temporal[0], roles.numeric[0])
    ensures roles.categorical != [] && roles.numeric != [] ==>
      specs[|specs| - 1] == VegaBar(values, roles.categorical[0], roles.numeric[0])
    ensures specs == [] ==> visuals == StubDefaultVisuals
    ensures specs != [] ==>
      |visuals| == |specs| && forall i :: 0 <= i < |specs| ==> visuals[i] == VisualFor(specs[i])
  {
    visuals := [];
    specs := [];
    if roles.temporal != [] && roles.numeric != [] {
      visuals := visuals + [LineVisual];
      specs := specs + [VegaLine(values, roles.temporal[0], roles.numeric[0])];
    }
    if roles.categorical != [] && roles.numeric != [] {
      visuals := visuals + [BarVisual];
      specs := specs + [VegaBar(values, roles.categorical[0], roles.numeric[0])];
    }
    if visuals == [] {
      visuals := StubDefaultVisuals;
    }
  }

  /** `agent(req)` once the sample rows are a DataFrame: classify, then a
      line chart (first temporal x first numeric) and a bar chart (first
      categorical x first numeric), both over every row of the converted
      copy; the summary reports the shape of the frame as received. */
  method StubAgent(df: Table, pd: DateParser, pn: NumberParser, printable: Printable) returns (resp: StubResponse, roles: Roles)
    requires ValidTable(df)
    ensures roles == StubRoles(df.columns, pd, pn)
    ensures var specs := resp.chartSpecs; var w := StubWorking(df, pd, pn);
      && |specs| == (if roles.temporal != [] && roles.numeric != [] then 1 else 0)
                    + (if roles.categorical != [] && roles.numeric != [] then 1 else 0)
      && (roles.temporal != [] && roles.numeric != [] ==>
            specs[0] == VegaLine(Records(w), roles.temporal[0], roles.numeric[0]))
      && (roles.categorical != [] && roles.numeric != [] ==>
            specs[|specs| - 1] == VegaBar(Records(w), roles.categorical[0], roles.numeric[0]))
    ensures resp.chartSpecs == [] ==> resp.suggestedVisuals == StubDefaultVisuals
    ensures resp.chartSpecs != [] ==>
      |resp.suggestedVisuals| == |resp.chartSpecs|
      && forall i :: 0 <= i < |resp.chartSpecs| ==> resp.suggestedVisuals[i] == VisualFor(resp.chartSpecs[i])
    ensures resp.summary == StubSummary(|df.columns|, df.rows, roles, printable)
  {
    var w;
    w, roles := InferTypes(df, pd, pn);
    var visuals, specs := StubCharts(Records(w), roles);
    resp := StubResponse(StubSummary(|df.columns|, df.rows, roles, printable), visuals, specs);
  }

  /** Each chart of the stub plots columns of the right roles from the
      converted copy, embeds every row, and mirrors its axes in the
      tooltip. */
  lemma StubChartsWellFormed(df: Table, pd: DateParser, pn: NumberParser, s: ChartSpec)
    requires ValidTable(df)
    requires var r := StubRoles(df.columns, pd, pn); var w := StubWorking(df, pd, pn);
      || (r.temporal != [] && r.numeric != [] && s == VegaLine(Records(w), r.temporal[0], r.numeric[0]))
      || (r.categorical != [] && r.numeric != [] && s == VegaBar(Records(w), r.categorical[0], r.numeric[0]))
    ensures var r := StubRoles(df.columns, pd, pn); var w := StubWorking(df, pd, pn);
      && TooltipMirrorsAxes(s) && s.height == ChartHeight && |s.data| == df.rows
      && s.x.field.Some? && s.y.field.Some?
      && s.y.field.value in r.numeric
      && (s.mark == Line ==> s.x.field.value in r.temporal)
      && (s.mark == Bar ==> s.x.field.value in r.categorical)
      && s.x.field.value in Names(w.columns) && s.y.field.value in Names(w.columns)
  {
    var r := StubRoles(df.columns, pd, pn);
    var w := StubWorking(df, pd, pn);
    var kinds := StubKinds(df.columns, pd, pn);
    assert Names(w.columns) == Names(df.columns);
    NamesTaggedAreNames(df.columns, kinds, NumberRole, s.y.field.value);
    if s.mark == Line {
      NamesTaggedAreNames(df.columns, kinds, TimeRole, s.x.field.value);
    } else {
      NamesTaggedAreNames(df.columns, kinds, CategoryRole, s.x.field.value);
    }
  }
}

=== FILE: json.dfy ===
/** JSON values as `json.loads` returns them, and the JSON form of a chart
    specification as the Python code writes its dictionaries. */
module Json {
  import opened Wrappers
  import opened Table
  import opened Charts

  datatype Json =
    | JNull
    | JBool(b: bool)
    | JNum(x: real)
    | JStr(s: string)
    | JArr(items: seq<Json>)
    | JObj(members: seq<(string, Json)>)

  /** `d.get(key)` on a parsed object. */
  function Get(members: seq<(string, Json)>, key: string): Option<Json>
    decreases |members|
  {
    if |members| == 0 then None
    else if members[|members| - 1].0 == key then Some(members[|members| - 1].1)
    else Get(members[..|members| - 1], key)
  }

  /** A key is found exactly when some member carries it, and when a key
      repeats the last member with it wins, as in the dictionary
      `json.loads` builds. */
  lemma {:induction false} GetSpec(members: seq<(string, Json)>, key: string)
    ensures Get(members, key).Some? <==> exists k :: 0 <= k < |members| && members[k].0 == key
    ensures Get(members, key).Some? ==>
              exists k :: 0 <= k < |members| && members[k] == (key, Get(members, key).value)
                          && forall j :: k < j < |members| ==> members[j].0 != key
    decreases |members|
  {
    if |members| > 0 {
      var m := |members| - 1;
      if members[m].0 != key {
        GetSpec(members[..m], key);
        assert forall k :: 0 <= k < m ==> members[..m][k] == members[k];
      }
    }
  }

  /** The JSON a cell becomes. Records are written only by the local
      runner's fallback, whose cells are the text `csv.DictReader` yields,
      so no timestamp reaches this; the timestamp case is a placeholder and
      does not model FastAPI's ISO-8601 text. */
  function CellJson(v: Value): Json {
    match v
    case Num(x) => JNum(x)
    case Text(s) => JStr(s)
    case Time(t) => JNum(t as real)
    case Missing => JNull
  }

  function RecordJson(r: Record): Json {
    JObj(seq(|r|, k requires 0 <= k < |r| => (r[k].0, CellJson(r[k].1))))
  }

  function FieldTypeName(t: FieldType): string {
    match t
    case Nominal => "nominal"
    case Quantitative => "quantitative"
    case Temporal => "temporal"
  }

  /** A channel as a dictionary holding only the parts it has, in the order
      field, type, title. */
  function ChannelJson(c: Channel): Json {
    JObj(
      (if c.field.Some? then [("field", JStr(c.field.value))] else [])
      + (if c.ftype.Some? then [("type", JStr(FieldTypeName(c.ftype.value)))] else [])
      + (if c.title.Some? then [("title", JStr(c.title.value))] else []))
  }

  const SchemaUrl: string := "https://vega.github.io/schema/vega-lite/v5.json"

  function MarkName(m: Mark): string {
    match m
    case Line => "line"
    case Bar => "bar"
  }

  /** The Vega-Lite dictionary `vega_bar`, `vega_line` and the fallback
      write for a spec. Reading it back finds the mark, the height, and
      under "data" the "values" list holding each embedded row's JSON, in
      order. */
  function SpecJson(s: ChartSpec): (j: Json)
    ensures j.JObj?
    ensures Get(j.members, "mark") == Some(JStr(MarkName(s.mark)))
    ensures Get(j.members, "height") == Some(JNum(s.height as real))
    ensures Get(j.members, "data").Some? && Get(j.members, "data").value.JObj?
    ensures var d := Get(Get(j.members, "data").value.members, "values");
            && d.Some? && d.value.JArr? && |d.value.items| == |s.data|
            && forall k :: 0 <= k < |s.data| ==> d.value.items[k] == RecordJson(s.data[k])
  {
    var values := seq(|s.data|, k requires 0 <= k < |s.data| => RecordJson(s.data[k]));
    var m := [
      ("$schema", JStr(SchemaUrl)),
      ("data", JObj([("values", JArr(values))])),
      ("mark", JStr(MarkName(s.mark))),
      ("encoding", JObj([
        ("x", ChannelJson(s.x)),
        ("y", ChannelJson(s.y)),
        ("tooltip", JArr(seq(|s.tooltip|, k requires 0 <= k < |s.tooltip| => ChannelJson(s.tooltip[k]))))])),
      ("height", JNum(s.height as real))];
    SpecJsonLookups(m, values, MarkName(s.mark), s.height as real);
    JObj(m)
  }

  /** A later member with another key does not hide an earlier one. */
  lemma GetSkip(members: seq<(string, Json)>, key: string)
    requires |members| > 0 && members[|members| - 1].0 != key
    ensures Get(members, key) == Get(members[..|members| - 1], key)
  {
  }

  /** The lookups `SpecJson` promises, on its five members. */
  lemma SpecJsonLookups(m: seq<(string, Json)>, values: seq<Json>, mark: string, height: real)
    requires |m| == 5
    requires m[0].0 == "$schema" && m[1] == ("data", JObj([("values", JArr(values))]))
    requires m[2] == ("mark", JStr(mark)) && m[3].0 == "encoding" && m[4] == ("height", JNum(height))
    ensures Get(m, "mark") == Some(JStr(mark))
    ensures Get(m, "height") == Some(JNum(height))
    ensures Get(m, "data") == Some(JObj([("values", JArr(values))]))
  {
    GetSkip(m, "mark");
    assert m[..4][..3] == m[..3];
    GetSkip(m[..4], "mark");
    GetSkip(m, "data");
    GetSkip(m[..4], "data");
    assert m[..3][..2] == m[..2];
    GetSkip(m[..3], "data");
  }
}

=== FILE: local_runner.dfy ===
/** The local Freestyle runner: the prompt it builds from the agent's YAML
    configuration, how it finds the JSON object in the model's reply, how
    it fills in a reply's missing parts, the deterministic fallback, and
    the choice between fallback and model. */
module LocalRunner {
  import opened Wrappers
  import opened Strings
  import opened Table
  import opened Charts
  import opened Json

  /** The fields of the YAML configuration the runner reads; `None` when
      the key is absent. */
  datatype AgentConfig = AgentConfig(
    instructions: Option<string>,
    prompt: Option<string>,
    description: Option<string>)

  datatype AgentRequest = AgentRequest(schemaDescription: string, sampleRows: string)

  /** The reply before validation: the summary and the two lists as JSON. */
  datatype AgentResponse = AgentResponse(summary: Json, suggestedVisuals: seq<Json>, chartSpecs: seq<Json>)

  const SchemaPlaceholder: string := "{{schema_description}}"
  const SamplePlaceholder: string := "{{sample_rows}}"

  const StrictDirective: string :=
    "Return ONLY a single JSON object with keys: \"summary\", \"suggested_visuals\", \"chart_specs\". "
    + "Do not include markdown fences or extra text.\n"

  /** What comes between the instructions and the filled template: a blank
      line, the directive (which ends in a line break), a line break. */
  const PromptSeparator: string := "\n\n" + StrictDirective + "\n"

  // ---------------------------------------------------------------------
  // the prompt

  /** The template with every schema placeholder and then every sample
      placeholder replaced. */
  function FillTemplate(tmpl: string, schema: string, sample: string): string {
    ReplaceAll(ReplaceAll(tmpl, SchemaPlaceholder, schema), SamplePlaceholder, sample)
  }

  /** `build_prompt(agent_cfg, payload)` with Python's `str.strip`
      whitespace set `ws`. The prompt is laid out as the stripped
      instructions, then a blank line, the directive (which ends in a line
      break) and another line break, then the filled stripped template;
      each part can be cut back out of the prompt. */
  function BuildPrompt(cfg: AgentConfig, req: AgentRequest, ws: char -> bool): (p: string)
    ensures var i := Strip(cfg.instructions.GetOr(""), ws);
            var k := |i| + |PromptSeparator|;
            && |p| >= k
            && p[..|i|] == i
            && p[|i|..k] == PromptSeparator
            && p[k..] == FillTemplate(Strip(cfg.prompt.GetOr(""), ws), req.schemaDescription, req.sampleRows)
  {
    var instructions := Strip(cfg.instructions.GetOr(""), ws);
    var tmpl := Strip(cfg.prompt.GetOr(""), ws);
    var filled := FillTemplate(tmpl, req.schemaDescription, req.sampleRows);
    ConcatParts(instructions, PromptSeparator, filled);
    instructions + PromptSeparator + filled
  }

  /** Every occurrence is replaced: the template is cut at each schema
      placeholder and rejoined with the schema, then the result is cut at
      each sample placeholder and rejoined with the sample, and none of the
      cut pieces holds the placeholder it was cut at. */
  lemma FillTemplateReplacesAll(tmpl: string, schema: string, sample: string)
    ensures FillTemplate(tmpl, schema, sample)
            == Join(Split(Join(Split(tmpl, SchemaPlaceholder), schema), SamplePlaceholder), sample)
    ensures forall i :: 0 <= i < |Split(tmpl, SchemaPlaceholder)| ==>
              !Contains(Split(tmpl, SchemaPlaceholder)[i], SchemaPlaceholder)
    ensures var once := ReplaceAll(tmpl, SchemaPlaceholder, schema);
            forall i :: 0 <= i < |Split(once, SamplePlaceholder)| ==>
              !Contains(Split(once, SamplePlaceholder)[i], SamplePlaceholder)
  {
    var once := ReplaceAll(tmpl, SchemaPlaceholder, schema);
    ReplaceAllIsSplitJoin(tmpl, SchemaPlaceholder, schema);
    ReplaceAllIsSplitJoin(once, SamplePlaceholder, sample);
    SplitPiecesFree(tmpl, SchemaPlaceholder);
    SplitPiecesFree(once, SamplePlaceholder);
  }

  /** Absent keys count as empty: the prompt is then just the separator. */
  lemma PromptDefaults(req: AgentRequest, ws: char -> bool)
    ensures BuildPrompt(AgentConfig(None, None, None), req, ws) == PromptSeparator
  {
    assert Strip("", ws) == "";
    assert ReplaceAll("", SchemaPlaceholder, req.schemaDescription) == "";
    assert ReplaceAll("", SamplePlaceholder, req.sampleRows) == "";
    assert BuildPrompt(AgentConfig(None, None, None), req, ws) == "" + PromptSeparator + "";
  }

  /** The whole text is its own only occurrence. */
  lemma {:induction false} ReplaceWhole(p: string, r: string)
    requires |p| > 0
    ensures ReplaceAll(p, p, r) == r
  {
    assert p[..|p|] == p;
    assert ReplaceAll(p[|p|..], p, r) == "";
  }

  /** The schema is substituted first, so a sample placeholder that the
      schema text brings in is itself replaced by the sample. */
  lemma SchemaBeforeSample(sample: string)
    ensures FillTemplate(SchemaPlaceholder, SamplePlaceholder, sample) == sample
  {
    ReplaceWhole(SchemaPlaceholder, SamplePlaceholder);
    ReplaceWhole(SamplePlaceholder, sample);
  }

  /** Text without any occurrence of `p` is left alone. */
  lemma {:induction false} ReplaceAbsent(s: string, p: string, r: string)
    requires |p| > 0 && !Contains(s, p)
    ensures ReplaceAll(s, p, r) == s
    decreases |s|
  {
    if |s| >= |p| {
      assert !StartsAt(s, p, 0);
      assert !Contains(s[1..], p) by {
        forall k | 0 <= k <= |s[1..]| ensures !StartsAt(s[1..], p, k) {
          StartsAtShift(s, p, k);
        }
      }
      ReplaceAbsent(s[1..], p, r);
    }
  }

  /** Positions before `n` that start no occurrence are copied unchanged. */
  lemma {:induction false} ReplaceSkip(s: string, p: string, r: string, n: nat)
    requires |p| > 0 && n + |p| <= |s|
    requires forall k :: 0 <= k < n ==> !StartsAt(s, p, k)
    ensures ReplaceAll(s, p, r) == s[..n] + ReplaceAll(s[n..], p, r)
    decreases n
  {
    if n > 0 {
      assert !StartsAt(s, p, 0);
      assert ReplaceAll(s, p, r) == [s[0]] + ReplaceAll(s[1..], p, r);
      forall k | 0 <= k < n - 1 ensures !StartsAt(s[1..], p, k) {
        StartsAtShift(s, p, k);
      }
      ReplaceSkip(s[1..], p, r, n - 1);
      var rest := ReplaceAll(s[n..], p, r);
      assert s[1..][n - 1..] == s[n..];
      assert ReplaceAll(s[1..], p, r) == s[1..][..n - 1] + rest;
      assert [s[0]] + (s[1..][..n - 1] + rest) == ([s[0]] + s[1..][..n - 1]) + rest;
      assert [s[0]] + s[1..][..n - 1] == s[..n];
    }
  }

  /** An occurrence in the tail is an occurrence one further on in the text. */
  lemma StartsAtShift(s: string, p: string, k: nat)
    requires |s| > 0
    ensures StartsAt(s[1..], p, k) <==> StartsAt(s, p, k + 1)
  {
    if k + |p| <= |s| - 1 {
      assert s[1..][k..k + |p|] == s[k + 1..k + 1 + |p|];
    }
  }

  /** The template of the example below: the schema placeholder with
      another copy of itself put in after its ninth character. */
  const SplitTemplate: string := SplitHead + SchemaPlaceholder + SplitTail
  const SplitHead: string := "{{schema_"
  const SplitTail: string := "description}}"

  /** Filling the split template's inner placeholder with nothing joins the
      outer halves into a placeholder. */
  lemma SplitTemplateJoins()
    ensures ReplaceAll(SplitTemplate, SchemaPlaceholder, "") == SchemaPlaceholder
  {
    var t, P := SplitTemplate, SchemaPlaceholder;
    SplitTemplateLateMatch();
    ReplaceSkip(t, P, "", |SplitHead|);
    ConcatParts(SplitHead, P, SplitTail);
    assert t[|SplitHead|..] == P + SplitTail;
    ReplaceFront(P, SplitTail, "");
    HeadTailJoin();
  }

  lemma HeadTailJoin()
    ensures SplitHead + SplitTail == SchemaPlaceholder
  {
  }

  /** The first occurrence in the split template is the inner one, at 9. */
  lemma SplitTemplateLateMatch()
    ensures |SplitTemplate| >= 9 + |SchemaPlaceholder|
    ensures forall k :: 0 <= k < 9 ==> !StartsAt(SplitTemplate, SchemaPlaceholder, k)
  {
    var t, P := SplitTemplate, SchemaPlaceholder;
    forall k | 0 <= k < 9 ensures !StartsAt(t, P, k) {
      if k == 0 {
        assert t[9] != P[9];
      } else if k == 1 {
        assert t[2] != P[1];
      } else {
        assert t[k] != P[0];
      }
    }
  }

  /** An occurrence at the front is replaced and the scan goes on after it. */
  lemma ReplaceFront(p: string, rest: string, r: string)
    requires |p| > 0 && |rest| < |p|
    ensures ReplaceAll(p + rest, p, r) == r + rest
  {
    var s := p + rest;
    assert s[..|p|] == p;
    assert s[|p|..] == rest;
  }

  /** The schema placeholder holds no sample placeholder. */
  lemma SchemaPlaceholderHoldsNoSample()
    ensures !Contains(SchemaPlaceholder, SamplePlaceholder)
  {
    var P, Q := SchemaPlaceholder, SamplePlaceholder;
    forall k | 0 <= k <= |P| ensures !StartsAt(P, Q, k) {
      if k + |Q| <= |P| {
        if k == 0 {
          assert P[3] != Q[3];
        } else if k == 1 {
          assert P[2] != Q[1];
        } else {
          assert P[k] != Q[0];
        }
      }
    }
  }

  /** Replacing every placeholder does not mean no placeholder is left:
      filling the split template with empty payloads, which hold no
      placeholder, leaves the schema placeholder itself. */
  lemma PlaceholderCanSurvive()
    ensures !Contains("", SchemaPlaceholder) && !Contains("", SamplePlaceholder)
    ensures FillTemplate(SplitTemplate, "", "") == SchemaPlaceholder
  {
    SplitTemplateJoins();
    SchemaPlaceholderHoldsNoSample();
    ReplaceAbsent(SchemaPlaceholder, SamplePlaceholder, "");
    assert !StartsAt("", SchemaPlaceholder, 0);
    assert !StartsAt("", SamplePlaceholder, 0);
  }

  // ---------------------------------------------------------------------
  // finding the JSON object in the reply

  /** `json.loads`: a parse of the text, if it is JSON. */
  type JsonParser = string -> Option<Json>

  const ExtractError: string := "Could not parse JSON from model response"

  /** The span `re.search(r"\{.*\}", text, re.DOTALL)` matches: the leftmost
      match starts at the first `{` (any `}` after a later `{` also follows
      the first), and the greedy `.*` reaches the last `}`. */
  function BraceSpan(text: string): (r: Option<(nat, nat)>)
    ensures r.Some? ==> r.value.0 < r.value.1 < |text|
  {
    match (FirstIndex(text, '{'), LastIndex(text, '}'))
    case (Some(i), Some(j)) => if i < j then Some((i, j)) else None
    case _ => None
  }

  /** The candidate between the first `{` and the last `}`, both kept. */
  predicate IsBraceSpan(text: string, i: int, j: int) {
    && 0 <= i < j < |text|
    && text[i] == '{' && '{' !in text[..i]
    && text[j] == '}' && '}' !in text[j + 1..]
  }

  /** `extract_json(text)`: the whole text if it parses, else the brace
      span if there is one and it parses, else an error. Whatever it returns
      is the parse of the whole text or of the brace span. */
  function ExtractJson(text: string, parse: JsonParser): (r: Result<Json>)
    ensures r.Err? ==> r.error == ExtractError
    ensures r.Ok? ==>
              || parse(text) == Some(r.value)
              || exists i, j :: IsBraceSpan(text, i, j) && parse(text[i..j + 1]) == Some(r.value)
  {
    BraceSpanSpec(text);
    match parse(text)
    case Some(v) => Ok(v)
    case None =>
      match BraceSpan(text)
      case None => Err(ExtractError)
      case Some((i, j)) =>
        match parse(text[i..j + 1])
        case Some(v) => Ok(v)
        case None => Err(ExtractError)
  }

  /** The first `{` and the last `}` as quantified facts. */
  lemma BraceIndexFacts(text: string)
    ensures var f := FirstIndex(text, '{');
            f.Some? ==> forall k :: 0 <= k < f.value ==> text[k] != '{'
    ensures var l := LastIndex(text, '}');
            l.Some? ==> forall k :: l.value < k < |text| ==> text[k] != '}'
  {
    var f, l := FirstIndex(text, '{'), LastIndex(text, '}');
    if f.Some? {
      forall k | 0 <= k < f.value ensures text[k] != '{' {
        assert text[..f.value][k] == text[k];
      }
    }
    if l.Some? {
      forall k | l.value < k < |text| ensures text[k] != '}' {
        assert text[l.value + 1..][k - l.value - 1] == text[k];
      }
    }
  }

  /** The span is the one the regular expression finds, and there is one
      exactly when some `{` comes before some `}`. */
  lemma BraceSpanSpec(text: string)
    ensures BraceSpan(text).Some? ==> IsBraceSpan(text, BraceSpan(text).value.0, BraceSpan(text).value.1)
    ensures BraceSpan(text).Some? <==>
            exists a, b :: 0 <= a < b < |text| && text[a] == '{' && text[b] == '}'
  {
    var f, l := FirstIndex(text, '{'), LastIndex(text, '}');
    BraceIndexFacts(text);
    if exists a, b :: 0 <= a < b < |text| && text[a] == '{' && text[b] == '}' {
      var a, b :| 0 <= a < b < |text| && text[a] == '{' && text[b] == '}';
      assert text[a] in text && text[b] in text;
    }
  }

  /** Whatever the text, the reply is the whole-text parse if there is one;
      otherwise it is the parse of the brace span, and an error exactly when
      there is no span or it does not parse. */
  lemma ExtractJsonSpec(text: string, parse: JsonParser)
    ensures parse(text).Some? ==> ExtractJson(text, parse) == Ok(parse(text).value)
    ensures parse(text).None? ==>
            (ExtractJson(text, parse).Ok? <==>
              exists i, j :: IsBraceSpan(text, i, j) && parse(text[i..j + 1]).Some?)
    ensures forall i, j :: parse(text).None? && IsBraceSpan(text, i, j) && parse(text[i..j + 1]).Some? ==>
              ExtractJson(text, parse) == Ok(parse(text[i..j + 1]).value)
    ensures ExtractJson(text, parse).Err? ==> ExtractJson(text, parse).error == ExtractError
  {
    BraceSpanSpec(text);
    forall i, j | IsBraceSpan(text, i, j)
      ensures BraceSpan(text) == Some((i, j))
    {
      SpanUnique(text, i, j);
    }
  }

  lemma SpanUnique(text: string, i: int, j: int)
    requires IsBraceSpan(text, i, j)
    ensures BraceSpan(text) == Some((i, j))
  {
    BraceIndexFacts(text);
    assert text[i] in text && text[j] in text;
    forall k | 0 <= k < i ensures text[k] != '{' {
      assert text[..i][k] == text[k];
    }
    forall k | j < k < |text| ensures text[k] != '}' {
      assert text[j + 1..][k - j - 1] == text[k];
    }
  }

  // ---------------------------------------------------------------------
  // normalising the reply

  /** A value that is a list, else the empty list. */
  function ListOr(v: Option<Json>): (r: seq<Json>)
    ensures v.Some? && v.value.JArr? ==> r == v.value.items
    ensures !(v.Some? && v.value.JArr?) ==> r == []
  {
    match v
    case Some(JArr(items)) => items
    case _ => []
  }

  /** The minimal contract `llm_response` enforces. It succeeds exactly on
      an object: any other JSON value (a list, a number, a string) fails
      where `data.get` is called. */
  function Normalise(data: Json): (r: Result<AgentResponse>)
    ensures r.Ok? <==> data.JObj?
    ensures r.Err? ==> r.error == "AttributeError"
  {
    match data
    case JObj(m) =>
      Ok(AgentResponse(
        Get(m, "summary").GetOr(JStr("")),
        ListOr(Get(m, "suggested_visuals")),
        ListOr(Get(m, "chart_specs"))))
    case _ => Err("AttributeError")
  }

  /** The response written as the dictionary the endpoint returns. */
  function ResponseJson(r: AgentResponse): Json {
    JObj([("summary", r.summary), ("suggested_visuals", JArr(r.suggestedVisuals)), ("chart_specs", JArr(r.chartSpecs))])
  }

  /** Normalising a response that is already complete changes nothing, so
      normalising twice is normalising once. */
  lemma NormaliseRoundTrip(r: AgentResponse)
    ensures Normalise(ResponseJson(r)) == Ok(r)
  {
    var m := ResponseJson(r).members;
    GetSkip(m, "summary");
    GetSkip(m[..2], "summary");
    GetSkip(m, "suggested_visuals");
  }

  lemma NormaliseIdempotent(data: Json)
    requires Normalise(data).Ok?
    ensures Normalise(ResponseJson(Normalise(data).value)) == Normalise(data)
  {
    NormaliseRoundTrip(Normalise(data).value);
  }

  /** Missing parts become empty: no summary becomes "", and a list part
      that is absent or not a list becomes []; present parts are kept. */
  lemma NormaliseDefaults(m: seq<(string, Json)>)
    ensures var r := Normalise(JObj(m)).value;
            && (r.summary == JStr("") <==> Get(m, "summary").None? || Get(m, "summary") == Some(JStr("")))
            && (Get(m, "summary").Some? ==> r.summary == Get(m, "summary").value)
            && ((Get(m, "suggested_visuals").Some? && Get(m, "suggested_visuals").value.JArr?) ==>
                  r.suggestedVisuals == Get(m, "suggested_visuals").value.items)
            && ((Get(m, "chart_specs").Some? && Get(m, "chart_specs").value.JArr?) ==>
                  r.chartSpecs == Get(m, "chart_specs").value.items)
            && ((Get(m, "suggested_visuals").None? || !Get(m, "suggested_visuals").value.JArr?) ==>
                  r.suggestedVisuals == [])
            && ((Get(m, "chart_specs").None? || !Get(m, "chart_specs").value.JArr?) ==>
                  r.chartSpecs == [])
  {
  }

  // ---------------------------------------------------------------------
  // the fallback

  const FallbackSummary: string := "Fallback summary (no LLM)."
  const FallbackVisual: string := "Bar chart of Location vs DataValue"

  /** `csv.DictReader` over the sample text: the rows it reads, each a
      record of header names and text cells. */
  type DictReader = string -> seq<Record>

  /** The bar chart of `Location` against `DataValue` over the given rows. */
  function FallbackSpec(rows: seq<Record>): (s: ChartSpec)
    ensures s.mark == Bar && KindOf(s) == BarChart && TooltipMirrorsAxes(s)
    ensures s.x == FieldChannel("Location", Nominal, "Location")
    ensures s.y == FieldChannel("DataValue", Quantitative, "DataValue")
    ensures s.data == rows && s.height == ChartHeight
  {
    var x := FieldChannel("Location", Nominal, "Location");
    var y := FieldChannel("DataValue", Quantitative, "DataValue");
    ChartSpec(Bar, rows, x, y, [TipChannel(x), TipChannel(y)], ChartHeight)
  }

  /** `fallback_response(payload)`. */
  function FallbackResponse(req: AgentRequest, reader: DictReader): (r: AgentResponse)
    ensures r.summary == JStr(FallbackSummary) && r.suggestedVisuals == [JStr(FallbackVisual)]
    ensures r.chartSpecs == [] <==> reader(req.sampleRows) == []
    ensures r.chartSpecs != [] ==> r.chartSpecs == [SpecJson(FallbackSpec(reader(req.sampleRows)))]
  {
    var rows := reader(req.sampleRows);
    AgentResponse(
      JStr(FallbackSummary),
      [JStr(FallbackVisual)],
      if rows != [] then [SpecJson(FallbackSpec(rows))] else [])
  }

  /** The fallback chart embeds every row read from the sample: its
      "values" list holds each row's JSON, in the order read. */
  lemma FallbackEmbedsRows(req: AgentRequest, reader: DictReader)
    requires reader(req.sampleRows) != []
    ensures var spec := FallbackResponse(req, reader).chartSpecs[0];
            var rows := reader(req.sampleRows);
            && spec.JObj?
            && Get(spec.members, "mark") == Some(JStr("bar"))
            && Get(spec.members, "height") == Some(JNum(300.0))
            && Get(spec.members, "data").Some? && Get(spec.members, "data").value.JObj?
            && var d := Get(Get(spec.members, "data").value.members, "values");
               && d.Some? && d.value.JArr? && |d.value.items| == |rows|
               && forall k :: 0 <= k < |rows| ==> d.value.items[k] == RecordJson(rows[k])
  {
    var spec := FallbackSpec(reader(req.sampleRows));
    assert spec.data == reader(req.sampleRows);
  }

  // ---------------------------------------------------------------------
  // choosing between the fallback and the model

  /** The environment the runner reads: the API key ("" when unset) and
      `FREESTYLE_LEVEL` (`None` when unset). */
  datatype Env = Env(apiKey: string, level: Option<string>)

  /** The chat completion: given the system and user messages, the text of
      the first choice. */
  type Model = (string, string) -> string

  const DefaultSystem: string := "You are a data visualization agent."

  function SystemMessage(cfg: AgentConfig): string {
    cfg.description.GetOr(DefaultSystem)
  }

  /** `llm_response(agent_cfg, payload)`: the fallback without a key;
      otherwise the model's reply to the built prompt, which fails exactly
      when no JSON value can be extracted from it or the value is not an
      object. */
  function LlmResponse(cfg: AgentConfig, req: AgentRequest, env: Env, ws: char -> bool,
                       llm: Model, parse: JsonParser, reader: DictReader): (r: Result<AgentResponse>)
    ensures env.apiKey == "" ==> r == Ok(FallbackResponse(req, reader))
    ensures env.apiKey != "" ==>
              var x := ExtractJson(llm(SystemMessage(cfg), BuildPrompt(cfg, req, ws)), parse);
              (r.Ok? <==> x.Ok? && x.value.JObj?)
  {
    if env.apiKey == "" then Ok(FallbackResponse(req, reader))
    else
      var text := llm(SystemMessage(cfg), BuildPrompt(cfg, req, ws));
      match ExtractJson(text, parse)
      case Err(e) => Err(e)
      case Ok(data) => Normalise(data)
  }

  /** The `/agent` endpoint: level "0" (the level defaults to "1") means
      the fallback only. Without a key or at level "0" the answer is the
      fallback; otherwise it is an error exactly when no JSON value can be
      extracted from the model's reply (the ValueError of `extract_json`)
      or the value extracted is not an object (`data.get` raises). */
  function RunnerAgent(cfg: AgentConfig, req: AgentRequest, env: Env, ws: char -> bool,
                       llm: Model, parse: JsonParser, reader: DictReader): (r: Result<AgentResponse>)
    ensures env.apiKey == "" || env.level == Some("0") ==> r == Ok(FallbackResponse(req, reader))
    ensures env.apiKey != "" && env.level != Some("0") ==>
              var x := ExtractJson(llm(SystemMessage(cfg), BuildPrompt(cfg, req, ws)), parse);
              (r.Ok? <==> x.Ok? && x.value.JObj?)
  {
    var level := env.level.GetOr("1");
    assert level == "0" <==> env.level == Some("0") by { assert "1" != "0"; }
    if level == "0" then Ok(FallbackResponse(req, reader))
    else LlmResponse(cfg, req, env, ws, llm, parse, reader)
  }

  /** Whatever the model says, the reply is the fallback without a key or
      at level "0"; otherwise it is the model's reply to the built prompt
      under the configured system message, found and normalised: the
      extraction error when no JSON value can be found, and the normalised
      value (an AttributeError unless it is an object) when one can. */
  lemma RunnerAgentSpec(cfg: AgentConfig, req: AgentRequest, env: Env, ws: char -> bool,
                        llm: Model, parse: JsonParser, reader: DictReader)
    ensures var r := RunnerAgent(cfg, req, env, ws, llm, parse, reader);
            && (env.apiKey == "" || env.level == Some("0") ==> r == Ok(FallbackResponse(req, reader)))
            && (env.apiKey != "" && env.level != Some("0") ==>
                  var text := llm(SystemMessage(cfg), BuildPrompt(cfg, req, ws));
                  && (ExtractJson(text, parse).Err? ==> r == Err(ExtractError))
                  && (ExtractJson(text, parse).Ok? ==> r == Normalise(ExtractJson(text, parse).value)))
    ensures env.level.None? || env.level == Some("1") ==>
            RunnerAgent(cfg, req, env, ws, llm, parse, reader) == LlmResponse(cfg, req, env, ws, llm, parse, reader)
    ensures cfg.description.None? ==> SystemMessage(cfg) == DefaultSystem
  {
    ExtractJsonSpec(llm(SystemMessage(cfg), BuildPrompt(cfg, req, ws)), parse);
  }
}

=== FILE: mock_agents.dfy ===
/** The two rule-based mock agents (`backend/mock_agent.py` and the
    top-level `mock_agent.py`): they suggest visuals from keywords in the
    lower-cased schema text and return a fixed summary. The two differ only
    in the summary. */
module MockAgents {
  import opened Strings

  datatype AgentRequest = AgentRequest(schemaDescription: string, sampleRows: string)

  datatype AgentResponse = AgentResponse(summary: string, suggestedVisuals: seq<string>)

  const LineSuggestion: string := "Line chart of value over time"
  const MapSuggestion: string := "Map of metric by location"

  /** What both agents suggest when no keyword matches. */
  const DefaultSuggestions: seq<string> := [BarDefault, HistogramDefault]
  const BarDefault: string := "Bar chart of a categorical column by a numeric metric"
  const HistogramDefault: string := "Histogram of a numeric column"

  predicate MentionsTime(s: string) {
    Contains(s, "date") || Contains(s, "time")
  }

  predicate MentionsPlace(s: string) {
    Contains(s, "location") || Contains(s, "latitude") || Contains(s, "longitude")
  }

  /** The keyword rules over the schema text. */
  function MockVisuals(schema: string): seq<string> {
    var s := Lower(schema);
    var visuals :=
      (if MentionsTime(s) then [LineSuggestion] else [])
      + (if MentionsPlace(s) then [MapSuggestion] else []);
    if visuals == [] then DefaultSuggestions else visuals
  }

  /** The line suggestion is there exactly when the lower-cased schema says
      "date" or "time", the map exactly when it says "location", "latitude"
      or "longitude", the line first when both are; with neither, the list is
      the two defaults. Either way there are one or two suggestions. */
  lemma MockVisualsSpec(schema: string)
    ensures var v := MockVisuals(schema); var s := Lower(schema);
            && (LineSuggestion in v <==> MentionsTime(s))
            && (MapSuggestion in v <==> MentionsPlace(s))
            && (MentionsTime(s) && MentionsPlace(s) ==> v == [LineSuggestion, MapSuggestion])
            && (!MentionsTime(s) && !MentionsPlace(s) <==> v == DefaultSuggestions)
            && 1 <= |v| <= 2
  {
    assert LineSuggestion != MapSuggestion by { assert LineSuggestion[0] != MapSuggestion[0]; }
    assert LineSuggestion !in DefaultSuggestions by {
      assert |LineSuggestion| != |BarDefault|;
      assert LineSuggestion[0] != HistogramDefault[0];
    }
    assert MapSuggestion !in DefaultSuggestions by {
      assert |MapSuggestion| != |BarDefault| && |MapSuggestion| != |HistogramDefault|;
    }
  }

  /** The rules read the schema lower-cased, so its case does not matter. */
  lemma MockVisualsIgnoreCase(a: string, b: string)
    requires Lower(a) == Lower(b)
    ensures MockVisuals(a) == MockVisuals(b)
  {
  }

  const BackendSummary: string :=
    "This dataset appears to be tabular with columns inferred from the schema. "
    + "Consider grouping by key categorical fields and examining trends over time or across regions. "
    + "Use filters for high-cardinality columns and handle missing values as noted."

  const RootSummary: string :=
    "This dataset appears to be tabular. Group by key categorical fields and examine trends over time. "
    + "Use filters for high-cardinality columns and handle missing values."

  /** `agent(req)` of `backend/mock_agent.py`: the fixed summary, and a line or map
      suggestion exactly when the schema mentions time or place. */
  function BackendMockAgent(req: AgentRequest): (r: AgentResponse)
    ensures r.summary == BackendSummary
    ensures var s := Lower(req.schemaDescription);
            && (LineSuggestion in r.suggestedVisuals <==> MentionsTime(s))
            && (MapSuggestion in r.suggestedVisuals <==> MentionsPlace(s))
            && 1 <= |r.suggestedVisuals| <= 2
  {
    MockVisualsSpec(req.schemaDescription);
    AgentResponse(BackendSummary, MockVisuals(req.schemaDescription))
  }

  /** `agent(req)` of `mock_agent.py`: the fixed summary, and a line or map
      suggestion exactly when the schema mentions time or place. */
  function RootMockAgent(req: AgentRequest): (r: AgentResponse)
    ensures r.summary == RootSummary
    ensures var s := Lower(req.schemaDescription);
            && (LineSuggestion in r.suggestedVisuals <==> MentionsTime(s))
            && (MapSuggestion in r.suggestedVisuals <==> MentionsPlace(s))
            && 1 <= |r.suggestedVisuals| <= 2
  {
    MockVisualsSpec(req.schemaDescription);
    AgentResponse(RootSummary, MockVisuals(req.schemaDescription))
  }

  /** The backend mock's reply depends only on the lower-cased schema: the
      sample rows and the letter case are ignored, and the summary is fixed. */
  lemma BackendMockAgentSpec(r1: AgentRequest, r2: AgentRequest)
    requires Lower(r1.schemaDescription) == Lower(r2.schemaDescription)
    ensures BackendMockAgent(r1) == BackendMockAgent(r2)
    ensures BackendMockAgent(r1).summary == BackendSummary
    ensures BackendMockAgent(r1).suggestedVisuals == MockVisuals(r1.schemaDescription)
  {
    MockVisualsIgnoreCase(r1.schemaDescription, r2.schemaDescription);
  }

  /** The same for the top-level mock, whose summary is the shorter one. */
  lemma RootMockAgentSpec(r1: AgentRequest, r2: AgentRequest)
    requires Lower(r1.schemaDescription) == Lower(r2.schemaDescription)
    ensures RootMockAgent(r1) == RootMockAgent(r2)
    ensures RootMockAgent(r1).summary == RootSummary
    ensures RootMockAgent(r1).suggestedVisuals == MockVisuals(r1.schemaDescription)
  {
    MockVisualsIgnoreCase(r1.schemaDescription, r2.schemaDescription);
  }
}

=== FILE: prompt_ts.dfy ===
/** The TypeScript agent service's `buildPrompt`: the same template as the
    Python runner, but filled with `String.prototype.replace`, which
    replaces only the first occurrence and reads `$` patterns in the
    replacement text. */
module PromptTs {
  import opened Wrappers
  import opened Strings

  const SchemaPlaceholder: string := "{{schema_description}}"
  const SamplePlaceholder: string := "{{sample_rows}}"

  const StrictDirective: string :=
    "Return ONLY a single JSON object with keys \"summary\",\"suggested_visuals\",\"chart_specs\". "
    + "No markdown fences or extra text."

  /** What comes between the instructions and the filled template: a blank
      line, the directive, a blank line. */
  const PromptSeparator: string := "\n\n" + StrictDirective + "\n\n"

  /** The replacement text with its `$` patterns expanded, as section
      22.1.3.19.1 (GetSubstitution) of ECMA-262 does for a string pattern:
      `$$` is a dollar sign, `$&` the match, `` $` `` the text before it,
      `$'` the text after it; a string pattern has no captures, so any other
      `$` stands for itself. */
  function Expand(r: string, before: string, matched: string, after: string): string
    decreases |r|
  {
    if |r| == 0 then ""
    else if r[0] == '$' && |r| >= 2 && r[1] == '$' then "$" + Expand(r[2..], before, matched, after)
    else if r[0] == '$' && |r| >= 2 && r[1] == '&' then matched + Expand(r[2..], before, matched, after)
    else if r[0] == '$' && |r| >= 2 && r[1] == '`' then before + Expand(r[2..], before, matched, after)
    else if r[0] == '$' && |r| >= 2 && r[1] == '\'' then after + Expand(r[2..], before, matched, after)
    else [r[0]] + Expand(r[1..], before, matched, after)
  }

  /** `s.replace(p, r)` for a string pattern `p`. */
  function ReplaceFirst(s: string, p: string, r: string): string
    requires |p| > 0
  {
    match IndexOf(s, p)
    case None => s
    case Some(k) => s[..k] + Expand(r, s[..k], p, s[k + |p|..]) + s[k + |p|..]
  }

  /** The template as `buildPrompt` fills it: trimmed first, then the first
      schema placeholder, then the first sample placeholder. */
  function FillTemplate(prompt: Option<string>, schema: string, sample: string, ws: char -> bool): string {
    ReplaceFirst(ReplaceFirst(Strip(prompt.GetOr(""), ws), SchemaPlaceholder, schema), SamplePlaceholder, sample)
  }

  /** `buildPrompt(schemaDescription, sampleRows)` over the parsed YAML's
      `instructions` and `prompt` (`None` when absent), with JavaScript's
      `trim` whitespace set `ws`. */
  function BuildPrompt(instructions: Option<string>, prompt: Option<string>,
                       schema: string, sample: string, ws: char -> bool): (p: string)
    ensures var i := Strip(instructions.GetOr(""), ws);
            var k := |i| + |PromptSeparator|;
            && |p| >= k
            && p[..|i|] == i
            && p[|i|..k] == PromptSeparator
            && p[k..] == FillTemplate(prompt, schema, sample, ws)
  {
    var i := Strip(instructions.GetOr(""), ws);
    var f := FillTemplate(prompt, schema, sample, ws);
    ConcatParts(i, PromptSeparator, f);
    i + PromptSeparator + f
  }

  // ---------------------------------------------------------------------

  /** A replacement without a dollar sign is inserted verbatim. */
  lemma {:induction false} ExpandPlain(r: string, before: string, matched: string, after: string)
    requires '$' !in r
    ensures Expand(r, before, matched, after) == r
    decreases |r|
  {
    if |r| > 0 {
      assert r[0] != '$';
      assert '$' !in r[1..] by {
        forall k | 0 <= k < |r[1..]| ensures r[1..][k] != '$' {
          assert r[1..][k] == r[k + 1];
        }
      }
      ExpandPlain(r[1..], before, matched, after);
      assert [r[0]] + r[1..] == r;
    }
  }

  /** Only the first occurrence is replaced: the text before it, which holds
      no occurrence, and the text after it are kept as they are. */
  lemma ReplaceFirstSpec(s: string, p: string, r: string)
    requires |p| > 0 && '$' !in r
    ensures !Contains(s, p) ==> ReplaceFirst(s, p, r) == s
    ensures Contains(s, p) ==>
              var k := IndexOf(s, p).value;
              && StartsAt(s, p, k)
              && (forall j :: 0 <= j < k ==> !StartsAt(s, p, j))
              && ReplaceFirst(s, p, r) == s[..k] + r + s[k + |p|..]
  {
    if Contains(s, p) {
      var k := IndexOf(s, p).value;
      ExpandPlain(r, s[..k], p, s[k + |p|..]);
    }
  }

  /** A later occurrence that does not overlap the first survives, shifted
      by the difference in length. */
  lemma SecondOccurrenceSurvives(s: string, p: string, r: string, j: int)
    requires |p| > 0 && '$' !in r
    requires Contains(s, p) && StartsAt(s, p, j) && j >= IndexOf(s, p).value + |p|
    ensures StartsAt(ReplaceFirst(s, p, r), p, j - |p| + |r|)
  {
    ReplaceFirstSpec(s, p, r);
    var k := IndexOf(s, p).value;
    var out := ReplaceFirst(s, p, r);
    var j' := j - |p| + |r|;
    assert out == s[..k] + r + s[k + |p|..];
    forall d | 0 <= d < |p| ensures out[j' + d] == p[d] {
      assert out[j' + d] == s[k + |p|..][j - k - |p| + d];
    }
    assert out[j'..j' + |p|] == p;
  }

  /** `$&` puts the match back, so replacing with it changes nothing. */
  lemma MatchPatternRestores(s: string, p: string)
    requires |p| > 0
    ensures ReplaceFirst(s, p, "$&") == s
  {
    if Contains(s, p) {
      var k := IndexOf(s, p).value;
      assert Expand("$&"[2..], s[..k], p, s[k + |p|..]) == "";
      assert s[..k] + p + s[k + |p|..] == s;
    }
  }

  /** A template with the sample placeholder twice keeps the second copy. */
  lemma TwiceKeepsSecond(sample: string, ws: char -> bool)
    requires '$' !in sample && !ws('{') && !ws('}')
    ensures var t := SamplePlaceholder + SamplePlaceholder;
            FillTemplate(Some(t), "", sample, ws) == sample + SamplePlaceholder
  {
    var P, Q := SchemaPlaceholder, SamplePlaceholder;
    var t := Q + Q;
    assert t[0] == '{' && t[|t| - 1] == '}';
    StripUnchanged(t, ws);
    DoubleSampleHoldsNoSchema();
    ReplaceFirstSpec(t, P, "");
    var t2 := ReplaceFirst(Strip(t, ws), P, "");
    assert t2 == t;
    FirstOfDoubleSample(sample);
  }

  /** In the doubled placeholder the first copy is the one replaced. */
  lemma FirstOfDoubleSample(sample: string)
    requires '$' !in sample
    ensures var Q := SamplePlaceholder;
            ReplaceFirst(Q + Q, Q, sample) == sample + Q
  {
    var Q := SamplePlaceholder;
    var t := Q + Q;
    assert t[..|Q|] == Q;
    assert StartsAt(t, Q, 0);
    ReplaceFirstSpec(t, Q, sample);
    assert IndexOf(t, Q) == Some(0);
    assert t[..0] == [] && t[|Q|..] == Q;
  }

  /** The schema placeholder has a `c`, which the sample placeholder lacks. */
  lemma DoubleSampleHoldsNoSchema()
    ensures !Contains(SamplePlaceholder + SamplePlaceholder, SchemaPlaceholder)
  {
    var P, Q := SchemaPlaceholder, SamplePlaceholder;
    var t := Q + Q;
    assert 'c' !in Q;
    assert forall i :: 0 <= i < |t| ==> t[i] != 'c';
    assert P[3] == 'c';
    forall k | 0 <= k <= |t| ensures !StartsAt(t, P, k) {
      if k + |P| <= |t| {
        assert t[k..k + |P|][3] == t[k + 3];
      }
    }
  }

  /** Text whose first and last characters are not whitespace is kept by
      trimming. */
  lemma StripUnchanged(s: string, ws: char -> bool)
    requires |s| > 0 && !ws(s[0]) && !ws(s[|s| - 1])
    ensures Strip(s, ws) == s
  {
  }

  /** The template is trimmed before the values go in, so whitespace at the
      edges of the schema text reaches the prompt unchanged. */
  lemma TrimBeforeSubstitution(schema: string, sample: string, ws: char -> bool)
    requires '$' !in schema && !ws('{') && !ws('}')
    requires !Contains(schema, SamplePlaceholder)
    ensures FillTemplate(Some(SchemaPlaceholder), schema, sample, ws) == schema
  {
    StripUnchanged(SchemaPlaceholder, ws);
    assert StartsAt(SchemaPlaceholder, SchemaPlaceholder, 0);
    ReplaceFirstSpec(SchemaPlaceholder, SchemaPlaceholder, schema);
    assert SchemaPlaceholder[..0] == "" && SchemaPlaceholder[|SchemaPlaceholder|..] == "";
    assert ReplaceFirst(Strip(SchemaPlaceholder, ws), SchemaPlaceholder, schema) == schema;
    assert IndexOf(schema, SamplePlaceholder).None?;
    assert ReplaceFirst(schema, SamplePlaceholder, sample) == schema;
  }

  /** The schema goes in first, so a sample placeholder it brings in is the
      one the sample replaces. */
  lemma SchemaBeforeSample(sample: string, ws: char -> bool)
    requires '$' !in sample && !ws('{') && !ws('}')
    ensures FillTemplate(Some(SchemaPlaceholder), SamplePlaceholder, sample, ws) == sample
  {
    StripUnchanged(SchemaPlaceholder, ws);
    ReplaceWholeText(SchemaPlaceholder, SamplePlaceholder);
    ReplaceWholeText(SamplePlaceholder, sample);
  }

  /** A pattern that is the whole text is replaced by the replacement. */
  lemma ReplaceWholeText(p: string, r: string)
    requires |p| > 0 && '$' !in r
    ensures ReplaceFirst(p, p, r) == r
  {
    assert StartsAt(p, p, 0);
    ReplaceFirstSpec(p, p, r);
    assert p[..0] == "" && p[|p|..] == "";
  }

  /** Absent keys count as empty: the prompt is then just the separator. */
  lemma PromptDefaults(schema: string, sample: string, ws: char -> bool)
    ensures BuildPrompt(None, None, schema, sample, ws) == PromptSeparator
  {
    assert Strip("", ws) == "";
    assert IndexOf("", SchemaPlaceholder).None? by { assert !StartsAt("", SchemaPlaceholder, 0); }
    assert IndexOf("", SamplePlaceholder).None? by { assert !StartsAt("", SamplePlaceholder, 0); }
  }
}

=== FILE: pyrepr.dfy ===
/** Python's `repr` of a string and of a list of strings, as an f-string
    prints a list of column names. */
module PyRepr {
  import opened Wrappers
  import opened Strings

  /** `str.isprintable` on one non-ASCII character: the Unicode database's
      verdict, which `repr` consults for every character above U+007F. */
  type Printable = char -> bool

  /** The quote `repr` chooses: double when the text has a single quote and
      no double quote, single otherwise. */
  function QuoteFor(s: string): (q: char)
    ensures q == '\'' || q == '"'
  {
    if '\'' in s && '"' !in s then '"' else '\''
  }

  /** One lower-case hexadecimal digit. */
  function HexDigit(d: nat): (c: char)
    requires d < 16
    ensures ('0' <= c <= '9') || ('a' <= c <= 'f')
  {
    if d < 10 then ('0' as int + d) as char else ('a' as int + d - 10) as char
  }

  /** `n` written with exactly `w` hexadecimal digits, most significant
      first (higher digits are dropped when `n` needs more). */
  function Hex(n: nat, w: nat): (h: string)
    ensures |h| == w
    decreases w
  {
    if w == 0 then "" else Hex(n / 16, w - 1) + [HexDigit(n % 16)]
  }

  function Pow16(w: nat): (p: nat)
    ensures p >= 1
  {
    if w == 0 then 1 else 16 * Pow16(w - 1)
  }

  /** The escape `repr` writes for one character inside the chosen quotes:
      a backslash before a backslash or the quote; `\t`, `\n`, `\r`; `\xNN`
      for the other ASCII control characters and DEL; a printable character
      as itself; any other non-ASCII character as `\xNN`, `\uNNNN` or
      `\UNNNNNNNN`, the shortest that holds its code point. */
  function EscapeChar(c: char, q: char, printable: Printable): string {
    if c == '\\' || c == q then ['\\', c]
    else if c == '\t' then "\\t"
    else if c == '\n' then "\\n"
    else if c == '\r' then "\\r"
    else if c < ' ' || c as int == 0x7f then "\\x" + Hex(c as int, 2)
    else if c as int < 0x7f || printable(c) then [c]
    else if c as int <= 0xff then "\\x" + Hex(c as int, 2)
    else if c as int <= 0xffff then "\\u" + Hex(c as int, 4)
    else "\\U" + Hex(c as int, 8)
  }

  function Escape(s: string, q: char, printable: Printable): string
    decreases |s|
  {
    if |s| == 0 then "" else EscapeChar(s[0], q, printable) + Escape(s[1..], q, printable)
  }

  /** `repr(s)` for a str. */
  function StrRepr(s: string, printable: Printable): (r: string)
    ensures |r| >= 2 && r[0] == QuoteFor(s) && r[|r| - 1] == QuoteFor(s)
  {
    [QuoteFor(s)] + Escape(s, QuoteFor(s), printable) + [QuoteFor(s)]
  }

  // ---------------------------------------------------------------------
  // reading a literal back

  /** The value of a hexadecimal digit of either case. */
  function HexValue(c: char): Option<nat> {
    if '0' <= c <= '9' then Some(c as int - '0' as int)
    else if 'a' <= c <= 'f' then Some(c as int - 'a' as int + 10)
    else if 'A' <= c <= 'F' then Some(c as int - 'A' as int + 10)
    else None
  }

  /** The number a string of hexadecimal digits denotes. */
  function HexNumber(h: string): Option<nat>
    decreases |h|
  {
    if |h| == 0 then Some(0)
    else
      match (HexNumber(h[..|h| - 1]), HexValue(h[|h| - 1]))
      case (Some(a), Some(d)) => Some(16 * a + d)
      case _ => None
  }

  /** A Unicode scalar value: a code point that is not a surrogate. */
  predicate IsScalar(n: int) {
    (0 <= n < 0xD800) || (0xE000 <= n < 0x11_0000)
  }

  /** The number of digits after `\x`, `\u` and `\U`. */
  function HexWidth(x: char): nat {
    if x == 'x' then 2 else if x == 'u' then 4 else 8
  }

  function Cons(c: char, rest: Option<string>): Option<string> {
    match rest
    case Some(t) => Some([c] + t)
    case None => None
  }

  /** Reads an escaped body back, decoding the escapes `repr` writes; a
      truncated or unknown escape, or a code point that is no character,
      is `None`. */
  function Unescape(e: string): Option<string>
    decreases |e|
  {
    if |e| == 0 then Some("")
    else if e[0] != '\\' then Cons(e[0], Unescape(e[1..]))
    else if |e| < 2 then None
    else if e[1] == '\\' || e[1] == '\'' || e[1] == '"' then Cons(e[1], Unescape(e[2..]))
    else if e[1] == 't' then Cons('\t', Unescape(e[2..]))
    else if e[1] == 'n' then Cons('\n', Unescape(e[2..]))
    else if e[1] == 'r' then Cons('\r', Unescape(e[2..]))
    else if e[1] == 'x' || e[1] == 'u' || e[1] == 'U' then
      var w := HexWidth(e[1]);
      if |e| < 2 + w then None
      else
        match HexNumber(e[2..2 + w])
        case Some(n) => if IsScalar(n) then Cons(n as char, Unescape(e[2 + w..])) else None
        case None => None
    else None
  }

  /** Reads a quoted literal back: the text between matching quotes. */
  function ParseRepr(r: string): Option<string> {
    if |r| >= 2 && (r[0] == '\'' || r[0] == '"') && r[|r| - 1] == r[0] then Unescape(r[1..|r| - 1])
    else None
  }

  /** `w` hexadecimal digits read back as the number they were written
      from, when it fits. */
  lemma {:induction false} HexReadsBack(n: nat, w: nat)
    requires n < Pow16(w)
    ensures HexNumber(Hex(n, w)) == Some(n)
    decreases w
  {
    if w > 0 {
      var h := Hex(n, w);
      assert h[..|h| - 1] == Hex(n / 16, w - 1);
      assert h[|h| - 1] == HexDigit(n % 16);
      HexReadsBack(n / 16, w - 1);
    }
  }

  /** The escape of a character that needs hexadecimal digits reads back as
      that character. */
  lemma HexEscapeReadsBack(c: char, x: char, rest: string)
    requires x == 'x' || x == 'u' || x == 'U'
    requires c as int < Pow16(HexWidth(x))
    ensures Unescape(['\\', x] + Hex(c as int, HexWidth(x)) + rest) == Cons(c, Unescape(rest))
  {
    var w := HexWidth(x);
    var e := ['\\', x] + Hex(c as int, w) + rest;
    assert e[0] == '\\' && e[1] == x && |e| >= 2 + w;
    assert e[2..2 + w] == Hex(c as int, w);
    assert e[2 + w..] == rest;
    HexReadsBack(c as int, w);
    assert IsScalar(c as int) && (c as int) as char == c;
  }

  lemma UnescapeChar(c: char, q: char, printable: Printable, rest: string)
    requires q == '\'' || q == '"'
    ensures Unescape(EscapeChar(c, q, printable) + rest) == Cons(c, Unescape(rest))
  {
    var x := EscapeChar(c, q, printable);
    if |x| == 1 {
      assert (x + rest)[1..] == rest;
    } else if |x| == 2 {
      assert (x + rest)[2..] == rest;
    } else {
      assert Pow16(2) == 0x100 && Pow16(4) == 0x1_0000 && Pow16(8) == 0x1_0000_0000;
      if c < ' ' || c as int == 0x7f || c as int <= 0xff {
        assert x == ['\\', 'x'] + Hex(c as int, 2);
        HexEscapeReadsBack(c, 'x', rest);
      } else if c as int <= 0xffff {
        assert x == ['\\', 'u'] + Hex(c as int, 4);
        HexEscapeReadsBack(c, 'u', rest);
      } else {
        assert x == ['\\', 'U'] + Hex(c as int, 8);
        HexEscapeReadsBack(c, 'U', rest);
      }
    }
  }

  lemma {:induction false} UnescapeEscape(s: string, q: char, printable: Printable)
    requires q == '\'' || q == '"'
    ensures Unescape(Escape(s, q, printable)) == Some(s)
    decreases |s|
  {
    if |s| > 0 {
      UnescapeChar(s[0], q, printable, Escape(s[1..], q, printable));
      UnescapeEscape(s[1..], q, printable);
      assert s == [s[0]] + s[1..];
    }
  }

  /** `repr` loses nothing: the literal reads back as the original text,
      whatever characters it holds. */
  lemma ReprRoundTrip(s: string, printable: Printable)
    ensures ParseRepr(StrRepr(s, printable)) == Some(s)
  {
    var r := StrRepr(s, printable);
    assert r[1..|r| - 1] == Escape(s, QuoteFor(s), printable);
    UnescapeEscape(s, QuoteFor(s), printable);
  }

  /** A character `repr` lets through as itself: printable ASCII, or a
      non-ASCII character the Unicode database calls printable. */
  predicate Shown(c: char, printable: Printable) {
    (' ' <= c && c as int < 0x7f) || (c as int > 0x7f && printable(c))
  }

  lemma EscapeCharShown(c: char, q: char, printable: Printable)
    requires q == '\'' || q == '"'
    ensures forall k :: 0 <= k < |EscapeChar(c, q, printable)| ==> Shown(EscapeChar(c, q, printable)[k], printable)
  {
    var x := EscapeChar(c, q, printable);
    if |x| > 2 {
      var h := x[2..];
      assert forall k :: 0 <= k < |h| ==> x[k + 2] == h[k];
      HexShown(c as int, |h|);
    }
  }

  lemma {:induction false} HexShown(n: nat, w: nat)
    ensures forall k :: 0 <= k < w ==> ' ' <= Hex(n, w)[k] && Hex(n, w)[k] as int < 0x7f
    decreases w
  {
    if w > 0 {
      HexShown(n / 16, w - 1);
      assert forall k :: 0 <= k < w - 1 ==> Hex(n, w)[k] == Hex(n / 16, w - 1)[k];
    }
  }

  /** Between its quotes a repr holds no control character, no DEL and no
      character the Unicode database calls unprintable: those are all
      written as escapes. */
  lemma {:induction false} ReprShowsOnlyPrintable(s: string, printable: Printable)
    ensures var r := StrRepr(s, printable);
            forall k :: 0 < k < |r| - 1 ==> Shown(r[k], printable)
  {
    var q := QuoteFor(s);
    EscapeShown(s, q, printable);
    var r := StrRepr(s, printable);
    assert forall k :: 0 < k < |r| - 1 ==> r[k] == Escape(s, q, printable)[k - 1];
  }

  lemma {:induction false} EscapeShown(s: string, q: char, printable: Printable)
    requires q == '\'' || q == '"'
    ensures forall k :: 0 <= k < |Escape(s, q, printable)| ==> Shown(Escape(s, q, printable)[k], printable)
    decreases |s|
  {
    if |s| > 0 {
      var x, e := EscapeChar(s[0], q, printable), Escape(s[1..], q, printable);
      EscapeCharShown(s[0], q, printable);
      EscapeShown(s[1..], q, printable);
      assert Escape(s, q, printable) == x + e;
      ShownConcat(x, e, printable);
    }
  }

  lemma ShownConcat(x: string, e: string, printable: Printable)
    requires forall k :: 0 <= k < |x| ==> Shown(x[k], printable)
    requires forall k :: 0 <= k < |e| ==> Shown(e[k], printable)
    ensures forall k :: 0 <= k < |x + e| ==> Shown((x + e)[k], printable)
  {
    assert forall k :: |x| <= k < |x| + |e| ==> (x + e)[k] == e[k - |x|];
  }

  /** The repr of each name, in order. */
  function Reprs(names: seq<string>, printable: Printable): (rs: seq<string>)
    ensures |rs| == |names|
    ensures forall i :: 0 <= i < |names| ==> rs[i] == StrRepr(names[i], printable)
  {
    seq(|names|, i requires 0 <= i < |names| => StrRepr(names[i], printable))
  }

  /** `repr(names)` for a list of str: `['a', 'b']`. */
  function ListRepr(names: seq<string>, printable: Printable): (r: string)
    ensures |r| >= 2 && r[0] == '[' && r[|r| - 1] == ']'
  {
    "[" + Join(Reprs(names, printable), ", ") + "]"
  }

  /** `f"{names or 'none'}"`: an empty list prints as `none`. */
  function OrNone(names: seq<string>, printable: Printable): (r: string)
    ensures r == "none" <==> names == []
  {
    if names == [] then "none" else ListRepr(names, printable)
  }

  // ---------------------------------------------------------------------
  // reading literals and lists back out of surrounding text

  function Prepend(x: string, o: Option<(string, string)>): Option<(string, string)> {
    match o
    case Some((b, r)) => Some((x + b, r))
    case None => None
  }

  /** Scans an escaped body up to the first quote `q` that no backslash
      escapes, returning the body and the text after that quote. */
  function Scan(e: string, q: char): (r: Option<(string, string)>)
    ensures r.Some? ==> |r.value.1| < |e|
    decreases |e|
  {
    if |e| == 0 then None
    else if e[0] == q then Some(("", e[1..]))
    else if e[0] == '\\' then
      if |e| < 2 then None else Prepend(e[..2], Scan(e[2..], q))
    else Prepend([e[0]], Scan(e[1..], q))
  }

  /** Reads a str literal at the start of the text: its value and the text
      after its closing quote. */
  function ParseStrLiteral(s: string): (r: Option<(string, string)>)
    ensures r.Some? ==> |r.value.1| < |s|
  {
    if |s| >= 1 && (s[0] == '\'' || s[0] == '"') then
      match Scan(s[1..], s[0])
      case Some((b, rest)) =>
        (match Unescape(b)
         case Some(v) => Some((v, rest))
         case None => None)
      case None => None
    else None
  }

  /** Reads the items of a list repr after its `[`: literals separated by
      ", " up to the closing `]`. */
  function ParseItems(s: string): Option<(seq<string>, string)>
    decreases |s|
  {
    match ParseStrLiteral(s)
    case None => None
    case Some((v, r)) =>
      if |r| >= 1 && r[0] == ']' then Some(([v], r[1..]))
      else if |r| >= 2 && r[..2] == ", " then
        match ParseItems(r[2..])
        case Some((vs, after)) => Some(([v] + vs, after))
        case None => None
      else None
  }

  /** Reads a list repr at the start of the text. */
  function ParseListRepr(s: string): Option<(seq<string>, string)> {
    if |s| >= 2 && s[..2] == "[]" then Some(([], s[2..]))
    else if |s| >= 1 && s[0] == '[' then ParseItems(s[1..])
    else None
  }

  /** Reads what `f"{names or 'none'}"` printed at the start of the text. */
  function ParseOrNone(s: string): Option<(seq<string>, string)> {
    match Expect("none", s)
    case Some(rest) => Some(([], rest))
    case None => ParseListRepr(s)
  }

  /** Characters the scan passes over one at a time. */
  lemma {:induction false} ScanPlain(h: string, q: char, t: string)
    requires q == '\'' || q == '"'
    requires forall k :: 0 <= k < |h| ==> h[k] != q && h[k] != '\\'
    ensures Scan(h + t, q) == Prepend(h, Scan(t, q))
    decreases |h|
  {
    if |h| == 0 {
      assert h + t == t;
      match Scan(t, q)
      case Some((b, r)) => assert h + b == b;
      case None =>
    } else {
      assert (h + t)[1..] == h[1..] + t;
      ScanPlain(h[1..], q, t);
      match Scan(t, q)
      case Some((b, r)) => assert [h[0]] + (h[1..] + b) == h + b;
      case None =>
    }
  }

  /** Hexadecimal digits are neither a quote nor a backslash. */
  lemma {:induction false} HexDigits(n: nat, w: nat)
    ensures forall k :: 0 <= k < w ==> ('0' <= Hex(n, w)[k] <= '9') || ('a' <= Hex(n, w)[k] <= 'f')
    decreases w
  {
    if w > 0 {
      HexDigits(n / 16, w - 1);
      assert forall k :: 0 <= k < w - 1 ==> Hex(n, w)[k] == Hex(n / 16, w - 1)[k];
    }
  }

  /** An escape is one character that is neither the quote nor a
      backslash, or a backslash, one character, and hexadecimal digits. */
  lemma EscapeCharShape(c: char, q: char, printable: Printable)
    requires q == '\'' || q == '"'
    ensures var x := EscapeChar(c, q, printable);
            && |x| >= 1
            && (|x| == 1 ==> x[0] != q && x[0] != '\\')
            && (|x| >= 2 ==> x[0] == '\\' && forall k :: 2 <= k < |x| ==> x[k] != q && x[k] != '\\')
  {
    var x := EscapeChar(c, q, printable);
    if |x| > 2 {
      var h := x[2..];
      HexDigits(c as int, |h|);
      assert h == Hex(c as int, |h|);
      assert forall k :: 2 <= k < |x| ==> x[k] == h[k - 2];
    }
  }

  /** The scan passes over a piece shaped like an escape as a whole. */
  lemma ScanPiece(x: string, q: char, t: string)
    requires q == '\'' || q == '"'
    requires |x| >= 1
    requires |x| == 1 ==> x[0] != q && x[0] != '\\'
    requires |x| >= 2 ==> x[0] == '\\' && forall k :: 2 <= k < |x| ==> x[k] != q && x[k] != '\\'
    ensures Scan(x + t, q) == Prepend(x, Scan(t, q))
  {
    if |x| == 1 {
      assert (x + t)[0] == x[0] && (x + t)[1..] == t && [x[0]] == x;
    } else {
      var h := x[2..];
      assert (x + t)[0] == '\\' && (x + t)[..2] == x[..2];
      assert (x + t)[2..] == h + t;
      ScanPlain(h, q, t);
      match Scan(t, q)
      case Some((b, r)) => assert x[..2] + (h + b) == x + b;
      case None =>
    }
  }

  /** The scan passes over one escaped character as a whole. */
  lemma ScanEscapeChar(c: char, q: char, printable: Printable, t: string)
    requires q == '\'' || q == '"'
    ensures Scan(EscapeChar(c, q, printable) + t, q) == Prepend(EscapeChar(c, q, printable), Scan(t, q))
  {
    EscapeCharShape(c, q, printable);
    ScanPiece(EscapeChar(c, q, printable), q, t);
  }

  lemma {:induction false} ScanEscape(s: string, q: char, printable: Printable, rest: string)
    requires q == '\'' || q == '"'
    ensures Scan(Escape(s, q, printable) + [q] + rest, q) == Some((Escape(s, q, printable), rest))
    decreases |s|
  {
    if |s| == 0 {
      assert Escape(s, q, printable) + [q] + rest == [q] + rest;
    } else {
      var x, e := EscapeChar(s[0], q, printable), Escape(s[1..], q, printable);
      assert Escape(s, q, printable) + [q] + rest == x + (e + [q] + rest);
      ScanEscapeChar(s[0], q, printable, e + [q] + rest);
      ScanEscape(s[1..], q, printable, rest);
    }
  }

  /** A quoted body that scans to its closing quote and unescapes to `v`
      reads back as `v`. */
  lemma LiteralFrom(q: char, e: string, v: string, rest: string)
    requires q == '\'' || q == '"'
    requires Scan(e + [q] + rest, q) == Some((e, rest))
    requires Unescape(e) == Some(v)
    ensures ParseStrLiteral([q] + (e + [q] + rest)) == Some((v, rest))
  {
    var s := [q] + (e + [q] + rest);
    assert s[0] == q && s[1..] == e + [q] + rest;
  }

  lemma ReprParts(s: string, printable: Printable, rest: string)
    ensures var q := QuoteFor(s);
            StrRepr(s, printable) + rest == [q] + (Escape(s, q, printable) + [q] + rest)
  {
  }

  /** A repr followed by any text reads back as the string, and the text
      after it is left over. */
  lemma LiteralRoundTrip(s: string, printable: Printable, rest: string)
    ensures ParseStrLiteral(StrRepr(s, printable) + rest) == Some((s, rest))
  {
    var q := QuoteFor(s);
    var e := Escape(s, q, printable);
    ReprParts(s, printable, rest);
    ScanEscape(s, q, printable, rest);
    UnescapeEscape(s, q, printable);
    LiteralFrom(q, e, s, rest);
  }

  /** The last item of a list repr. */
  lemma ItemLast(v: string, printable: Printable, rest: string)
    ensures ParseItems(StrRepr(v, printable) + ("]" + rest)) == Some(([v], rest))
  {
    LiteralRoundTrip(v, printable, "]" + rest);
    assert ("]" + rest)[1..] == rest;
  }

  /** An item followed by ", " and more items. */
  lemma ItemNext(v: string, printable: Printable, tail: string, vs: seq<string>, rest: string)
    requires ParseItems(tail) == Some((vs, rest))
    ensures ParseItems(StrRepr(v, printable) + (", " + tail)) == Some(([v] + vs, rest))
  {
    LiteralRoundTrip(v, printable, ", " + tail);
    assert (", " + tail)[..2] == ", " && (", " + tail)[2..] == tail;
  }

  lemma ItemsSingle(names: seq<string>, printable: Printable, rest: string)
    requires |names| == 1
    ensures ParseItems(Join(Reprs(names, printable), ", ") + "]" + rest) == Some((names, rest))
  {
    var rs := Reprs(names, printable);
    assert Join(rs, ", ") + "]" + rest == rs[0] + ("]" + rest);
    ItemLast(names[0], printable, rest);
    assert [names[0]] == names;
  }

  lemma ItemsCons(names: seq<string>, printable: Printable, rest: string)
    requires |names| >= 2
    requires ParseItems(Join(Reprs(names[1..], printable), ", ") + "]" + rest) == Some((names[1..], rest))
    ensures ParseItems(Join(Reprs(names, printable), ", ") + "]" + rest) == Some((names, rest))
  {
    var rs := Reprs(names, printable);
    ReprsTail(names, printable);
    var j := Join(rs[1..], ", ");
    JoinCons(rs, ", ");
    ItemsAfter(rs[0], j, rest);
    ItemNext(names[0], printable, j + "]" + rest, names[1..], rest);
    assert [names[0]] + names[1..] == names;
  }

  lemma ReprsTail(names: seq<string>, printable: Printable)
    requires |names| >= 1
    ensures Reprs(names, printable)[1..] == Reprs(names[1..], printable)
  {
  }

  lemma JoinCons(rs: seq<string>, sep: string)
    requires |rs| >= 2
    ensures Join(rs, sep) == rs[0] + sep + Join(rs[1..], sep)
  {
  }

  lemma ItemsAfter(x: string, j: string, rest: string)
    ensures x + ", " + j + "]" + rest == x + (", " + (j + "]" + rest))
  {
  }

  lemma {:induction false} ItemsRoundTrip(names: seq<string>, printable: Printable, rest: string)
    requires |names| >= 1
    ensures ParseItems(Join(Reprs(names, printable), ", ") + "]" + rest) == Some((names, rest))
    decreases |names|
  {
    if |names| == 1 {
      ItemsSingle(names, printable, rest);
    } else {
      ItemsRoundTrip(names[1..], printable, rest);
      ItemsCons(names, printable, rest);
    }
  }

  /** A list repr followed by any text reads back as the list. */
  lemma ListReprRoundTrip(names: seq<string>, printable: Printable, rest: string)
    ensures ParseListRepr(ListRepr(names, printable) + rest) == Some((names, rest))
  {
    if names == [] {
      EmptyListRoundTrip(printable, rest);
    } else {
      var rs := Reprs(names, printable);
      JoinHead(rs, ", ");
      ItemsRoundTrip(names, printable, rest);
      OpenList(Join(rs, ", "), rest, Some((names, rest)));
    }
  }

  lemma EmptyListRoundTrip(printable: Printable, rest: string)
    ensures ParseListRepr(ListRepr([], printable) + rest) == Some(([], rest))
  {
    var s := ListRepr([], printable) + rest;
    assert Reprs([], printable) == [];
    assert s == "[]" + rest;
    assert s[..2] == "[]" && s[2..] == rest;
  }

  /** A join starts with the first character of its first part. */
  lemma JoinHead(rs: seq<string>, sep: string)
    requires |rs| >= 1 && |rs[0]| >= 1
    ensures |Join(rs, sep)| >= 1 && Join(rs, sep)[0] == rs[0][0]
  {
    if |rs| > 1 {
      assert Join(rs, sep) == rs[0] + sep + Join(rs[1..], sep);
    }
  }

  /** A `[` that does not open `[]` is followed by the items. */
  lemma OpenList(j: string, rest: string, r: Option<(seq<string>, string)>)
    requires |j| >= 1 && j[0] != ']'
    requires ParseItems(j + "]" + rest) == r
    ensures ParseListRepr("[" + j + "]" + rest) == r
  {
    var s := "[" + j + "]" + rest;
    assert s[1] == j[0] && s[1..] == j + "]" + rest;
  }

  /** What `f"{names or 'none'}"` printed reads back as the list, whatever
      text follows it. */
  lemma OrNoneRoundTrip(names: seq<string>, printable: Printable, rest: string)
    ensures ParseOrNone(OrNone(names, printable) + rest) == Some((names, rest))
  {
    if names == [] {
      ExpectLit("none", rest);
    } else {
      var s := OrNone(names, printable) + rest;
      assert s[0] == '[';
      ListReprRoundTrip(names, printable, rest);
    }
  }
}

=== FILE: schema_utils.dfy ===
/** `infer_schema`: the text description of a table handed to the language
    model (one line per column: name, dtype, share of missing cells and up
    to three sample values) and the first ten rows as CSV. */
module SchemaUtils {
  import opened Wrappers
  import opened Strings
  import opened Table
  import opened Csv

  /** How a cell prints with `str`; how the CSV writer prints a present cell. */
  type Show = Value -> string

  // ---------------------------------------------------------------------
  // the missing-cell percentage

  /** `m` missing out of `n` as a percentage in tenths, rounded to nearest
      with halves up. */
  function MissingTenths(m: nat, n: nat): nat
    requires 0 < n && m <= n
  {
    (2000 * m + n) / (2 * n)
  }

  /** The rounding stays within a twentieth of a percent of the exact
      share, and within 0 to 100 percent. */
  lemma MissingTenthsClose(m: nat, n: nat)
    requires 0 < n && m <= n
    ensures MissingTenths(m, n) <= 1000
    ensures var d := MissingTenths(m, n) as real / 10.0 - 100.0 * m as real / n as real;
            -0.05 < d <= 0.05
  {
    var t := MissingTenths(m, n);
    var r := (2000 * m + n) % (2 * n);
    assert 2 * n * t + r == 2000 * m + n && 0 <= r < 2 * n;
    TenthsAtMostThousand(m, n, t);
    var N, T, M, R := n as real, t as real, m as real, r as real;
    assert 2.0 * N * T + R == 2000.0 * M + N;
    ErrorBound(N, T, M, R);
  }

  lemma TenthsAtMostThousand(m: nat, n: nat, t: nat)
    requires 0 < n && m <= n && 2 * n * t <= 2000 * m + n
    ensures t <= 1000
  {
    assert 2000 * m <= 2000 * n;
    assert (2 * n) * t < (2 * n) * 1001;
    LessCancel(2 * n, t, 1001);
  }

  lemma LessCancel(k: nat, a: nat, b: nat)
    requires 0 < k && k * a < k * b
    ensures a < b
  {
  }

  /** The real-number form of the rounding error: `2nt + r = 2000m + n` with
      `0 <= r < 2n` puts `t/10` within a twentieth of `100m/n`. */
  lemma ErrorBound(N: real, T: real, M: real, R: real)
    requires 0.0 < N && 0.0 <= R < 2.0 * N && 2.0 * N * T + R == 2000.0 * M + N
    ensures -0.05 < T / 10.0 - 100.0 * M / N <= 0.05
  {
    var e := (N - R) / (20.0 * N);
    assert 100.0 * M / N == T / 10.0 - e by {
      assert 100.0 * M == (2.0 * N * T + R - N) / 20.0;
      assert (2.0 * N * T + R - N) / 20.0 / N == T / 10.0 - e;
    }
    QuotientBound(N - R, N);
  }

  lemma QuotientBound(a: real, N: real)
    requires 0.0 < N && -N < a <= N
    ensures -0.05 < a / (20.0 * N) <= 0.05
  {
    var q := a / (20.0 * N);
    assert q * (20.0 * N) == a;
    assert q * (20.0 * N) <= 0.05 * (20.0 * N);
    assert -0.05 * (20.0 * N) < q * (20.0 * N);
    RealCancel(q, 0.05, 20.0 * N);
    RealCancelStrict(-0.05, q, 20.0 * N);
  }

  lemma RealCancel(a: real, b: real, k: real)
    requires 0.0 < k && a * k <= b * k
    ensures a <= b
  {
  }

  lemma RealCancelStrict(a: real, b: real, k: real)
    requires 0.0 < k && a * k < b * k
    ensures a < b
  {
  }

  /** The text `f"{pct:.1f}"` prints: `nan` for an empty column (the mean of
      nothing), otherwise whole percent, a point and one decimal. */
  function PercentText(m: nat, n: nat): string
    requires m <= n
  {
    if n == 0 then "nan"
    else
      var t := MissingTenths(m, n);
      NatToString(t / 10) + "." + [DigitChar(t % 10)]
  }

  /** Reads a one-decimal percentage back into tenths. */
  function ReadTenths(s: string): Option<nat> {
    if |s| >= 3 && s[|s| - 2] == '.' && AllDigits(s[..|s| - 2]) && '0' <= s[|s| - 1] <= '9'
    then Some(DigitsValue(s[..|s| - 2]) * 10 + (s[|s| - 1] as int - '0' as int))
    else None
  }

  /** The printed percentage is exactly the rounded tenths, so it reads back
      to them; an empty column prints something that is not a number. */
  lemma PercentTextReadsBack(m: nat, n: nat)
    requires m <= n
    ensures n > 0 ==> ReadTenths(PercentText(m, n)) == Some(MissingTenths(m, n))
    ensures n == 0 ==> ReadTenths(PercentText(m, n)) == None
  {
    if n > 0 {
      var t := MissingTenths(m, n);
      var head, c := NatToString(t / 10), DigitChar(t % 10);
      var s := head + "." + [c];
      assert s == PercentText(m, n);
      assert |s| == |head| + 2 && s[|s| - 2] == '.' && s[|s| - 1] == c;
      assert s[..|s| - 2] == head;
      assert t == t / 10 * 10 + t % 10;
    }
  }

  /** A column with nothing missing prints `0.0`. */
  lemma PercentNoneMissing(n: nat)
    requires n > 0
    ensures PercentText(0, n) == "0.0"
  {
    assert MissingTenths(0, n) == 0 by {
      DivUnique(n, 2 * n, 0);
    }
  }

  /** An all-missing column prints `100.0`. */
  lemma PercentAllMissing(n: nat)
    requires n > 0
    ensures PercentText(n, n) == "100.0"
  {
    assert MissingTenths(n, n) == 1000 by {
      assert 1000 * (2 * n) == 2000 * n;
      DivUnique(2000 * n + n, 2 * n, 1000);
    }
    assert NatToString(100) == "100" by {
      assert NatToString(1) == "1";
      assert NatToString(10) == "10";
    }
  }

  lemma DivUnique(a: nat, k: nat, q: nat)
    requires 0 < k && q * k <= a < q * k + k
    ensures a / k == q
  {
    var d := a / k;
    DivBounds(a, k);
    MulNext(k, q);
    MulNext(k, d);
    LessCancel(k, d, q + 1);
    LessCancel(k, q, d + 1);
  }

  lemma DivBounds(a: nat, k: nat)
    requires 0 < k
    ensures k * (a / k) <= a < k * (a / k) + k
  {
    assert a == k * (a / k) + a % k;
  }

  lemma MulNext(k: nat, x: nat)
    ensures k * (x + 1) == k * x + k && x * k == k * x
  {
  }

  // ---------------------------------------------------------------------
  // samples and the schema line

  /** `col.dropna().unique()[:3]`. */
  function SampleValues(vals: seq<Value>): (r: seq<Value>)
    ensures |r| <= 3
  {
    var d := DistinctPresent(vals);
    d[..if |d| < 3 then |d| else 3]
  }

  /** The samples are the first three distinct present values, in the order
      they first appear: a present value left out comes after all three. */
  lemma SampleValuesSpec(vals: seq<Value>)
    ensures var r := SampleValues(vals);
            && (forall k :: 0 <= k < |r| ==> r[k] in vals && !r[k].Missing?)
            && (forall a, b :: 0 <= a < b < |r| ==> FirstPos(vals, r[a]) < FirstPos(vals, r[b]))
            && (forall v :: v in vals && !v.Missing? && v !in r ==>
                  |r| == 3 && FirstPos(vals, r[2]) < FirstPos(vals, v))
  {
    var d := DistinctPresent(vals);
    var r := SampleValues(vals);
    forall k | 0 <= k < |r| ensures r[k] in vals && !r[k].Missing? {
      assert r[k] == d[k] && d[k] in d;
    }
    forall a, b | 0 <= a < b < |r| ensures FirstPos(vals, r[a]) < FirstPos(vals, r[b]) {
      assert r[a] == d[a] && r[b] == d[b];
    }
    forall v | v in vals && !v.Missing? && v !in r
      ensures |r| == 3 && FirstPos(vals, r[2]) < FirstPos(vals, v)
    {
      assert v in d;
      var q :| 0 <= q < |d| && d[q] == v;
      if |d| >= 3 {
        assert r == d[..3];
        assert forall i :: 0 <= i < 3 ==> r[i] == d[i] && r[i] in r;
        assert r[2] == d[2];
      }
    }
  }

  /** `", ".join(map(str, samples))`. */
  function SampleText(vals: seq<Value>, show: Show): string {
    var s := SampleValues(vals);
    Join(seq(|s|, k requires 0 <= k < |s| => show(s[k])), ", ")
  }

  /** One line of the schema. */
  function SchemaLine(c: Column, show: Show): string {
    c.name + " (" + DtypeName(c.dtype) + ") - Missing: "
    + PercentText(CountMissing(c.values), |c.values|) + "% - Samples: "
    + SampleText(c.values, show)
  }

  /** The schema: the lines joined with "\n". It is empty exactly when
      there are no columns, since every line holds at least its column's
      name and " (". */
  function SchemaText(cols: seq<Column>, show: Show): (r: string)
    ensures r == "" <==> cols == []
  {
    var lines := seq(|cols|, i requires 0 <= i < |cols| => SchemaLine(cols[i], show));
    assert |cols| > 0 ==> |lines[0]| > 0;
    Join(lines, "\n")
  }

  /** No printed sample of a column holds a line break. */
  predicate SamplesSingle(vals: seq<Value>, show: Show) {
    var s := SampleValues(vals);
    forall k :: 0 <= k < |s| ==> '\n' !in show(s[k])
  }

  /** No line break inside a printed part of any line: the name, the dtype
      and the printed samples of every column. */
  predicate SingleLineParts(cols: seq<Column>, show: Show) {
    forall i :: 0 <= i < |cols| ==>
      && '\n' !in cols[i].name
      && '\n' !in DtypeName(cols[i].dtype)
      && SamplesSingle(cols[i].values, show)
  }

  /** A schema line holds a line break exactly when the column's name, its
      dtype or one of its printed samples does; the percentage never does. */
  lemma LineIsSingle(c: Column, show: Show)
    ensures '\n' !in SchemaLine(c, show)
            <==> '\n' !in c.name && '\n' !in DtypeName(c.dtype) && SamplesSingle(c.values, show)
  {
    var pct := PercentText(CountMissing(c.values), |c.values|);
    var samples := SampleText(c.values, show);
    PercentTextSingle(CountMissing(c.values), |c.values|);
    SampleTextSingle(c.values, show);
    assert '\n' !in " (" && '\n' !in ") - Missing: " && '\n' !in "% - Samples: ";
    var a := c.name + " (" + DtypeName(c.dtype);
    assert '\n' !in a <==> '\n' !in c.name && '\n' !in DtypeName(c.dtype);
    var b := a + ") - Missing: " + pct;
    assert '\n' !in b <==> '\n' !in a;
    assert SchemaLine(c, show) == b + "% - Samples: " + samples;
  }

  lemma PercentTextSingle(m: nat, n: nat)
    requires m <= n
    ensures '\n' !in PercentText(m, n)
  {
    if n > 0 {
      var d := NatToString(MissingTenths(m, n) / 10);
      assert forall k :: 0 <= k < |d| ==> d[k] != '\n';
    }
  }

  /** The joined samples hold a line break exactly when one printed sample
      does. */
  lemma SampleTextSingle(vals: seq<Value>, show: Show)
    ensures '\n' !in SampleText(vals, show) <==> SamplesSingle(vals, show)
  {
    var s := SampleValues(vals);
    var shown := seq(|s|, k requires 0 <= k < |s| => show(s[k]));
    JoinFree(shown, ", ", '\n');
    assert forall k :: 0 <= k < |s| ==> shown[k] == show(s[k]);
  }

  /** Splitting the schema at line breaks gives one line per column, in
      column order, exactly when no printed part of a line holds a line
      break. */
  lemma SchemaSplitsIntoLines(cols: seq<Column>, show: Show)
    requires |cols| >= 1
    ensures var lines := Split(SchemaText(cols, show), "\n");
            (&& |lines| == |cols|
             && forall i :: 0 <= i < |cols| ==> lines[i] == SchemaLine(cols[i], show))
            <==> SingleLineParts(cols, show)
  {
    var lines := Split(SchemaText(cols, show), "\n");
    if SingleLineParts(cols, show) {
      SplitsWhenSingle(cols, show);
    }
    if |lines| == |cols| && forall i :: 0 <= i < |cols| ==> lines[i] == SchemaLine(cols[i], show) {
      SingleWhenSplits(cols, show);
    }
  }

  /** Every line is free of line breaks exactly when every column's parts are. */
  lemma LinesSingle(cols: seq<Column>, show: Show)
    ensures (forall i :: 0 <= i < |cols| ==> '\n' !in SchemaLine(cols[i], show))
            <==> SingleLineParts(cols, show)
  {
    forall i | 0 <= i < |cols|
      ensures '\n' !in SchemaLine(cols[i], show)
              <==> '\n' !in cols[i].name && '\n' !in DtypeName(cols[i].dtype)
                   && SamplesSingle(cols[i].values, show)
    {
      LineIsSingle(cols[i], show);
    }
  }

  lemma SplitsWhenSingle(cols: seq<Column>, show: Show)
    requires |cols| >= 1 && SingleLineParts(cols, show)
    ensures Split(SchemaText(cols, show), "\n")
            == seq(|cols|, i requires 0 <= i < |cols| => SchemaLine(cols[i], show))
  {
    var lines := seq(|cols|, i requires 0 <= i < |cols| => SchemaLine(cols[i], show));
    LinesSingle(cols, show);
    JoinSplitSingle(lines, '\n');
  }

  lemma SingleWhenSplits(cols: seq<Column>, show: Show)
    requires var pieces := Split(SchemaText(cols, show), "\n");
             && |pieces| == |cols|
             && forall i :: 0 <= i < |cols| ==> pieces[i] == SchemaLine(cols[i], show)
    ensures SingleLineParts(cols, show)
  {
    var pieces := Split(SchemaText(cols, show), "\n");
    SplitPiecesFree(SchemaText(cols, show), "\n");
    forall i | 0 <= i < |cols| ensures '\n' !in SchemaLine(cols[i], show) {
      CharContained(pieces[i], '\n');
    }
    LinesSingle(cols, show);
  }

  /** Each line starts with its column's name and the opening of the dtype. */
  lemma LineStartsWithName(c: Column, show: Show)
    ensures SchemaLine(c, show)[..|c.name| + 2] == c.name + " ("
  {
  }

  // ---------------------------------------------------------------------
  // the sample rows

  /** How `to_csv` prints a cell: missing cells are empty. */
  function CellText(v: Value, showCell: Show): string {
    if v.Missing? then "" else showCell(v)
  }

  /** `len(df.head(10))`. */
  function SampleRowCount(t: Table): (k: nat)
    ensures k <= 10 && k <= t.rows
    ensures k == 10 || k == t.rows
  {
    if t.rows < 10 then t.rows else 10
  }

  /** Row `k` as the CSV writer prints its fields. */
  function RowFields(t: Table, k: nat, showCell: Show): (r: seq<string>)
    requires Rectangular(t) && k < t.rows
    ensures |r| == |t.columns|
  {
    seq(|t.columns|, i requires 0 <= i < |t.columns| => CellText(t.columns[i].values[k], showCell))
  }

  /** The header and the first rows, field by field: the column names, then
      for each of the first `min(10, rows)` rows every column's cell as
      printed, missing cells empty. */
  function SampleGrid(t: Table, showCell: Show): (g: seq<seq<string>>)
    requires Rectangular(t)
    ensures |g| == SampleRowCount(t) + 1 && g[0] == Names(t.columns)
    ensures forall k :: 1 <= k < |g| ==> |g[k]| == |t.columns|
    ensures forall k, i :: 1 <= k < |g| && 0 <= i < |t.columns| ==>
              g[k][i] == CellText(t.columns[i].values[k - 1], showCell)
  {
    var body := seq(SampleRowCount(t), k requires 0 <= k < SampleRowCount(t) => RowFields(t, k, showCell));
    var g := [Names(t.columns)] + body;
    assert forall k :: 1 <= k < |g| ==> g[k] == body[k - 1];
    g
  }

  /** `df.head(10).to_csv(index=False)`. Reading the text back gives exactly
      the grid of header and rows. */
  function SampleCsv(t: Table, showCell: Show): (r: string)
    requires Rectangular(t)
    ensures |t.columns| >= 1 ==> ParseRows(r) == Some(SampleGrid(t, showCell))
  {
    var g := SampleGrid(t, showCell);
    if |t.columns| >= 1 then
      assert forall j :: 0 <= j < |g| ==> |g[j]| >= 1;
      RowsRoundTrip(g);
      EncodeRows(g)
    else EncodeRows(g)
  }

  /** `infer_schema(df)`: the schema text, empty exactly when there are no
      columns, and the sample rows, which read back as the header and the
      first rows. */
  function InferSchema(t: Table, show: Show, showCell: Show): (r: (string, string))
    requires Rectangular(t)
    ensures r.0 == "" <==> t.columns == []
    ensures |t.columns| >= 1 ==> ParseRows(r.1) == Some(SampleGrid(t, showCell))
  {
    (SchemaText(t.columns, show), SampleCsv(t, showCell))
  }
}

=== FILE: strings.dfy ===
/** String operations the Python and TypeScript code relies on: substring
    search, `str.replace`, `str.split`, `str.join`, stripping, ASCII case
    mapping and decimal rendering of natural numbers. */
module Strings {
  import opened Wrappers

  /** `p` occurs in `s` starting at index `k`. */
  predicate StartsAt(s: string, p: string, k: int) {
    0 <= k && k + |p| <= |s| && s[k..k + |p|] == p
  }

  /** Python's `p in s` on strings. */
  predicate Contains(s: string, p: string) {
    exists k :: 0 <= k <= |s| && StartsAt(s, p, k)
  }

  /** First occurrence of `p` in `s` at or after index `i`. */
  function IndexFrom(s: string, p: string, i: nat): (r: Option<nat>)
    requires i <= |s|
    ensures r.Some? ==> i <= r.value && StartsAt(s, p, r.value)
    ensures r.Some? ==> forall k :: i <= k < r.value ==> !StartsAt(s, p, k)
    ensures r.None? ==> forall k :: i <= k <= |s| ==> !StartsAt(s, p, k)
    decreases |s| - i
  {
    if StartsAt(s, p, i) then Some(i)
    else if i == |s| then None
    else IndexFrom(s, p, i + 1)
  }

  /** Position of the first occurrence of `p` in `s`, if any. */
  function IndexOf(s: string, p: string): (r: Option<nat>)
    ensures r.Some? ==> StartsAt(s, p, r.value)
    ensures r.Some? ==> forall k :: 0 <= k < r.value ==> !StartsAt(s, p, k)
    ensures r.None? <==> !Contains(s, p)
  {
    IndexFrom(s, p, 0)
  }

  /** Position of the first `c` in `s`, if any. */
  function FirstIndex(s: string, c: char): (r: Option<nat>)
    ensures r.Some? ==> r.value < |s| && s[r.value] == c && c !in s[..r.value]
    ensures r.None? ==> c !in s
  {
    if |s| == 0 then None
    else if s[0] == c then Some(0)
    else
      match FirstIndex(s[1..], c)
      case None => None
      case Some(k) =>
        assert s[..k + 1] == [s[0]] + s[1..][..k];
        Some(k + 1)
  }

  /** Position of the last `c` in `s`, if any. */
  function LastIndex(s: string, c: char): (r: Option<nat>)
    ensures r.Some? ==> r.value < |s| && s[r.value] == c && c !in s[r.value + 1..]
    ensures r.None? ==> c !in s
  {
    if |s| == 0 then None
    else if s[|s| - 1] == c then Some(|s| - 1)
    else
      match LastIndex(s[..|s| - 1], c)
      case None => None
      case Some(k) =>
        assert s[k + 1..] == s[..|s| - 1][k + 1..] + [s[|s| - 1]];
        Some(k)
  }

  /** Python's `s.replace(p, r)`: every non-overlapping occurrence of `p`,
      scanning left to right, is replaced by `r`. */
  function ReplaceAll(s: string, p: string, r: string): string
    requires |p| > 0
    decreases |s|
  {
    if |s| < |p| then s
    else if s[..|p|] == p then r + ReplaceAll(s[|p|..], p, r)
    else [s[0]] + ReplaceAll(s[1..], p, r)
  }

  /** Python's `s.split(p)` for a non-empty separator. */
  function Split(s: string, p: string): (parts: seq<string>)
    requires |p| > 0
    ensures |parts| >= 1
    ensures parts[0] <= s
    decreases |s|
  {
    if |s| < |p| then [s]
    else if s[..|p|] == p then [""] + Split(s[|p|..], p)
    else
      var rest := Split(s[1..], p);
      [[s[0]] + rest[0]] + rest[1..]
  }

  /** Python's `sep.join(parts)`. */
  function Join(parts: seq<string>, sep: string): string
  {
    if |parts| == 0 then ""
    else if |parts| == 1 then parts[0]
    else parts[0] + sep + Join(parts[1..], sep)
  }

  lemma JoinConsHead(c: char, parts: seq<string>, sep: string)
    requires |parts| >= 1
    ensures Join([[c] + parts[0]] + parts[1..], sep) == [c] + Join(parts, sep)
  {
    var q := [[c] + parts[0]] + parts[1..];
    assert q[1..] == parts[1..];
  }

  /** Each part of a three-part concatenation can be cut back out. */
  lemma ConcatParts(a: string, b: string, c: string)
    ensures var p := a + b + c;
            p[..|a|] == a && p[|a|..|a| + |b|] == b && p[|a| + |b|..] == c
  {
  }

  /** With `c` not in the separator, `c` is in the join of the pieces
      exactly when it is in one of them. */
  lemma {:induction false} JoinFree(parts: seq<string>, sep: string, c: char)
    requires c !in sep
    ensures c !in Join(parts, sep) <==> forall i :: 0 <= i < |parts| ==> c !in parts[i]
    decreases |parts|
  {
    if |parts| > 1 {
      JoinFree(parts[1..], sep, c);
      assert Join(parts, sep) == parts[0] + sep + Join(parts[1..], sep);
      assert forall i :: 1 <= i < |parts| ==> parts[i] == parts[1..][i - 1];
    }
  }

  /** A character of `s` is the one-character text `[c]` found in `s`. */
  lemma CharContained(s: string, c: char)
    ensures c in s <==> Contains(s, [c])
  {
    if c in s {
      var k :| 0 <= k < |s| && s[k] == c;
      assert StartsAt(s, [c], k);
    }
    if Contains(s, [c]) {
      var k :| 0 <= k <= |s| && StartsAt(s, [c], k);
      assert s[k] == s[k..k + 1][0];
    }
  }

  /** Joining the pieces of a split with the separator gives the text back. */
  lemma {:induction false} SplitJoin(s: string, p: string)
    requires |p| > 0
    ensures Join(Split(s, p), p) == s
    decreases |s|
  {
    if |s| < |p| {
    } else if s[..|p|] == p {
      SplitJoin(s[|p|..], p);
      var rest := Split(s[|p|..], p);
      assert Split(s, p) == [""] + rest;
      assert ([""] + rest)[1..] == rest;
      assert s == s[..|p|] + s[|p|..];
    } else {
      SplitJoin(s[1..], p);
      JoinConsHead(s[0], Split(s[1..], p), p);
      assert s == [s[0]] + s[1..];
    }
  }

  /** No piece of a split contains the separator. */
  lemma {:induction false} SplitPiecesFree(s: string, p: string)
    requires |p| > 0
    ensures forall i :: 0 <= i < |Split(s, p)| ==> !Contains(Split(s, p)[i], p)
    decreases |s|
  {
    var parts := Split(s, p);
    if |s| < |p| {
      forall k | 0 <= k <= |s| ensures !StartsAt(s, p, k) {}
    } else if s[..|p|] == p {
      SplitPiecesFree(s[|p|..], p);
      var rest := Split(s[|p|..], p);
      assert parts == [""] + rest;
      forall i | 0 <= i < |parts| ensures !Contains(parts[i], p) {
        if i == 0 {
          assert forall k :: 0 <= k <= 0 ==> !StartsAt("", p, k);
        } else {
          assert parts[i] == rest[i - 1];
        }
      }
    } else {
      SplitPiecesFree(s[1..], p);
      var rest := Split(s[1..], p);
      assert parts == [[s[0]] + rest[0]] + rest[1..];
      forall i | 0 <= i < |parts| ensures !Contains(parts[i], p) {
        if i == 0 {
          var h := [s[0]] + rest[0];
          assert h <= s;
          forall k | 0 <= k <= |h| ensures !StartsAt(h, p, k) {
            if k > 0 && StartsAt(h, p, k) {
              assert h[k..k + |p|] == rest[0][k - 1..k - 1 + |p|];
              assert StartsAt(rest[0], p, k - 1);
              assert false;
            }
          }
        } else {
          assert parts[i] == rest[i];
        }
      }
    }
  }

  /** Python's `s.replace(p, r)` equals `r.join(s.split(p))`: the text is
      cut at every occurrence of `p` and glued back with `r`. */
  lemma {:induction false} ReplaceAllIsSplitJoin(s: string, p: string, r: string)
    requires |p| > 0
    ensures ReplaceAll(s, p, r) == Join(Split(s, p), r)
    decreases |s|
  {
    if |s| < |p| {
    } else if s[..|p|] == p {
      ReplaceAllIsSplitJoin(s[|p|..], p, r);
      var rest := Split(s[|p|..], p);
      assert Split(s, p) == [""] + rest;
      assert ([""] + rest)[1..] == rest;
    } else {
      ReplaceAllIsSplitJoin(s[1..], p, r);
      JoinConsHead(s[0], Split(s[1..], p), r);
    }
  }

  /** Text free of the single-character separator `c` splits to itself. */
  lemma {:induction false} SplitFree(s: string, c: char)
    requires c !in s
    ensures Split(s, [c]) == [s]
    decreases |s|
  {
    if |s| >= 1 {
      assert s[..1] != [c] by { assert s[0] != c; }
      SplitFree(s[1..], c);
      assert [s[0]] + s[1..] == s;
    }
  }

  /** Splitting `x + [c] + rest` at `c`, when `x` has no `c`, peels off `x`. */
  lemma {:induction false} SplitPeel(x: string, c: char, rest: string)
    requires c !in x
    ensures Split(x + [c] + rest, [c]) == [x] + Split(rest, [c])
    decreases |x|
  {
    var s := x + [c] + rest;
    if |x| == 0 {
      assert s[..1] == [c];
      assert s[1..] == rest;
    } else {
      assert s[..1] != [c] by { assert s[0] == x[0]; }
      assert s[1..] == x[1..] + [c] + rest;
      SplitPeel(x[1..], c, rest);
      assert [x[0]] + x[1..] == x;
    }
  }

  /** Joining pieces free of a single-character separator and splitting
      again gives the pieces back. */
  lemma {:induction false} JoinSplitSingle(parts: seq<string>, c: char)
    requires |parts| >= 1
    requires forall i :: 0 <= i < |parts| ==> c !in parts[i]
    ensures Split(Join(parts, [c]), [c]) == parts
    decreases |parts|
  {
    if |parts| == 1 {
      SplitFree(parts[0], c);
    } else {
      JoinSplitSingle(parts[1..], c);
      SplitPeel(parts[0], c, Join(parts[1..], [c]));
      assert parts[0] + [c] + Join(parts[1..], [c]) == Join(parts, [c]);
      assert [parts[0]] + parts[1..] == parts;
    }
  }

  /** `r` is the part of `s` from index `i` that is left once the leading
      and trailing characters satisfying `ws` are removed. */
  predicate StrippedAt(s: string, r: string, i: int, ws: char -> bool) {
    && 0 <= i && i + |r| <= |s| && r == s[i..i + |r|]
    && (forall k :: 0 <= k < i ==> ws(s[k]))
    && (forall k :: i + |r| <= k < |s| ==> ws(s[k]))
    && (|r| > 0 ==> !ws(r[0]) && !ws(r[|r| - 1]))
  }

  /** Number of leading characters of `s` that satisfy `ws`. */
  function LeadingCount(s: string, ws: char -> bool): (n: nat)
    ensures n <= |s|
    ensures forall k :: 0 <= k < n ==> ws(s[k])
    ensures n < |s| ==> !ws(s[n])
  {
    if |s| == 0 || !ws(s[0]) then 0 else 1 + LeadingCount(s[1..], ws)
  }

  /** Start of the run of trailing characters of `s` that satisfy `ws`. */
  function TrailingStart(s: string, ws: char -> bool): (n: nat)
    ensures n <= |s|
    ensures forall k :: n <= k < |s| ==> ws(s[k])
    ensures 0 < n ==> !ws(s[n - 1])
  {
    if |s| == 0 || !ws(s[|s| - 1]) then |s| else TrailingStart(s[..|s| - 1], ws)
  }

  /** Python's `str.strip()` and JavaScript's `String.prototype.trim()`,
      for the whitespace set `ws` of the respective language. */
  function Strip(s: string, ws: char -> bool): (r: string)
    ensures exists i :: StrippedAt(s, r, i, ws)
  {
    var i := LeadingCount(s, ws);
    if i == |s| then
      assert StrippedAt(s, "", i, ws);
      ""
    else
      var j := TrailingStart(s, ws);
      assert i < j;
      assert StrippedAt(s, s[i..j], i, ws);
      s[i..j]
  }

  predicate IsUpper(c: char) { 'A' <= c <= 'Z' }
  predicate IsLower(c: char) { 'a' <= c <= 'z' }

  function LowerChar(c: char): char {
    if IsUpper(c) then (c as int + 32) as char else c
  }

  function UpperChar(c: char): char {
    if IsLower(c) then (c as int - 32) as char else c
  }

  /** Python's `str.lower()` on ASCII letters. */
  function Lower(s: string): (r: string)
    ensures |r| == |s|
    ensures forall i :: 0 <= i < |s| ==> r[i] == LowerChar(s[i])
  {
    seq(|s|, i requires 0 <= i < |s| => LowerChar(s[i]))
  }

  /** Lower-casing twice is lower-casing once. */
  lemma LowerIdempotent(s: string)
    ensures Lower(Lower(s)) == Lower(s)
  {
  }

  /** Python's `str.title()` on ASCII text: a letter that follows a letter
      is lower-cased, any other letter is upper-cased. */
  function TitleFrom(s: string, afterLetter: bool): (r: string)
    ensures |r| == |s|
  {
    if |s| == 0 then ""
    else
      var c := s[0];
      var isLetter := IsUpper(c) || IsLower(c);
      var out := if !isLetter then c else if afterLetter then LowerChar(c) else UpperChar(c);
      [out] + TitleFrom(s[1..], isLetter)
  }

  function Title(s: string): string {
    TitleFrom(s, false)
  }

  predicate IsLetter(c: char) { IsUpper(c) || IsLower(c) }

  /** What title-casing makes of character `i`: a letter after a letter
      (or, at the start, after `afterLetter`) goes lower case, any other
      letter upper case, anything else is kept. */
  function TitledAt(s: string, i: int, afterLetter: bool): char
    requires 0 <= i < |s|
  {
    var prev := if i == 0 then afterLetter else IsLetter(s[i - 1]);
    if !IsLetter(s[i]) then s[i] else if prev then LowerChar(s[i]) else UpperChar(s[i])
  }

  /** Title-casing decides each character from it and the one before. */
  lemma {:induction false} TitleFromSpec(s: string, afterLetter: bool)
    ensures forall i :: 0 <= i < |s| ==> TitleFrom(s, afterLetter)[i] == TitledAt(s, i, afterLetter)
    decreases |s|
  {
    if |s| > 0 {
      var rest := s[1..];
      var l := IsLetter(s[0]);
      TitleFromSpec(rest, l);
      forall i | 1 <= i < |s| ensures TitleFrom(s, afterLetter)[i] == TitledAt(s, i, afterLetter) {
        assert TitleFrom(s, afterLetter)[i] == TitleFrom(rest, l)[i - 1];
        assert rest[i - 1] == s[i];
        if i > 1 { assert rest[i - 2] == s[i - 1]; }
      }
    }
  }

  function DigitChar(d: nat): (c: char)
    requires d < 10
    ensures '0' <= c <= '9' && c as int - '0' as int == d
  {
    "0123456789"[d]
  }

  predicate AllDigits(s: string) {
    forall i :: 0 <= i < |s| ==> '0' <= s[i] <= '9'
  }

  /** The number a string of decimal digits denotes. */
  function DigitsValue(s: string): nat
    requires AllDigits(s)
  {
    if |s| == 0 then 0
    else DigitsValue(s[..|s| - 1]) * 10 + (s[|s| - 1] as int - '0' as int)
  }

  /** Python's `str(n)` for a natural number. */
  function NatToString(n: nat): (r: string)
    ensures |r| >= 1 && AllDigits(r)
    ensures DigitsValue(r) == n
    ensures |r| > 1 ==> r[0] != '0'
    decreases n
  {
    if n < 10 then [DigitChar(n)]
    else
      var head := NatToString(n / 10);
      var r := head + [DigitChar(n % 10)];
      assert r[..|r| - 1] == head;
      r
  }

  /** The length of the run of decimal digits that starts the text. */
  function DigitRun(s: string): (k: nat)
    ensures k <= |s| && AllDigits(s[..k])
    ensures k < |s| ==> !('0' <= s[k] <= '9')
    decreases |s|
  {
    if |s| > 0 && '0' <= s[0] <= '9' then
      var k := 1 + DigitRun(s[1..]);
      assert s[..k] == [s[0]] + s[1..][..k - 1];
      k
    else 0
  }

  /** Reads a number written in decimal at the start of the text, taking
      every digit there is, and returns it with the text after it. */
  function ReadNat(s: string): Option<(nat, string)> {
    var k := DigitRun(s);
    if k == 0 then None else Some((DigitsValue(s[..k]), s[k..]))
  }

  lemma {:induction false} DigitRunOf(d: string, rest: string)
    requires AllDigits(d)
    requires |rest| == 0 || !('0' <= rest[0] <= '9')
    ensures DigitRun(d + rest) == |d|
    decreases |d|
  {
    if |d| > 0 {
      assert (d + rest)[1..] == d[1..] + rest;
      DigitRunOf(d[1..], rest);
    } else {
      assert d + rest == rest;
    }
  }

  /** `str(n)` reads back as `n` when no digit follows it. */
  lemma ReadNatRoundTrip(n: nat, rest: string)
    requires |rest| == 0 || !('0' <= rest[0] <= '9')
    ensures ReadNat(NatToString(n) + rest) == Some((n, rest))
  {
    var d := NatToString(n);
    DigitRunOf(d, rest);
    assert (d + rest)[..|d|] == d && (d + rest)[|d|..] == rest;
  }

  /** The text after a literal that starts it, if it does. */
  function Expect(lit: string, s: string): (r: Option<string>)
    ensures r.Some? ==> s == lit + r.value
  {
    if |lit| <= |s| && s[..|lit|] == lit then Some(s[|lit|..]) else None
  }

  lemma ExpectLit(lit: string, t: string)
    ensures Expect(lit, lit + t) == Some(t)
  {
    assert (lit + t)[..|lit|] == lit && (lit + t)[|lit|..] == t;
  }

  // ---------------------------------------------------------------------
  // comparison

  /** Python's `<` on str: lexicographic by code point, a proper prefix
      first. */
  predicate TextBelow(a: string, b: string)
    decreases |a|
  {
    |b| > 0 && (|a| == 0 || a[0] < b[0] || (a[0] == b[0] && TextBelow(a[1..], b[1..])))
  }

  lemma {:induction false} TextBelowIrreflexive(a: string)
    ensures !TextBelow(a, a)
    decreases |a|
  {
    if |a| > 0 {
      TextBelowIrreflexive(a[1..]);
    }
  }

  lemma {:induction false} TextBelowTransitive(a: string, b: string, c: string)
    requires TextBelow(a, b) && TextBelow(b, c)
    ensures TextBelow(a, c)
    decreases |a|
  {
    if |a| > 0 && a[0] == b[0] && b[0] == c[0] {
      TextBelowTransitive(a[1..], b[1..], c[1..]);
    }
  }

  /** Two different strings are ordered one way or the other. */
  lemma {:induction false} TextBelowTotal(a: string, b: string)
    requires a != b
    ensures TextBelow(a, b) || TextBelow(b, a)
    decreases |a|
  {
    if |a| > 0 && |b| > 0 && a[0] == b[0] {
      assert a == [a[0]] + a[1..] && b == [b[0]] + b[1..];
      TextBelowTotal(a[1..], b[1..]);
    }
  }
}

=== FILE: table.dfy ===
/** The tabular data the core works on: a pandas DataFrame seen as an
    ordered sequence of named, typed columns of cells, together with the
    per-cell parsers (`pd.to_datetime`, `pd.to_numeric`) the classifiers
    consult and `DataFrame.to_dict(orient="records")`. */
module Table {
  import opened Wrappers

  /** One cell. `Missing` is None/NaN/NaT; `Time` is a timestamp. */
  datatype Value = Num(x: real) | Text(s: string) | Time(t: int) | Missing

  /** A column's pandas dtype. `Numeric` is every dtype for which
      `is_numeric_dtype` holds, with the name pandas prints for it
      ("int64", "float64", "bool", ...); `Other` is any remaining dtype
      (for instance "category" or "string"). */
  datatype Dtype = Numeric(spelling: string) | Datetime | Object | Other(spelling: string)

  datatype Column = Column(name: string, dtype: Dtype, values: seq<Value>)

  /** A DataFrame: its columns in order and its number of rows. */
  datatype Table = Table(columns: seq<Column>, rows: nat)

  /** One row as `to_dict(orient="records")` yields it: column name to cell,
      in column order. */
  type Record = seq<(string, Value)>

  /** `pd.to_datetime(..., errors="raise")` on one cell: `None` when the cell
      does not parse (the call raises), `Some(None)` for NaT, `Some(Some(t))`
      for a timestamp. */
  type DateParser = Value -> Option<Option<int>>

  /** `pd.to_numeric(..., errors="coerce")` on one cell: `None` for NaN. */
  type NumberParser = Value -> Option<real>

  /** `str(df[c].dtype)`. */
  function DtypeName(d: Dtype): string {
    match d
    case Numeric(spelling) => spelling
    case Datetime => "datetime64[ns]"
    case Object => "object"
    case Other(spelling) => spelling
  }

  /** The cells a column of dtype `d` can hold. */
  predicate Admits(d: Dtype, v: Value) {
    match d
    case Numeric(_) => v.Num? || v.Missing?
    case Datetime => v.Time? || v.Missing?
    case _ => true
  }

  predicate ColumnAdmits(c: Column) {
    forall k :: 0 <= k < |c.values| ==> Admits(c.dtype, c.values[k])
  }

  predicate UniqueNames(cols: seq<Column>) {
    forall i, j :: 0 <= i < j < |cols| ==> cols[i].name != cols[j].name
  }

  predicate Rectangular(t: Table) {
    forall i :: 0 <= i < |t.columns| ==> |t.columns[i].values| == t.rows
  }

  /** A well-formed DataFrame: distinct column names, every column as long
      as the table, every cell of a kind its dtype can hold. */
  predicate ValidTable(t: Table) {
    && UniqueNames(t.columns)
    && Rectangular(t)
    && forall i :: 0 <= i < |t.columns| ==> ColumnAdmits(t.columns[i])
  }

  function Names(cols: seq<Column>): (r: seq<string>)
    ensures |r| == |cols|
    ensures forall i :: 0 <= i < |cols| ==> r[i] == cols[i].name
  {
    seq(|cols|, i requires 0 <= i < |cols| => cols[i].name)
  }

  /** The names of the columns whose tag is `tag`, in column order: what a
      loop `for c in df.columns: if ...: lst.append(c)` builds. */
  function NamesTagged<T(==)>(cols: seq<Column>, tags: seq<T>, tag: T): seq<string>
    requires |tags| == |cols|
    decreases |cols|
  {
    if |cols| == 0 then []
    else
      NamesTagged(cols[..|cols| - 1], tags[..|tags| - 1], tag)
      + (if tags[|tags| - 1] == tag then [cols[|cols| - 1].name] else [])
  }

  /** One more column extends the list by its name exactly when it carries
      the tag. */
  lemma NamesTaggedSnoc<T>(cols: seq<Column>, tags: seq<T>, tag: T, i: int)
    requires |tags| == |cols| && 0 <= i < |cols|
    ensures NamesTagged(cols[..i + 1], tags[..i + 1], tag)
            == NamesTagged(cols[..i], tags[..i], tag) + (if tags[i] == tag then [cols[i].name] else [])
  {
    assert cols[..i + 1][..i] == cols[..i] && tags[..i + 1][..i] == tags[..i];
  }

  /** A name is listed exactly when some column of that name carries the tag. */
  lemma {:induction false} NamesTaggedSpec<T>(cols: seq<Column>, tags: seq<T>, tag: T, n: string)
    requires |tags| == |cols|
    ensures n in NamesTagged(cols, tags, tag)
            <==> exists i :: 0 <= i < |cols| && cols[i].name == n && tags[i] == tag
    decreases |cols|
  {
    if |cols| > 0 {
      var m := |cols| - 1;
      NamesTaggedSpec(cols[..m], tags[..m], tag, n);
      if n in NamesTagged(cols, tags, tag) && n !in NamesTagged(cols[..m], tags[..m], tag) {
        assert cols[m].name == n && tags[m] == tag;
      }
      if exists i :: 0 <= i < |cols| && cols[i].name == n && tags[i] == tag {
        var i :| 0 <= i < |cols| && cols[i].name == n && tags[i] == tag;
        if i < m {
          assert cols[..m][i] == cols[i] && tags[..m][i] == tags[i];
        }
      }
    }
  }

  /** With distinct names, column `i` is listed iff its own tag is `tag`. */
  lemma NamesTaggedMember<T>(cols: seq<Column>, tags: seq<T>, tag: T, i: int)
    requires |tags| == |cols| && UniqueNames(cols) && 0 <= i < |cols|
    ensures cols[i].name in NamesTagged(cols, tags, tag) <==> tags[i] == tag
  {
    NamesTaggedSpec(cols, tags, tag, cols[i].name);
  }

  /** Only names of columns are listed. */
  lemma NamesTaggedAreNames<T>(cols: seq<Column>, tags: seq<T>, tag: T, n: string)
    requires |tags| == |cols|
    requires n in NamesTagged(cols, tags, tag)
    ensures n in Names(cols)
  {
    NamesTaggedSpec(cols, tags, tag, n);
    var i :| 0 <= i < |cols| && cols[i].name == n && tags[i] == tag;
    assert Names(cols)[i] == n;
  }

  /** Index of the first column called `n` (|cols| when there is none). */
  function Position(cols: seq<Column>, n: string): (p: nat)
    ensures p <= |cols|
    ensures p < |cols| ==> cols[p].name == n
    ensures forall i :: 0 <= i < p ==> cols[i].name != n
  {
    if |cols| == 0 then 0
    else if cols[0].name == n then 0
    else 1 + Position(cols[1..], n)
  }

  lemma PositionPrefix(cols: seq<Column>, m: nat, n: string)
    requires m <= |cols|
    requires Position(cols[..m], n) < m
    ensures Position(cols, n) == Position(cols[..m], n)
  {
    var p := Position(cols[..m], n);
    assert cols[p] == cols[..m][p];
    forall i | 0 <= i < p ensures cols[i].name != n {
      assert cols[i] == cols[..m][i];
    }
  }

  /** The listed names appear in the same order as their columns. */
  lemma {:induction false} NamesTaggedInOrder<T>(cols: seq<Column>, tags: seq<T>, tag: T)
    requires |tags| == |cols| && UniqueNames(cols)
    ensures InColumnOrder(NamesTagged(cols, tags, tag), cols)
    decreases |cols|
  {
    if |cols| > 0 {
      var m := |cols| - 1;
      var pre := NamesTagged(cols[..m], tags[..m], tag);
      var r := NamesTagged(cols, tags, tag);
      NamesTaggedInOrder(cols[..m], tags[..m], tag);
      assert r[..|pre|] == pre;
      forall a | 0 <= a < |pre|
        ensures Position(cols[..m], pre[a]) < m
        ensures Position(cols, pre[a]) == Position(cols[..m], pre[a])
      {
        NamesTaggedSpec(cols[..m], tags[..m], tag, pre[a]);
        var i :| 0 <= i < m && cols[..m][i].name == pre[a] && tags[..m][i] == tag;
        assert Position(cols[..m], pre[a]) <= i;
        PositionPrefix(cols, m, pre[a]);
      }
      if |r| > |pre| {
        assert r[|pre|] == cols[m].name;
        assert Position(cols, cols[m].name) == m;
      }
      forall a, b | 0 <= a < b < |r| ensures Position(cols, r[a]) < Position(cols, r[b]) {
        assert r[a] == pre[a];
        if b < |pre| {
          assert r[b] == pre[b];
        }
      }
    }
  }

  /** `df[name]`: the first column of that name, if any. */
  function Lookup(cols: seq<Column>, name: string): (r: Option<Column>)
    ensures r.Some? <==> name in Names(cols)
    ensures r.Some? ==> r.value in cols && r.value.name == name
  {
    var p := Position(cols, name);
    if p < |cols| then
      assert Names(cols)[p] == name;
      Some(cols[p])
    else
      assert forall i :: 0 <= i < |cols| ==> Names(cols)[i] != name;
      None
  }

  /** With distinct names, looking a column up by its own name finds it. */
  lemma LookupOwnName(cols: seq<Column>, i: int)
    requires UniqueNames(cols) && 0 <= i < |cols|
    ensures Lookup(cols, cols[i].name) == Some(cols[i])
  {
    var p := Position(cols, cols[i].name);
    assert p <= i;
  }

  /** `df.to_dict(orient="records")`: one record per row, each listing every
      column's name and that row's cell, in column order. */
  function Records(t: Table): (r: seq<Record>)
    requires Rectangular(t)
    ensures |r| == t.rows
    ensures forall k :: 0 <= k < t.rows ==> |r[k]| == |t.columns|
  {
    seq(t.rows, k requires 0 <= k < t.rows =>
      seq(|t.columns|, i requires 0 <= i < |t.columns| =>
        (t.columns[i].name, t.columns[i].values[k])))
  }

  /** Reading field `i` of every record back gives column `i`'s cells:
      the records lose nothing of the table. */
  lemma RecordsKeepColumns(t: Table, i: int)
    requires Rectangular(t) && 0 <= i < |t.columns|
    ensures var recs := Records(t);
            seq(|recs|, k requires 0 <= k < |recs| && |recs[k]| == |t.columns| => recs[k][i].1)
            == t.columns[i].values
  {
  }

  /** Turns a `to_datetime` result into a cell. */
  function TimeCell(o: Option<int>): Value {
    match o
    case Some(t) => Time(t)
    case None => Missing
  }

  /** `pd.to_datetime(column, errors="raise")` on the cells of a column. */
  function ParseDates(vals: seq<Value>, pd: DateParser): (r: Option<seq<Value>>)
    ensures r.Some? ==> |r.value| == |vals|
    decreases |vals|
  {
    if |vals| == 0 then Some([])
    else
      match (pd(vals[0]), ParseDates(vals[1..], pd))
      case (Some(c), Some(rest)) => Some([TimeCell(c)] + rest)
      case _ => None
  }

  /** The parse fails as a whole if any cell fails, and otherwise yields
      the parsed cells, NaT as missing. */
  lemma {:induction false} ParseDatesSpec(vals: seq<Value>, pd: DateParser)
    ensures ParseDates(vals, pd).Some? <==> forall k :: 0 <= k < |vals| ==> pd(vals[k]).Some?
    ensures ParseDates(vals, pd).Some? ==>
      forall k :: 0 <= k < |vals| ==> ParseDates(vals, pd).value[k] == TimeCell(pd(vals[k]).value)
    decreases |vals|
  {
    if |vals| > 0 {
      ParseDatesSpec(vals[1..], pd);
      assert forall k :: 1 <= k < |vals| ==> vals[1..][k - 1] == vals[k];
    }
  }

  /** Number of missing cells. */
  function CountMissing(vals: seq<Value>): (n: nat)
    ensures n <= |vals|
  {
    if |vals| == 0 then 0
    else CountMissing(vals[..|vals| - 1]) + (if vals[|vals| - 1].Missing? then 1 else 0)
  }

  /** Number of cells `pd.to_numeric` turns into a number. */
  function CountNumbers(vals: seq<Value>, pn: NumberParser): (n: nat)
    ensures n <= |vals|
  {
    if |vals| == 0 then 0
    else CountNumbers(vals[..|vals| - 1], pn) + (if pn(vals[|vals| - 1]).Some? then 1 else 0)
  }

  /** `pd.to_numeric(column, errors="coerce")`: NaN where a cell does not parse. */
  function NumberCells(vals: seq<Value>, pn: NumberParser): (r: seq<Value>)
    ensures |r| == |vals|
    ensures forall k :: 0 <= k < |vals| ==> r[k] == (if pn(vals[k]).Some? then Num(pn(vals[k]).value) else Missing)
  {
    seq(|vals|, k requires 0 <= k < |vals| =>
      match pn(vals[k])
      case Some(x) => Num(x)
      case None => Missing)
  }

  /** After coercion, the numbers and the NaNs together make up the column. */
  lemma {:induction false} CoercionCounts(vals: seq<Value>, pn: NumberParser)
    ensures CountNumbers(vals, pn) + CountMissing(NumberCells(vals, pn)) == |vals|
    decreases |vals|
  {
    if |vals| > 0 {
      var m := |vals| - 1;
      CoercionCounts(vals[..m], pn);
      assert NumberCells(vals, pn)[..m] == NumberCells(vals[..m], pn);
    }
  }
  /** The column roles a classifier reports, each a list of column names. */
  datatype Roles = Roles(numeric: seq<string>, categorical: seq<string>, temporal: seq<string>)

  /** Every column name is in exactly one of the three role lists, and
      nothing else is in any of them. */
  ghost predicate IsPartition(r: Roles, cols: seq<Column>) {
    && (forall n :: n in Names(cols) <==> n in r.numeric || n in r.categorical || n in r.temporal)
    && (forall n :: n in r.numeric ==> n !in r.categorical && n !in r.temporal)
    && (forall n :: n in r.categorical ==> n !in r.temporal)
  }

  /** The names in `names` appear in the order of their columns. */
  predicate InColumnOrder(names: seq<string>, cols: seq<Column>) {
    forall a, b :: 0 <= a < b < |names| ==> Position(cols, names[a]) < Position(cols, names[b])
  }

  /** Index of the first occurrence of `v` in `vals` (|vals| if absent). */
  function FirstPos(vals: seq<Value>, v: Value): (p: nat)
    ensures p <= |vals|
    ensures p < |vals| ==> vals[p] == v
    ensures forall k :: 0 <= k < p ==> vals[k] != v
  {
    if |vals| == 0 then 0 else if vals[0] == v then 0 else 1 + FirstPos(vals[1..], v)
  }

  lemma FirstPosPrefix(vals: seq<Value>, m: nat, v: Value)
    requires m <= |vals| && v in vals[..m]
    ensures FirstPos(vals, v) == FirstPos(vals[..m], v) < m
  {
    var p := FirstPos(vals[..m], v);
    assert vals[p] == vals[..m][p];
    forall k | 0 <= k < p ensures vals[k] != v {
      assert vals[k] == vals[..m][k];
    }
  }

  /** `series.dropna().unique()`: the distinct non-missing cells, in the
      order in which they first appear. */
  function DistinctPresent(vals: seq<Value>): (r: seq<Value>)
    ensures forall v :: v in r <==> v in vals && !v.Missing?
    ensures forall a, b :: 0 <= a < b < |r| ==> FirstPos(vals, r[a]) < FirstPos(vals, r[b])
    decreases |vals|
  {
    if |vals| == 0 then []
    else
      var m := |vals| - 1;
      var pre := DistinctPresent(vals[..m]);
      DistinctStep(vals, pre);
      if vals[m].Missing? || vals[m] in pre then pre else pre + [vals[m]]
  }

  /** One more cell keeps the distinct cells in first-appearance order. */
  lemma DistinctStep(vals: seq<Value>, pre: seq<Value>)
    requires |vals| > 0
    requires forall v :: v in pre <==> v in vals[..|vals| - 1] && !v.Missing?
    requires forall a, b :: 0 <= a < b < |pre| ==>
               FirstPos(vals[..|vals| - 1], pre[a]) < FirstPos(vals[..|vals| - 1], pre[b])
    ensures var m := |vals| - 1;
            var r := if vals[m].Missing? || vals[m] in pre then pre else pre + [vals[m]];
            && (forall v :: v in r <==> v in vals && !v.Missing?)
            && (forall a, b :: 0 <= a < b < |r| ==> FirstPos(vals, r[a]) < FirstPos(vals, r[b]))
  {
    var m := |vals| - 1;
    assert vals == vals[..m] + [vals[m]];
    assert forall a :: 0 <= a < |pre| ==> pre[a] in pre;
    FirstPosKept(vals, pre);
    if !(vals[m].Missing? || vals[m] in pre) {
      var r := pre + [vals[m]];
      FirstPosLast(vals);
      forall a, b | 0 <= a < b < |r| ensures FirstPos(vals, r[a]) < FirstPos(vals, r[b]) {
        assert r[a] == pre[a];
        if b < |pre| {
          assert r[b] == pre[b];
        } else {
          assert r[b] == vals[m];
        }
      }
    }
  }

  /** A last cell seen nowhere before first appears at the end. */
  lemma FirstPosLast(vals: seq<Value>)
    requires |vals| > 0 && vals[|vals| - 1] !in vals[..|vals| - 1]
    ensures FirstPos(vals, vals[|vals| - 1]) == |vals| - 1
  {
    var m := |vals| - 1;
    forall k | 0 <= k < m ensures vals[k] != vals[m] {
      assert vals[k] == vals[..m][k];
    }
  }

  /** Cells seen before the last keep their first positions. */
  lemma FirstPosKept(vals: seq<Value>, pre: seq<Value>)
    requires |vals| > 0
    requires forall a :: 0 <= a < |pre| ==> pre[a] in vals[..|vals| - 1]
    ensures forall a :: 0 <= a < |pre| ==> FirstPos(vals, pre[a]) == FirstPos(vals[..|vals| - 1], pre[a])
    ensures forall a :: 0 <= a < |pre| ==> FirstPos(vals, pre[a]) < |vals| - 1
  {
    var m := |vals| - 1;
    forall a | 0 <= a < |pre| ensures FirstPos(vals, pre[a]) == FirstPos(vals[..m], pre[a]) < m {
      FirstPosPrefix(vals, m, pre[a]);
    }
  }
}

=== FILE: viz_utils.dfy ===
/** `utils/viz_utils.py`: the value-based column classifier
    (`detect_columns`), the three Altair chart builders and the default
    dashboard that combines them. Charts are described by `ChartSpec`, with
    the (aggregated) rows embedded by value. */
module VizUtils {
  import opened Wrappers
  import opened Strings
  import opened Table
  import opened Charts

  /** `na_ratio < 0.2` in `detect_columns`. */
  const MaxNaRatio: real := 0.2

  /** How `detect_columns` sees one column. */
  datatype VizKind = NumericCol | NativeTime | ParsedTime | CategoricalCol

  /** `parsed.isna().mean() < 0.2`. The mean of zero cells is NaN and NaN
      compares false, so an empty column never passes. */
  predicate FewMissing(parsed: seq<Value>) {
    |parsed| > 0 && (CountMissing(parsed) as real) / (|parsed| as real) < MaxNaRatio
  }

  /** An object column whose cells all parse as dates, with fewer than 20%
      of the parsed cells NaT. */
  predicate ParsesAsTemporal(c: Column, pd: DateParser) {
    && c.dtype.Object?
    && ParseDates(c.values, pd).Some?
    && FewMissing(ParseDates(c.values, pd).value)
  }

  function ColumnKind(c: Column, pd: DateParser): VizKind {
    if c.dtype.Numeric? then NumericCol
    else if c.dtype.Datetime? then NativeTime
    else if ParsesAsTemporal(c, pd) then ParsedTime
    else CategoricalCol
  }

  function Kinds(cols: seq<Column>, pd: DateParser): (r: seq<VizKind>)
    ensures |r| == |cols|
    ensures forall i :: 0 <= i < |cols| ==> r[i] == ColumnKind(cols[i], pd)
  {
    seq(|cols|, i requires 0 <= i < |cols| => ColumnKind(cols[i], pd))
  }

  /** The column as it stands in the working frame after `detect_columns`:
      a column that parsed as dates holds the parsed cells. */
  function Converted(c: Column, pd: DateParser): (r: Column)
    ensures r.name == c.name && |r.values| == |c.values|
  {
    if ParsesAsTemporal(c, pd) then Column(c.name, Datetime, ParseDates(c.values, pd).value) else c
  }

  function ConvertedAll(cols: seq<Column>, pd: DateParser): (r: seq<Column>)
    ensures |r| == |cols|
    ensures forall i :: 0 <= i < |cols| ==> r[i] == Converted(cols[i], pd)
  {
    seq(|cols|, i requires 0 <= i < |cols| => Converted(cols[i], pd))
  }

  function Working(t: Table, pd: DateParser): (w: Table)
    ensures w.rows == t.rows && |w.columns| == |t.columns|
    ensures Rectangular(t) ==> Rectangular(w)
    ensures forall i :: 0 <= i < |t.columns| ==> w.columns[i] == Converted(t.columns[i], pd)
  {
    Table(ConvertedAll(t.columns, pd), t.rows)
  }

  /** The role lists `detect_columns` reports: numeric columns, then
      categorical ones, then the native datetime columns followed by the
      columns that parsed as dates, each group in column order. */
  function VizRoles(cols: seq<Column>, pd: DateParser): Roles {
    var kinds := Kinds(cols, pd);
    Roles(NamesTagged(cols, kinds, NumericCol),
          NamesTagged(cols, kinds, CategoricalCol),
          NamesTagged(cols, kinds, NativeTime) + NamesTagged(cols, kinds, ParsedTime))
  }

  /** `for c in df.columns: if is_numeric_dtype(df[c]): ...append(c)`. */
  method NumericPass(cols: seq<Column>, pd: DateParser) returns (nums: seq<string>)
    ensures nums == NamesTagged(cols, Kinds(cols, pd), NumericCol)
  {
    ghost var kinds := Kinds(cols, pd);
    nums := [];
    var i := 0;
    while i < |cols|
      invariant i <= |cols|
      invariant nums == NamesTagged(cols[..i], kinds[..i], NumericCol)
    {
      if cols[i].dtype.Numeric? {
        nums := nums + [cols[i].name];
      }
      NamesTaggedSnoc(cols, kinds, NumericCol, i);
      i := i + 1;
    }
    assert cols[..|cols|] == cols && kinds[..|cols|] == kinds;
  }

  /** `for c in df.columns: if is_datetime64_any_dtype(df[c]): ...append(c)`. */
  method NativeTimePass(cols: seq<Column>, pd: DateParser) returns (times: seq<string>)
    ensures times == NamesTagged(cols, Kinds(cols, pd), NativeTime)
  {
    ghost var kinds := Kinds(cols, pd);
    times := [];
    var i := 0;
    while i < |cols|
      invariant i <= |cols|
      invariant times == NamesTagged(cols[..i], kinds[..i], NativeTime)
    {
      if cols[i].dtype.Datetime? {
        times := times + [cols[i].name];
      }
      NamesTaggedSnoc(cols, kinds, NativeTime, i);
      i := i + 1;
    }
    assert cols[..|cols|] == cols && kinds[..|cols|] == kinds;
  }

  /** One step of the parse pass: a column not yet listed whose dtype is
      object is parsed; it is converted and listed when every cell parses
      and fewer than 20% come out NaT. */
  method TryParse(c: Column, pd: DateParser, times: seq<string>) returns (c': Column, times': seq<string>)
    requires ParsesAsTemporal(c, pd) ==> c.name !in times
    ensures c' == Converted(c, pd)
    ensures times' == times + (if ColumnKind(c, pd) == ParsedTime then [c.name] else [])
  {
    c', times' := c, times;
    if c.name !in times && c.dtype.Object? {
      match ParseDates(c.values, pd)
      case Some(parsed) =>
        // an empty column has a NaN ratio, which fails the comparison
        if |parsed| > 0 && (CountMissing(parsed) as real) / (|parsed| as real) < MaxNaRatio {
          c' := Column(c.name, Datetime, parsed);
          times' := times + [c.name];
        }
      case None =>
    }
  }

  /** A column that parses as dates is listed neither as native datetime
      nor by an earlier step of the parse pass. */
  lemma NotYetListed(cols: seq<Column>, pd: DateParser, i: int)
    requires UniqueNames(cols) && 0 <= i < |cols|
    ensures var kinds := Kinds(cols, pd);
      ParsesAsTemporal(cols[i], pd) ==>
        cols[i].name !in NamesTagged(cols, kinds, NativeTime) && cols[i].name !in NamesTagged(cols[..i], kinds[..i], ParsedTime)
  {
    var kinds := Kinds(cols, pd);
    NamesTaggedMember(cols, kinds, NativeTime, i);
    NamesTaggedSpec(cols[..i], kinds[..i], ParsedTime, cols[i].name);
  }

  /** The parse pass: object columns not yet temporal are tried with
      `pd.to_datetime(errors="raise")`, converted in place and appended to
      the temporal list. */
  method ParsePass(cols: seq<Column>, pd: DateParser, natives: seq<string>) returns (wcols: seq<Column>, times: seq<string>)
    requires UniqueNames(cols)
    requires natives == NamesTagged(cols, Kinds(cols, pd), NativeTime)
    ensures times == natives + NamesTagged(cols, Kinds(cols, pd), ParsedTime)
    ensures wcols == ConvertedAll(cols, pd)
  {
    ghost var kinds := Kinds(cols, pd);
    ghost var conv := ConvertedAll(cols, pd);
    wcols, times := [], natives;
    var i := 0;
    while i < |cols|
      invariant i <= |cols|
      invariant times == natives + NamesTagged(cols[..i], kinds[..i], ParsedTime)
      invariant wcols == conv[..i]
    {
      ParseStep(cols, pd, natives, i);
      var c';
      c', times := TryParse(cols[i], pd, times);
      assert times == natives + NamesTagged(cols[..i + 1], kinds[..i + 1], ParsedTime);
      assert c' == conv[i] && conv[..i + 1] == conv[..i] + [conv[i]];
      wcols := wcols + [c'];
      i := i + 1;
    }
    assert cols[..|cols|] == cols && kinds[..|cols|] == kinds && conv[..|cols|] == conv;
  }

  /** The parsed names after column `i` are those before it plus `i` itself
      when it parses as dates; before it, it is in neither list. */
  lemma ParseStep(cols: seq<Column>, pd: DateParser, natives: seq<string>, i: int)
    requires UniqueNames(cols) && 0 <= i < |cols|
    requires natives == NamesTagged(cols, Kinds(cols, pd), NativeTime)
    ensures var kinds := Kinds(cols, pd);
            var before := natives + NamesTagged(cols[..i], kinds[..i], ParsedTime);
            && natives + NamesTagged(cols[..i + 1], kinds[..i + 1], ParsedTime)
               == before + (if ColumnKind(cols[i], pd) == ParsedTime then [cols[i].name] else [])
            && (ParsesAsTemporal(cols[i], pd) ==> cols[i].name !in before)
  {
    var kinds := Kinds(cols, pd);
    NotYetListed(cols, pd, i);
    NamesTaggedSnoc(cols, kinds, ParsedTime, i);
    var parsed := NamesTagged(cols[..i], kinds[..i], ParsedTime);
    var step := if kinds[i] == ParsedTime then [cols[i].name] else [];
    SeqAssoc(natives, parsed, step);
  }

  lemma SeqAssoc<T>(a: seq<T>, b: seq<T>, c: seq<T>)
    ensures a + (b + c) == (a + b) + c
  {
  }

  /** `cat_cols = [c for c in df.columns if c not in numeric_cols and c not
      in datetime_cols]`. */
  method CategoricalPass(cols: seq<Column>, pd: DateParser, nums: seq<string>, times: seq<string>) returns (cats: seq<string>)
    requires UniqueNames(cols)
    requires nums == NamesTagged(cols, Kinds(cols, pd), NumericCol)
    requires times == NamesTagged(cols, Kinds(cols, pd), NativeTime) + NamesTagged(cols, Kinds(cols, pd), ParsedTime)
    ensures cats == NamesTagged(cols, Kinds(cols, pd), CategoricalCol)
  {
    ghost var kinds := Kinds(cols, pd);
    cats := [];
    var i := 0;
    while i < |cols|
      invariant i <= |cols|
      invariant cats == NamesTagged(cols[..i], kinds[..i], CategoricalCol)
    {
      NamesTaggedMember(cols, kinds, NumericCol, i);
      NamesTaggedMember(cols, kinds, NativeTime, i);
      NamesTaggedMember(cols, kinds, ParsedTime, i);
      if cols[i].name !in nums && cols[i].name !in times {
        cats := cats + [cols[i].name];
      }
      NamesTaggedSnoc(cols, kinds, CategoricalCol, i);
      i := i + 1;
    }
    assert cols[..|cols|] == cols && kinds[..|cols|] == kinds;
  }

  /** `detect_columns(df)`, run on the caller's copy: the same four passes
      over the columns as the source. */
  method DetectColumns(df: Table, pd: DateParser) returns (w: Table, roles: Roles)
    requires UniqueNames(df.columns)
    ensures roles == VizRoles(df.columns, pd)
    ensures w == Working(df, pd)
  {
    var nums := NumericPass(df.columns, pd);
    var natives := NativeTimePass(df.columns, pd);
    var wcols, times := ParsePass(df.columns, pd, natives);
    var cats := CategoricalPass(df.columns, pd, nums, times);
    w := Table(wcols, df.rows);
    roles := Roles(nums, cats, times);
  }

  /** The role of each column: numeric by dtype alone (an object column of
      numeric strings is never numeric), temporal when natively datetime or
      when an object column parses completely with under 20% NaT,
      categorical otherwise. */
  lemma VizRoleOfColumn(cols: seq<Column>, pd: DateParser, i: int)
    requires UniqueNames(cols) && 0 <= i < |cols|
    ensures var r := VizRoles(cols, pd); var c := cols[i];
      && (c.name in r.numeric <==> c.dtype.Numeric?)
      && (c.name in r.temporal <==>
            c.dtype.Datetime?
            || (c.dtype.Object? && (forall k :: 0 <= k < |c.values| ==> pd(c.values[k]).Some?)
                && FewMissing(ParseDates(c.values, pd).GetOr([]))))
      && (c.name in r.categorical <==> c.name !in r.numeric && c.name !in r.temporal)
  {
    var kinds := Kinds(cols, pd);
    ParseDatesSpec(cols[i].values, pd);
    NamesTaggedMember(cols, kinds, NumericCol, i);
    NamesTaggedMember(cols, kinds, CategoricalCol, i);
    NamesTaggedMember(cols, kinds, NativeTime, i);
    NamesTaggedMember(cols, kinds, ParsedTime, i);
  }

  /** Only column names are listed. */
  lemma VizRolesAreNames(cols: seq<Column>, pd: DateParser, n: string)
    requires var r := VizRoles(cols, pd); n in r.numeric || n in r.categorical || n in r.temporal
    ensures exists i :: 0 <= i < |cols| && cols[i].name == n
  {
    var kinds := Kinds(cols, pd);
    NamesTaggedSpec(cols, kinds, NumericCol, n);
    NamesTaggedSpec(cols, kinds, CategoricalCol, n);
    NamesTaggedSpec(cols, kinds, NativeTime, n);
    NamesTaggedSpec(cols, kinds, ParsedTime, n);
  }

  /** Every column name is in exactly one of the three lists. */
  lemma VizRolesPartition(cols: seq<Column>, pd: DateParser)
    requires UniqueNames(cols)
    ensures IsPartition(VizRoles(cols, pd), cols)
  {
    var r := VizRoles(cols, pd);
    forall n
      ensures n in Names(cols) <==> n in r.numeric || n in r.categorical || n in r.temporal
      ensures n in r.numeric ==> n !in r.categorical && n !in r.temporal
      ensures n in r.categorical ==> n !in r.temporal
    {
      if n in Names(cols) || n in r.numeric || n in r.categorical || n in r.temporal {
        if n !in Names(cols) {
          VizRolesAreNames(cols, pd, n);
        }
        var i :| 0 <= i < |cols| && cols[i].name == n;
        assert Names(cols)[i] == n;
        VizRoleOfColumn(cols, pd, i);
      }
    }
  }

  /** The numeric and the categorical list, and the native and the parsed
      part of the temporal list, each keep column order. */
  lemma VizRolesOrdered(cols: seq<Column>, pd: DateParser)
    requires UniqueNames(cols)
    ensures var kinds := Kinds(cols, pd);
      && InColumnOrder(VizRoles(cols, pd).numeric, cols)
      && InColumnOrder(VizRoles(cols, pd).categorical, cols)
      && InColumnOrder(NamesTagged(cols, kinds, NativeTime), cols)
      && InColumnOrder(NamesTagged(cols, kinds, ParsedTime), cols)
      && VizRoles(cols, pd).temporal == NamesTagged(cols, kinds, NativeTime) + NamesTagged(cols, kinds, ParsedTime)
  {
    var kinds := Kinds(cols, pd);
    NamesTaggedInOrder(cols, kinds, NumericCol);
    NamesTaggedInOrder(cols, kinds, CategoricalCol);
    NamesTaggedInOrder(cols, kinds, NativeTime);
    NamesTaggedInOrder(cols, kinds, ParsedTime);
  }

  /** The working frame keeps every column, replacing the cells only of the
      columns that became temporal, and stays a well-formed DataFrame. */
  lemma WorkingValid(t: Table, pd: DateParser)
    requires ValidTable(t)
    ensures ValidTable(Working(t, pd))
    ensures Names(Working(t, pd).columns) == Names(t.columns)
  {
    var w := Working(t, pd);
    forall i | 0 <= i < |w.columns| ensures ColumnAdmits(w.columns[i]) {
      var c := t.columns[i];
      if ParsesAsTemporal(c, pd) {
        var parsed := ParseDates(c.values, pd).value;
        ParseDatesSpec(c.values, pd);
        forall k | 0 <= k < |parsed| ensures Admits(Datetime, parsed[k]) {
          assert parsed[k] == TimeCell(pd(c.values[k]).value);
        }
      }
    }
  }

  // ---------------------------------------------------------------------
  // groupby helpers

  /** The order `groupby` sorts its keys in, as pandas' `safe_sort` does:
      numbers by value, timestamps by time, strings by code point, and, when
      strings are mixed with other keys, every other key before every
      string. A number and a timestamp are not ordered. */
  predicate KeyBelow(a: Value, b: Value) {
    match (a, b)
    case (Num(x), Num(y)) => x < y
    case (Time(s), Time(t)) => s < t
    case (Text(u), Text(v)) => TextBelow(u, v)
    case (Num(_), Text(_)) => true
    case (Time(_), Text(_)) => true
    case _ => false
  }

  /** Two keys the sort can compare: not a number against a timestamp. */
  predicate Comparable(a: Value, b: Value) {
    !(a.Num? && b.Time?) && !(a.Time? && b.Num?)
  }

  /** A key column whose keys the sort can put in order; on any other
      column `groupby` raises a TypeError. */
  predicate KeysComparable(keys: seq<Value>) {
    forall i, j :: 0 <= i < |keys| && 0 <= j < |keys| ==> Comparable(keys[i], keys[j])
  }

  predicate KeysAscending(s: seq<Value>) {
    forall i, j :: 0 <= i < j < |s| ==> KeyBelow(s[i], s[j])
  }

  lemma KeyBelowIrreflexive(a: Value)
    ensures !KeyBelow(a, a)
  {
    if a.Text? {
      TextBelowIrreflexive(a.s);
    }
  }

  lemma KeyBelowTransitive(a: Value, b: Value, c: Value)
    requires KeyBelow(a, b) && KeyBelow(b, c)
    ensures KeyBelow(a, c)
  {
    if a.Text? {
      TextBelowTransitive(a.s, b.s, c.s);
    }
  }

  /** Two different comparable keys are ordered one way or the other. */
  lemma KeyBelowTotal(a: Value, b: Value)
    requires !a.Missing? && !b.Missing? && Comparable(a, b) && a != b
    ensures KeyBelow(a, b) || KeyBelow(b, a)
  {
    if a.Text? && b.Text? {
      TextBelowTotal(a.s, b.s);
    }
  }

  /** A key below the first of an ascending run is below all of it. */
  lemma BelowAll(t: Value, s: seq<Value>)
    requires KeysAscending(s) && |s| > 0 && KeyBelow(t, s[0])
    ensures forall j :: 0 <= j < |s| ==> KeyBelow(t, s[j])
  {
    forall j | 0 < j < |s| ensures KeyBelow(t, s[j]) {
      KeyBelowTransitive(t, s[0], s[j]);
    }
  }

  function InsertKey(s: seq<Value>, t: Value): (r: seq<Value>)
    requires KeysAscending(s) && !t.Missing?
    requires forall i :: 0 <= i < |s| ==> !s[i].Missing? && Comparable(s[i], t)
    ensures KeysAscending(r)
    ensures forall x :: x in r <==> x in s || x == t
    decreases |s|
  {
    if |s| == 0 then [t]
    else if KeyBelow(t, s[0]) then
      BelowAll(t, s);
      [t] + s
    else if t == s[0] then s
    else
      KeyBelowTotal(s[0], t);
      var rest := InsertKey(s[1..], t);
      assert forall j :: 0 <= j < |rest| ==> KeyBelow(s[0], rest[j]) by {
        forall j | 0 <= j < |rest| ensures KeyBelow(s[0], rest[j]) {
          assert rest[j] in rest;
          if rest[j] != t {
            var q :| 0 <= q < |s[1..]| && s[1..][q] == rest[j];
            assert s[q + 1] == rest[j];
          }
        }
      }
      [s[0]] + rest
  }

  /** The distinct present keys in the order `groupby` sorts them: the group
      keys of `groupby(key_col)`, which drops missing keys. */
  function SortedKeys(keys: seq<Value>): (r: seq<Value>)
    requires KeysComparable(keys)
    ensures KeysAscending(r)
    ensures forall v :: v in r <==> v in keys && !v.Missing?
    decreases |keys|
  {
    if |keys| == 0 then []
    else
      var m := |keys| - 1;
      assert keys == keys[..m] + [keys[m]];
      assert KeysComparable(keys[..m]) by {
        forall i, j | 0 <= i < m && 0 <= j < m ensures Comparable(keys[..m][i], keys[..m][j]) {
          assert keys[..m][i] == keys[i] && keys[..m][j] == keys[j];
        }
      }
      var rest := SortedKeys(keys[..m]);
      if keys[m].Missing? then rest
      else
        assert forall i :: 0 <= i < |rest| ==> !rest[i].Missing? && Comparable(rest[i], keys[m]) by {
          forall i | 0 <= i < |rest| ensures !rest[i].Missing? && Comparable(rest[i], keys[m]) {
            assert rest[i] in rest;
            var q :| 0 <= q < m && keys[..m][q] == rest[i];
            assert keys[q] == rest[i];
          }
        }
        InsertKey(rest, keys[m])
  }

  /** Sum of the numbers in `vals` whose key is `k`. */
  function GroupSum(keys: seq<Value>, vals: seq<Value>, k: Value): real
    requires |keys| == |vals|
    decreases |keys|
  {
    if |keys| == 0 then 0.0
    else
      var m := |keys| - 1;
      GroupSum(keys[..m], vals[..m], k) + (if keys[m] == k && vals[m].Num? then vals[m].x else 0.0)
  }

  /** Number of numbers in `vals` whose key is `k`. */
  function GroupCount(keys: seq<Value>, vals: seq<Value>, k: Value): nat
    requires |keys| == |vals|
    decreases |keys|
  {
    if |keys| == 0 then 0
    else
      var m := |keys| - 1;
      GroupCount(keys[..m], vals[..m], k) + (if keys[m] == k && vals[m].Num? then 1 else 0)
  }

  /** pandas' group mean: NaN (`None`) when the group has no number. */
  function GroupMean(keys: seq<Value>, vals: seq<Value>, k: Value): Option<real>
    requires |keys| == |vals|
  {
    var n := GroupCount(keys, vals, k);
    if n == 0 then None else Some(GroupSum(keys, vals, k) / (n as real))
  }

  /** A number, or NaN as a missing cell. */
  function NumberCell(o: Option<real>): Value {
    match o
    case Some(x) => Num(x)
    case None => Missing
  }

  predicate AllNumbers(vals: seq<Value>) {
    forall k :: 0 <= k < |vals| ==> vals[k].Num? || vals[k].Missing?
  }

  predicate AllTimes(vals: seq<Value>) {
    forall k :: 0 <= k < |vals| ==> vals[k].Time? || vals[k].Missing?
  }

  // ---------------------------------------------------------------------
  // chart_line_over_time

  datatype LinePoint = LinePoint(key: Value, mean: Option<real>)

  /** `df.groupby(key_col, as_index=False)[value_col].mean()`: one point per
      distinct present key, in the sort order of the keys, carrying the mean
      of that group's numbers. */
  function LinePoints(keys: seq<Value>, vals: seq<Value>): (r: seq<LinePoint>)
    requires |keys| == |vals| && KeysComparable(keys)
    ensures forall i, j :: 0 <= i < j < |r| ==> KeyBelow(r[i].key, r[j].key)
    ensures forall v :: v in keys && !v.Missing? <==> exists j :: 0 <= j < |r| && r[j].key == v
    ensures forall j :: 0 <= j < |r| ==> r[j].mean == GroupMean(keys, vals, r[j].key)
  {
    var ks := SortedKeys(keys);
    var r := seq(|ks|, j requires 0 <= j < |ks| => LinePoint(ks[j], GroupMean(keys, vals, ks[j])));
    assert forall v :: v in ks ==> exists j :: 0 <= j < |r| && r[j].key == v by {
      forall v | v in ks ensures exists j :: 0 <= j < |r| && r[j].key == v {
        var j :| 0 <= j < |ks| && ks[j] == v;
        assert r[j].key == v;
      }
    }
    r
  }

  function LineRecords(timeCol: string, valueCol: string, pts: seq<LinePoint>): seq<Record> {
    seq(|pts|, j requires 0 <= j < |pts| => [(timeCol, pts[j].key), (valueCol, NumberCell(pts[j].mean))])
  }

  predicate HasNumber(vals: seq<Value>) { exists k :: 0 <= k < |vals| && vals[k].Num? }
  predicate HasText(vals: seq<Value>) { exists k :: 0 <= k < |vals| && vals[k].Text? }
  predicate HasTime(vals: seq<Value>) { exists k :: 0 <= k < |vals| && vals[k].Time? }

  /** Dtypes whose `infer_dtype` label is read off the cells rather than
      off the dtype. */
  predicate CellTyped(d: Dtype) {
    d.Object? || (d.Other? && d.spelling != "category")
  }

  predicate BoolSpelling(s: string) { s == "bool" || s == "boolean" }

  /** pandas' `infer_dtype` label of a column of the aggregated frame. A
      numeric or datetime dtype decides it; otherwise the cells do. The
      keys `groupby` leaves have no missing cell, and a missing cell is
      passed over. A number is a float here: the model does not tell
      Python ints, floats and bools apart inside an object column. */
  function InferDtype(d: Dtype, vals: seq<Value>): string {
    match d
    case Datetime => "datetime64"
    case Numeric(s) => if BoolSpelling(s) then "boolean" else "floating"
    case _ =>
      if d == Other("category") then "categorical"
      else if !HasNumber(vals) && !HasText(vals) && !HasTime(vals) then "empty"
      else if !HasNumber(vals) && !HasText(vals) then "datetime"
      else if !HasNumber(vals) && !HasTime(vals) then "string"
      else if !HasText(vals) && !HasTime(vals) then "floating"
      else "mixed"
  }

  /** Altair's mapping of an `infer_dtype` label to an encoding type; a
      label it does not know is nominal. */
  function AltairType(tag: string): FieldType {
    if tag in ["floating", "mixed-integer-float", "integer", "mixed-integer", "complex"] then Quantitative
    else if tag in ["string", "bytes", "categorical", "boolean", "mixed", "unicode"] then Nominal
    else if tag in ["datetime", "datetime64", "timedelta", "timedelta64", "date", "time", "period"] then Temporal
    else Nominal
  }

  /** The type Altair gives a shorthand field with no type: its mapping of
      `infer_dtype` on that column of the aggregated frame. Temporal for a
      datetime dtype or timestamps alone; quantitative for a numeric dtype
      other than bool, or numbers alone; nominal otherwise (bool, text,
      mixed kinds, categoricals and an object column left empty). */
  function KeyFieldType(d: Dtype, keys: seq<Value>): (f: FieldType)
    ensures f == Temporal <==>
      d == Datetime || (CellTyped(d) && HasTime(keys) && !HasNumber(keys) && !HasText(keys))
    ensures f == Quantitative <==>
      (d.Numeric? && !BoolSpelling(d.spelling)) || (CellTyped(d) && HasNumber(keys) && !HasText(keys) && !HasTime(keys))
  {
    AltairType(InferDtype(d, keys))
  }

  /** The keys of the aggregated line frame hold the same kinds of cells
      as the key column, so its type is read off the column's cells. */
  lemma SortedKeysKinds(keys: seq<Value>)
    requires KeysComparable(keys)
    ensures var r := SortedKeys(keys);
      && (HasNumber(r) <==> HasNumber(keys))
      && (HasText(r) <==> HasText(keys))
      && (HasTime(r) <==> HasTime(keys))
  {
    var r := SortedKeys(keys);
    NumbersKept(r, keys);
    TextsKept(r, keys);
    TimesKept(r, keys);
  }

  lemma NumbersKept(r: seq<Value>, keys: seq<Value>)
    requires forall v :: v in r <==> v in keys && !v.Missing?
    ensures HasNumber(r) <==> HasNumber(keys)
  {
    if HasNumber(keys) {
      var k :| 0 <= k < |keys| && keys[k].Num?;
      assert keys[k] in r;
    }
    if HasNumber(r) {
      var k :| 0 <= k < |r| && r[k].Num?;
      assert r[k] in keys;
    }
  }

  lemma TextsKept(r: seq<Value>, keys: seq<Value>)
    requires forall v :: v in r <==> v in keys && !v.Missing?
    ensures HasText(r) <==> HasText(keys)
  {
    if HasText(keys) {
      var k :| 0 <= k < |keys| && keys[k].Text?;
      assert keys[k] in r;
    }
    if HasText(r) {
      var k :| 0 <= k < |r| && r[k].Text?;
      assert r[k] in keys;
    }
  }

  lemma TimesKept(r: seq<Value>, keys: seq<Value>)
    requires forall v :: v in r <==> v in keys && !v.Missing?
    ensures HasTime(r) <==> HasTime(keys)
  {
    if HasTime(keys) {
      var k :| 0 <= k < |keys| && keys[k].Time?;
      assert keys[k] in r;
    }
    if HasTime(r) {
      var k :| 0 <= k < |r| && r[k].Time?;
      assert r[k] in keys;
    }
  }

  /** The x type of the line chart is the type of the key column's own
      cells. */
  lemma LineKeyType(c: Column)
    requires KeysComparable(c.values)
    ensures KeyFieldType(c.dtype, SortedKeys(c.values)) == KeyFieldType(c.dtype, c.values)
  {
    SortedKeysKinds(c.values);
  }

  /** `chart_line_over_time(df, time_col, value_col)`. A missing column is a
      KeyError; keys that mix numbers and timestamps, or values that are not
      numbers, are a TypeError. */
  function ChartLineOverTime(t: Table, timeCol: string, valueCol: string): (r: Result<ChartSpec>)
    requires Rectangular(t)
    ensures r.Ok? <==>
      && Lookup(t.columns, timeCol).Some? && Lookup(t.columns, valueCol).Some?
      && KeysComparable(Lookup(t.columns, timeCol).value.values)
      && AllNumbers(Lookup(t.columns, valueCol).value.values)
    ensures (Lookup(t.columns, timeCol).None? || Lookup(t.columns, valueCol).None?) ==> r == Err("KeyError")
    ensures r.Err? ==> r.error == "KeyError" || r.error == "TypeError"
    ensures r.Ok? ==>
      && r.value.mark == Line && r.value.height == ChartHeight
      && r.value.x == FieldChannel(timeCol, KeyFieldType(Lookup(t.columns, timeCol).value.dtype,
                                                        Lookup(t.columns, timeCol).value.values), timeCol)
      && r.value.y == FieldChannel(valueCol, Quantitative, "Mean " + valueCol)
      && r.value.data == LineRecords(timeCol, valueCol,
           LinePoints(Lookup(t.columns, timeCol).value.values, Lookup(t.columns, valueCol).value.values))
  {
    match (Lookup(t.columns, timeCol), Lookup(t.columns, valueCol))
    case (Some(tc), Some(vc)) =>
      if !KeysComparable(tc.values) || !AllNumbers(vc.values) then Err("TypeError")
      else
        var pts := LinePoints(tc.values, vc.values);
        LineKeyType(tc);
        Ok(ChartSpec(Line, LineRecords(timeCol, valueCol, pts),
                     FieldChannel(timeCol, KeyFieldType(tc.dtype, SortedKeys(tc.values)), timeCol),
                     FieldChannel(valueCol, Quantitative, "Mean " + valueCol),
                     [], ChartHeight))
    case _ => Err("KeyError")
  }

  /** A column of timestamps has keys the sort can compare. */
  lemma TimesComparable(vals: seq<Value>)
    requires AllTimes(vals)
    ensures KeysComparable(vals)
  {
  }

  // ---------------------------------------------------------------------
  // chart_bar_top_categories

  datatype BarRow = BarRow(key: Value, agg: Option<real>)

  /** Group aggregate: the mean when `agg == "mean"`, the sum (0 for a group
      without numbers) for any other string. */
  function Aggregate(keys: seq<Value>, vals: seq<Value>, k: Value, agg: string): Option<real>
    requires |keys| == |vals|
  {
    if agg == "mean" then GroupMean(keys, vals, k) else Some(GroupSum(keys, vals, k))
  }

  /** One row per distinct non-missing category, before sorting. */
  function BarGroups(keys: seq<Value>, vals: seq<Value>, agg: string): (r: seq<BarRow>)
    requires |keys| == |vals|
    ensures |r| == |DistinctPresent(keys)|
    ensures forall j :: 0 <= j < |r| ==> r[j] == BarRow(DistinctPresent(keys)[j], Aggregate(keys, vals, DistinctPresent(keys)[j], agg))
  {
    var cats := DistinctPresent(keys);
    seq(|cats|, j requires 0 <= j < |cats| => BarRow(cats[j], Aggregate(keys, vals, cats[j], agg)))
  }

  /** `sort_values(ascending=False)`: larger aggregates first, NaN last. */
  predicate Precedes(a: Option<real>, b: Option<real>) {
    b.None? || (a.Some? && a.value >= b.value)
  }

  predicate Descending(s: seq<BarRow>) {
    forall i, j :: 0 <= i < j < |s| ==> Precedes(s[i].agg, s[j].agg)
  }

  predicate DistinctRows(s: seq<BarRow>) {
    forall i, j :: 0 <= i < j < |s| ==> s[i] != s[j]
  }

  function InsertDesc(x: BarRow, s: seq<BarRow>): (r: seq<BarRow>)
    requires Descending(s)
    ensures Descending(r)
    ensures |r| == |s| + 1
    ensures forall y :: y in r <==> y == x || y in s
    ensures multiset(r) == multiset(s) + multiset{x}
    ensures DistinctRows(s) && x !in s ==> DistinctRows(r)
  {
    if |s| == 0 then [x]
    else if Precedes(x.agg, s[0].agg) then
      assert forall j :: 0 <= j < |s| ==> Precedes(s[0].agg, s[j].agg);
      [x] + s
    else
      var rest := InsertDesc(x, s[1..]);
      InsertDescCons(x, s, rest);
      [s[0]] + rest
  }

  /** Putting the first row back in front of the rest, once `x` has gone
      into the rest. */
  lemma InsertDescCons(x: BarRow, s: seq<BarRow>, rest: seq<BarRow>)
    requires Descending(s) && |s| > 0 && !Precedes(x.agg, s[0].agg)
    requires Descending(rest) && |rest| == |s|
    requires forall y :: y in rest <==> y == x || y in s[1..]
    requires multiset(rest) == multiset(s[1..]) + multiset{x}
    requires DistinctRows(s[1..]) && x !in s[1..] ==> DistinctRows(rest)
    ensures var r := [s[0]] + rest;
            && Descending(r)
            && (forall y :: y in r <==> y == x || y in s)
            && multiset(r) == multiset(s) + multiset{x}
            && (DistinctRows(s) && x !in s ==> DistinctRows(r))
  {
    assert s == [s[0]] + s[1..];
    forall j | 0 <= j < |rest| ensures Precedes(s[0].agg, rest[j].agg) {
      assert rest[j] in rest;
      if rest[j] != x {
        var q :| 0 <= q < |s[1..]| && s[1..][q] == rest[j];
        assert s[q + 1] == rest[j];
      }
    }
    ConsDescending(s[0], rest);
    if DistinctRows(s) && x !in s {
      assert s[0] !in s[1..];
      ConsDistinct(s[0], rest);
    }
  }

  /** A row that precedes every row of a descending run can go in front. */
  lemma ConsDescending(h: BarRow, rest: seq<BarRow>)
    requires Descending(rest)
    requires forall j :: 0 <= j < |rest| ==> Precedes(h.agg, rest[j].agg)
    ensures Descending([h] + rest)
  {
    var r := [h] + rest;
    forall i, j | 0 <= i < j < |r| ensures Precedes(r[i].agg, r[j].agg) {
      assert r[j] == rest[j - 1];
      if i > 0 {
        assert r[i] == rest[i - 1];
      }
    }
  }

  /** A row not among distinct rows can go in front and keep them distinct. */
  lemma ConsDistinct(h: BarRow, rest: seq<BarRow>)
    requires DistinctRows(rest) && h !in rest
    ensures DistinctRows([h] + rest)
  {
    var r := [h] + rest;
    forall i, j | 0 <= i < j < |r| ensures r[i] != r[j] {
      assert r[j] == rest[j - 1] && r[j] in rest;
      if i > 0 {
        assert r[i] == rest[i - 1];
      }
    }
  }

  /** An insertion sort into `Descending` order. pandas' sort is not stable,
      so nothing here depends on how ties are ordered. */
  function SortDesc(s: seq<BarRow>): (r: seq<BarRow>)
    ensures Descending(r)
    ensures |r| == |s|
    ensures forall y :: y in r <==> y in s
    ensures multiset(r) == multiset(s)
    ensures DistinctRows(s) ==> DistinctRows(r)
  {
    if |s| == 0 then []
    else
      assert DistinctRows(s) ==> s[0] !in s[1..];
      assert s == [s[0]] + s[1..];
      InsertDesc(s[0], SortDesc(s[1..]))
  }

  /** Number of rows `head(n)` keeps: the first n, or all but the last -n
      when n is negative. */
  function HeadCount(len: nat, n: int): (k: nat)
    ensures k <= len
  {
    if n >= 0 then (if n < len then n else len)
    else if len + n > 0 then len + n else 0
  }

  lemma DistinctGroups(keys: seq<Value>, vals: seq<Value>, agg: string)
    requires |keys| == |vals|
    ensures DistinctRows(BarGroups(keys, vals, agg))
  {
    var g := BarGroups(keys, vals, agg);
    var cats := DistinctPresent(keys);
    forall i, j | 0 <= i < j < |g| ensures g[i] != g[j] {
      assert FirstPos(keys, cats[i]) < FirstPos(keys, cats[j]);
    }
  }

  /** The rows of the bar chart: the groups sorted descending, cut to
      `head(top_n)`. */
  function BarRows(keys: seq<Value>, vals: seq<Value>, topN: int, agg: string): seq<BarRow>
    requires |keys| == |vals|
  {
    var s := SortDesc(BarGroups(keys, vals, agg));
    s[..HeadCount(|s|, topN)]
  }

  /** Every sorted row is a category of the input with its aggregate. */
  lemma SortedGroupRow(keys: seq<Value>, vals: seq<Value>, agg: string, j: int)
    requires |keys| == |vals| && 0 <= j < |SortDesc(BarGroups(keys, vals, agg))|
    ensures var x := SortDesc(BarGroups(keys, vals, agg))[j];
      x.key in keys && !x.key.Missing? && x.agg == Aggregate(keys, vals, x.key, agg)
  {
    var g := BarGroups(keys, vals, agg);
    var s := SortDesc(g);
    assert s[j] in g;
    var q :| 0 <= q < |g| && g[q] == s[j];
    assert DistinctPresent(keys)[q] in DistinctPresent(keys);
  }

  /** A category missing from the cut ranks no higher than any row kept. */
  lemma LeftOutRanksLower(keys: seq<Value>, vals: seq<Value>, topN: int, agg: string, c: Value)
    requires |keys| == |vals|
    requires c in keys && !c.Missing?
    requires var r := BarRows(keys, vals, topN, agg); forall j :: 0 <= j < |r| ==> r[j].key != c
    ensures var r := BarRows(keys, vals, topN, agg);
      forall j :: 0 <= j < |r| ==> Precedes(r[j].agg, Aggregate(keys, vals, c, agg))
  {
    var g := BarGroups(keys, vals, agg);
    var s := SortDesc(g);
    var m := HeadCount(|s|, topN);
    var cats := DistinctPresent(keys);
    assert c in cats;
    var q :| 0 <= q < |cats| && cats[q] == c;
    assert g[q] in s;
    var p :| 0 <= p < |s| && s[p] == g[q];
    var r := BarRows(keys, vals, topN, agg);
    assert r == s[..m];
    forall j | 0 <= j < m ensures s[j].key != c {
      assert r[j] == s[j];
    }
  }

  /** The bar rows: one per category (the mean or the sum of its numbers),
      sorted descending, cut to `head(top_n)`. Each category appears at most
      once, and every category left out ranks no higher than every one
      kept. */
  lemma BarRowsSpec(keys: seq<Value>, vals: seq<Value>, topN: int, agg: string)
    requires |keys| == |vals|
    ensures var r := BarRows(keys, vals, topN, agg);
      && |r| == HeadCount(|DistinctPresent(keys)|, topN)
      && Descending(r)
      && (forall j :: 0 <= j < |r| ==>
            r[j].key in keys && !r[j].key.Missing? && r[j].agg == Aggregate(keys, vals, r[j].key, agg))
      && (forall a, b :: 0 <= a < b < |r| ==> r[a].key != r[b].key)
      && (forall c :: c in keys && !c.Missing? && (forall j :: 0 <= j < |r| ==> r[j].key != c) ==>
            forall j :: 0 <= j < |r| ==> Precedes(r[j].agg, Aggregate(keys, vals, c, agg)))
  {
    var g := BarGroups(keys, vals, agg);
    DistinctGroups(keys, vals, agg);
    var s := SortDesc(g);
    var r := BarRows(keys, vals, topN, agg);
    assert r == s[..HeadCount(|s|, topN)];
    assert DistinctRows(s);
    forall j | 0 <= j < |r|
      ensures r[j].key in keys && !r[j].key.Missing? && r[j].agg == Aggregate(keys, vals, r[j].key, agg)
    {
      assert r[j] == s[j];
      SortedGroupRow(keys, vals, agg, j);
    }
    forall a, b | 0 <= a < b < |r| ensures r[a].key != r[b].key {
      assert r[a] == s[a] && r[b] == s[b];
      SortedGroupRow(keys, vals, agg, a);
      SortedGroupRow(keys, vals, agg, b);
    }
    forall c | c in keys && !c.Missing? && (forall j :: 0 <= j < |r| ==> r[j].key != c)
      ensures forall j :: 0 <= j < |r| ==> Precedes(r[j].agg, Aggregate(keys, vals, c, agg))
    {
      LeftOutRanksLower(keys, vals, topN, agg, c);
    }
  }

  /** The category column of the cut aggregated frame. */
  function RowKeys(rows: seq<BarRow>): seq<Value> {
    seq(|rows|, j requires 0 <= j < |rows| => rows[j].key)
  }

  function BarRecords(catCol: string, valueCol: string, rows: seq<BarRow>): seq<Record> {
    seq(|rows|, j requires 0 <= j < |rows| => [(catCol, rows[j].key), (valueCol, NumberCell(rows[j].agg))])
  }

  /** `chart_bar_top_categories(df, category_col, value_col, top_n, agg)`:
      aggregated value on x (titled with `agg.title()`), category on y
      sorted by descending x. A missing column is a KeyError; categories
      that mix numbers and timestamps, or values that are not numbers, are
      a TypeError. */
  function ChartBarTopCategories(t: Table, catCol: string, valueCol: string, topN: int, agg: string): (r: Result<ChartSpec>)
    requires Rectangular(t)
    ensures r.Ok? <==>
      && Lookup(t.columns, catCol).Some? && Lookup(t.columns, valueCol).Some?
      && KeysComparable(Lookup(t.columns, catCol).value.values)
      && AllNumbers(Lookup(t.columns, valueCol).value.values)
    ensures (Lookup(t.columns, catCol).None? || Lookup(t.columns, valueCol).None?) ==> r == Err("KeyError")
    ensures r.Err? ==> r.error == "KeyError" || r.error == "TypeError"
    ensures r.Ok? ==>
      && r.value.mark == Bar && r.value.height == ChartHeight
      && r.value.x == FieldChannel(valueCol, Quantitative, Title(agg) + " " + valueCol)
      && r.value.y == Channel(Some(catCol), Some(KeyFieldType(Lookup(t.columns, catCol).value.dtype,
           RowKeys(BarRows(Lookup(t.columns, catCol).value.values, Lookup(t.columns, valueCol).value.values, topN, agg)))),
           Some(catCol), None, None, Some("-x"))
      && r.value.data == BarRecords(catCol, valueCol,
           BarRows(Lookup(t.columns, catCol).value.values, Lookup(t.columns, valueCol).value.values, topN, agg))
  {
    match (Lookup(t.columns, catCol), Lookup(t.columns, valueCol))
    case (Some(cc), Some(vc)) =>
      if !KeysComparable(cc.values) || !AllNumbers(vc.values) then Err("TypeError")
      else
        var rows := BarRows(cc.values, vc.values, topN, agg);
        Ok(ChartSpec(Bar, BarRecords(catCol, valueCol, rows),
                     FieldChannel(valueCol, Quantitative, Title(agg) + " " + valueCol),
                     Channel(Some(catCol), Some(KeyFieldType(cc.dtype, RowKeys(rows))), Some(catCol), None, None, Some("-x")),
                     [], ChartHeight))
    case _ => Err("KeyError")
  }

  // ---------------------------------------------------------------------
  // chart_histogram

  /** `chart_histogram(df, value_col, bins)`: the whole frame embedded with
      no aggregation, x binned with `maxbins = bins`, y the row count. */
  function ChartHistogram(t: Table, valueCol: string, bins: int): (r: ChartSpec)
    requires Rectangular(t)
    ensures r.data == Records(t) && |r.data| == t.rows
    ensures KindOf(r) == Histogram && r.x.maxbins == Some(bins) && r.x.field == Some(valueCol)
    ensures r.y.aggregate == Some("count") && r.y.field.None?
    ensures r.height == ChartHeight
  {
    ChartSpec(Bar, Records(t),
              Channel(Some(valueCol), Some(Quantitative), Some(valueCol), None, Some(bins), None),
              Channel(None, None, Some("Count"), Some("count"), None, None),
              [], ChartHeight)
  }

  // ---------------------------------------------------------------------
  // default_dashboard

  /** The chart families a dashboard with these roles draws, in order. */
  function PlannedKinds(roles: Roles): seq<ChartKind> {
    (if roles.temporal != [] && roles.numeric != [] then [LineChart] else [])
    + (if roles.categorical != [] && roles.numeric != [] then [BarChart] else [])
    + (if roles.numeric != [] then [Histogram] else [])
  }

  function ChartKinds(charts: seq<ChartSpec>): (r: seq<ChartKind>)
    ensures |r| == |charts|
    ensures forall i :: 0 <= i < |charts| ==> r[i] == KindOf(charts[i])
  {
    seq(|charts|, i requires 0 <= i < |charts| => KindOf(charts[i]))
  }

  lemma ChartKindsAppend(a: seq<ChartSpec>, b: seq<ChartSpec>)
    ensures ChartKinds(a + b) == ChartKinds(a) + ChartKinds(b)
  {
  }

  /** Three runs of charts laid end to end keep their kinds; the first
      two start, and the last ends, where they were placed. */
  lemma PartsInOrder(a: seq<ChartSpec>, b: seq<ChartSpec>, c: seq<ChartSpec>)
    ensures ChartKinds(a + b + c) == ChartKinds(a) + ChartKinds(b) + ChartKinds(c)
    ensures |a| > 0 ==> (a + b + c)[0] == a[0]
    ensures |b| > 0 ==> (a + b + c)[|a|] == b[0]
    ensures |c| > 0 ==> (a + b + c)[|a| + |b| + |c| - 1] == c[|c| - 1]
  {
    ChartKindsAppend(a, b);
    ChartKindsAppend(a + b, c);
  }

  /** A dashboard draws each family at most once, line before bar before
      histogram: a line chart iff there is a temporal and a numeric column,
      a bar chart iff there is a categorical and a numeric column, a
      histogram iff there is a numeric column. */
  lemma PlannedKindsSpec(roles: Roles)
    ensures var k := PlannedKinds(roles);
      && (forall i, j :: 0 <= i < j < |k| ==> KindRank(k[i]) < KindRank(k[j]))
      && (LineChart in k <==> roles.temporal != [] && roles.numeric != [])
      && (BarChart in k <==> roles.categorical != [] && roles.numeric != [])
      && (Histogram in k <==> roles.numeric != [])
  {
  }

  /** Column `i` of the frame is found by name in the working frame,
      converted, with cells its dtype admits. */
  lemma WorkingColumn(df: Table, pd: DateParser, i: int)
    requires ValidTable(df) && 0 <= i < |df.columns|
    ensures Lookup(Working(df, pd).columns, df.columns[i].name) == Some(Converted(df.columns[i], pd))
    ensures ColumnAdmits(Converted(df.columns[i], pd))
  {
    WorkingValid(df, pd);
    var w := Working(df, pd);
    LookupOwnName(w.columns, i);
    assert ColumnAdmits(w.columns[i]);
  }

  /** The first column of each role list is one the chart builders accept:
      temporal ones hold timestamps, numeric ones numbers. */
  predicate Drawable(w: Table, roles: Roles) {
    && Rectangular(w)
    && (roles.temporal != [] ==>
          Lookup(w.columns, roles.temporal[0]).Some? && AllTimes(Lookup(w.columns, roles.temporal[0]).value.values))
    && (roles.numeric != [] ==>
          Lookup(w.columns, roles.numeric[0]).Some? && AllNumbers(Lookup(w.columns, roles.numeric[0]).value.values))
    && (roles.categorical != [] ==> Lookup(w.columns, roles.categorical[0]).Some?)
  }

  /** A temporal column of the roles holds timestamps in the working frame. */
  lemma TemporalColumnShape(df: Table, pd: DateParser, n: string)
    requires ValidTable(df) && n in VizRoles(df.columns, pd).temporal
    ensures Lookup(Working(df, pd).columns, n).Some?
    ensures AllTimes(Lookup(Working(df, pd).columns, n).value.values)
  {
    var kinds := Kinds(df.columns, pd);
    NamesTaggedSpec(df.columns, kinds, NativeTime, n);
    NamesTaggedSpec(df.columns, kinds, ParsedTime, n);
    var i :| 0 <= i < |df.columns| && df.columns[i].name == n && (kinds[i] == NativeTime || kinds[i] == ParsedTime);
    var c := Converted(df.columns[i], pd);
    assert c.dtype == Datetime;
    WorkingColumn(df, pd, i);
    AdmittedTimes(c);
  }

  lemma AdmittedTimes(c: Column)
    requires c.dtype == Datetime && ColumnAdmits(c)
    ensures AllTimes(c.values)
  {
    forall k | 0 <= k < |c.values| ensures c.values[k].Time? || c.values[k].Missing? {
      assert Admits(c.dtype, c.values[k]);
    }
  }

  /** A numeric column of the roles holds numbers in the working frame. */
  lemma NumericColumnShape(df: Table, pd: DateParser, n: string)
    requires ValidTable(df) && n in VizRoles(df.columns, pd).numeric
    ensures Lookup(Working(df, pd).columns, n).Some?
    ensures AllNumbers(Lookup(Working(df, pd).columns, n).value.values)
  {
    var kinds := Kinds(df.columns, pd);
    NamesTaggedSpec(df.columns, kinds, NumericCol, n);
    var i :| 0 <= i < |df.columns| && df.columns[i].name == n && kinds[i] == NumericCol;
    var c := Converted(df.columns[i], pd);
    assert c == df.columns[i] && c.dtype.Numeric?;
    WorkingColumn(df, pd, i);
    AdmittedNumbers(c);
  }

  lemma AdmittedNumbers(c: Column)
    requires c.dtype.Numeric? && ColumnAdmits(c)
    ensures AllNumbers(c.values)
  {
    forall k | 0 <= k < |c.values| ensures c.values[k].Num? || c.values[k].Missing? {
      assert Admits(c.dtype, c.values[k]);
    }
  }

  /** A categorical column of the roles exists in the working frame. */
  lemma CategoricalColumnFound(df: Table, pd: DateParser, n: string)
    requires ValidTable(df) && n in VizRoles(df.columns, pd).categorical
    ensures Lookup(Working(df, pd).columns, n).Some?
  {
    var kinds := Kinds(df.columns, pd);
    NamesTaggedSpec(df.columns, kinds, CategoricalCol, n);
    var i :| 0 <= i < |df.columns| && df.columns[i].name == n && kinds[i] == CategoricalCol;
    WorkingColumn(df, pd, i);
  }

  /** The classifier only ever picks columns the builders accept. */
  lemma DetectedDrawable(df: Table, pd: DateParser)
    requires ValidTable(df)
    ensures Drawable(Working(df, pd), VizRoles(df.columns, pd))
  {
    WorkingValid(df, pd);
    var r := VizRoles(df.columns, pd);
    if r.temporal != [] {
      TemporalColumnShape(df, pd, r.temporal[0]);
    }
    if r.numeric != [] {
      NumericColumnShape(df, pd, r.numeric[0]);
    }
    if r.categorical != [] {
      CategoricalColumnFound(df, pd, r.categorical[0]);
    }
  }

  /** The bar chart of the dashboard raises: its category column mixes
      numbers and timestamps, which `groupby` cannot sort. */
  predicate BarFails(w: Table, roles: Roles) {
    && roles.categorical != [] && roles.numeric != []
    && Lookup(w.columns, roles.categorical[0]).Some?
    && !KeysComparable(Lookup(w.columns, roles.categorical[0]).value.values)
  }

  /** The line chart of the dashboard, when there is one to draw. */
  method LinePart(w: Table, roles: Roles) returns (lines: seq<ChartSpec>)
    requires Drawable(w, roles)
    ensures ChartKinds(lines) == (if roles.temporal != [] && roles.numeric != [] then [LineChart] else [])
    ensures roles.temporal != [] && roles.numeric != [] ==>
      ChartLineOverTime(w, roles.temporal[0], roles.numeric[0]) == Ok(lines[0])
  {
    lines := [];
    if roles.temporal != [] && roles.numeric != [] {
      TimesComparable(Lookup(w.columns, roles.temporal[0]).value.values);
      var line := ChartLineOverTime(w, roles.temporal[0], roles.numeric[0]);
      lines := [line.value];
    }
  }

  /** The bar chart of the dashboard, when there is one to draw, or the
      TypeError it raises. */
  method BarPart(w: Table, roles: Roles) returns (bars: Result<seq<ChartSpec>>)
    requires Drawable(w, roles)
    ensures bars.Err? <==> BarFails(w, roles)
    ensures bars.Err? ==> bars.error == "TypeError"
    ensures bars.Ok? ==>
      ChartKinds(bars.value) == (if roles.categorical != [] && roles.numeric != [] then [BarChart] else [])
    ensures bars.Ok? && roles.categorical != [] && roles.numeric != [] ==>
      ChartBarTopCategories(w, roles.categorical[0], roles.numeric[0], 10, "mean") == Ok(bars.value[0])
  {
    bars := Ok([]);
    if roles.categorical != [] && roles.numeric != [] {
      var bar := ChartBarTopCategories(w, roles.categorical[0], roles.numeric[0], 10, "mean");
      if bar.Err? {
        bars := Err(bar.error);
      } else {
        bars := Ok([bar.value]);
      }
    }
  }

  /** The histogram of the dashboard, when there is one to draw. */
  method HistogramPart(w: Table, roles: Roles) returns (hists: seq<ChartSpec>)
    requires Drawable(w, roles)
    ensures ChartKinds(hists) == (if roles.numeric != [] then [Histogram] else [])
    ensures roles.numeric != [] ==> hists[0] == ChartHistogram(w, roles.numeric[0], 30)
  {
    hists := [];
    if roles.numeric != [] {
      hists := [ChartHistogram(w, roles.numeric[0], 30)];
    }
  }

  /** The charts drawn for the given roles on the working frame: the line,
      bar and histogram builders, in that order, each only when its columns
      exist; the call raises exactly when the bar chart does. */
  method DrawCharts(w: Table, roles: Roles) returns (charts: Result<seq<ChartSpec>>)
    requires Drawable(w, roles)
    ensures charts.Err? <==> BarFails(w, roles)
    ensures charts.Err? ==> charts.error == "TypeError"
    ensures charts.Ok? ==> ChartKinds(charts.value) == PlannedKinds(roles)
    ensures charts.Ok? && roles.temporal != [] && roles.numeric != [] ==>
      ChartLineOverTime(w, roles.temporal[0], roles.numeric[0]) == Ok(charts.value[0])
    ensures charts.Ok? && roles.categorical != [] && roles.numeric != [] ==>
      ChartBarTopCategories(w, roles.categorical[0], roles.numeric[0], 10, "mean")
        == Ok(charts.value[if roles.temporal != [] then 1 else 0])
    ensures charts.Ok? && roles.numeric != [] ==>
      charts.value[|charts.value| - 1] == ChartHistogram(w, roles.numeric[0], 30)
  {
    var lines := LinePart(w, roles);
    var bars := BarPart(w, roles);
    if bars.Err? {
      return Err(bars.error);
    }
    var hists := HistogramPart(w, roles);
    var all := lines + bars.value + hists;
    var line := if roles.temporal != [] && roles.numeric != []
      then ChartLineOverTime(w, roles.temporal[0], roles.numeric[0]) else Err("");
    var bar := if roles.categorical != [] && roles.numeric != []
      then ChartBarTopCategories(w, roles.categorical[0], roles.numeric[0], 10, "mean") else Err("");
    var hist := if roles.numeric != [] then Ok(ChartHistogram(w, roles.numeric[0], 30)) else Err("");
    AssembleCharts(lines, bars.value, hists, roles, line, bar, hist);
    charts := Ok(all);
  }

  /** Where each part lands in the dashboard's list: the charts the parts
      were built from are found at the planned positions. */
  lemma AssembleCharts(lines: seq<ChartSpec>, bars: seq<ChartSpec>, hists: seq<ChartSpec>, roles: Roles,
                       line: Result<ChartSpec>, bar: Result<ChartSpec>, hist: Result<ChartSpec>)
    requires ChartKinds(lines) == (if roles.temporal != [] && roles.numeric != [] then [LineChart] else [])
    requires ChartKinds(bars) == (if roles.categorical != [] && roles.numeric != [] then [BarChart] else [])
    requires ChartKinds(hists) == (if roles.numeric != [] then [Histogram] else [])
    requires roles.temporal != [] && roles.numeric != [] ==> line == Ok(lines[0])
    requires roles.categorical != [] && roles.numeric != [] ==> bar == Ok(bars[0])
    requires roles.numeric != [] ==> hist == Ok(hists[0])
    ensures var all := lines + bars + hists;
      && ChartKinds(all) == PlannedKinds(roles)
      && (roles.temporal != [] && roles.numeric != [] ==> line == Ok(all[0]))
      && (roles.categorical != [] && roles.numeric != [] ==>
            bar == Ok(all[if roles.temporal != [] then 1 else 0]))
      && (roles.numeric != [] ==> hist == Ok(all[|all| - 1]))
  {
    PartsInOrder(lines, bars, hists);
    assert |lines| == (if roles.temporal != [] && roles.numeric != [] then 1 else 0);
    assert |hists| == (if roles.numeric != [] then 1 else 0);
  }

  /** `default_dashboard(df)`: classifies a copy, then draws, in this order
      and only when their columns exist, a line chart (first temporal x
      first numeric), a bar chart (first categorical x first numeric, mean,
      top 10) and a histogram (first numeric, 30 bins). The line chart and
      the histogram never fail on the columns the classifier picked; the
      call raises only when the categorical column mixes numbers and
      timestamps. */
  method DefaultDashboard(df: Table, pd: DateParser) returns (charts: Result<seq<ChartSpec>>, roles: Roles)
    requires ValidTable(df)
    ensures roles == VizRoles(df.columns, pd)
    ensures charts.Err? <==> BarFails(Working(df, pd), roles)
    ensures charts.Err? ==> charts.error == "TypeError"
    ensures charts.Ok? ==> ChartKinds(charts.value) == PlannedKinds(roles)
    ensures charts.Ok? && roles.temporal != [] && roles.numeric != [] ==>
      ChartLineOverTime(Working(df, pd), roles.temporal[0], roles.numeric[0]) == Ok(charts.value[0])
    ensures charts.Ok? && roles.categorical != [] && roles.numeric != [] ==>
      ChartBarTopCategories(Working(df, pd), roles.categorical[0], roles.numeric[0], 10, "mean")
        == Ok(charts.value[if roles.temporal != [] then 1 else 0])
    ensures charts.Ok? && roles.numeric != [] ==>
      charts.value[|charts.value| - 1] == ChartHistogram(Working(df, pd), roles.numeric[0], 30)
  {
    var w;
    w, roles := DetectColumns(df, pd);
    DetectedDrawable(df, pd);
    charts := DrawCharts(w, roles);
  }
}

=== FILE: wrappers.dfy ===
/** Option and Result: the model's way of writing "no value" and the
    exceptions the source raises. */
module Wrappers {

  datatype Option<+T> = None | Some(value: T) {

    /** The wrapped value, or `default` when there is none. */
    function GetOr(default: T): T {
      match this
      case Some(v) => v
      case None => default
    }
  }

  /** `Ok` carries a value; `Err` carries the name of the exception the
      source would raise. */
  datatype Result<+R> = Ok(value: R) | Err(error: string)
}
